=== FILE: README.md ===
# Fusion core protocols in Dafny

This project models the sequential logic around Fusion's incremental-computation
engine (ActualLab.Fusion and its Stl / ActualLab support libraries) and proves
properties of that model. The dependency graph itself is not modelled; what is
modelled is the protocol and data-structure logic that surrounds it:

- **`ComputedCapture`** (`computed_capture.dfy`): the ambient compute-context
  stack, the four scope kinds (compute, isolation, capture, capture-existing)
  and the helpers `TryCapture`, `Capture` and `GetExisting`, which turn a
  producer's outcome and the computed it captured into a result.
- **`TimerSets`** (`timer_set.dfy`): `ConcurrentTimerSet` as a sequential map
  from item to due moment, with conditional reschedules, removal, a tick that
  fires due items, and a tick-source driver.
- **`RpcOutbound`** (`rpc_outbound.dfy`): `RpcOutboundContext`, the state of one
  outbound RPC call: prepare, reroute, the local-call short-circuit, the
  pinned-peer rule, cache-key and cache-data capture, and the
  activate/dispose scope discipline of the current context.
- **`ClientCache`** (`client_cache.dfy`): `InMemoryClientComputedCache`, a
  key → value store written by batch flushes.
- **`VersionSets`** (`version_set.dfy`): `VersionSet`, the handshake payload.
  It covers parsing and formatting of the `scope=version,…` list, the
  defaulting indexer, the XOR hash code and order-independent equality. The
  module also holds the `RpcHandshake` record that carries a version set.
- **`Arguments`** (`argument_list.dfy`): `ArgumentList` as one list of any
  length. It covers bounds-checked get/set, `ToArray`, `ToString`, and
  equality and hash codes that can ignore one slot or use per-slot delegates.
  Hashes use wrapping 32-bit arithmetic.
- **`LogProcessing`** (`log_processor.dfy`): the index arithmetic of
  `DbLogProcessor`. It covers batch fetching, gap detection, per-(shard,
  index) de-duplication of gap tasks, the skip/fallback rules of
  `ProcessSafe`, the next-index advance, the continue rule, and gap
  processing in both modes.
- **`CommandHandlers`** (`command_handlers.dfy`): `CommandHandlerResolver`. It
  selects handlers through the command's base types and the filters, orders
  them by priority and base-type index, removes duplicates, enforces the
  single-handler rule for regular commands, builds one chain per handler for
  event commands, and caches per command type.
- **`RpcServiceDefs`** (`rpc_service_def.dfy`): `RpcServiceDef`. It covers the
  name fallback, building the method registry (skips and name conflicts),
  lookups and indexers, and the cached `ToString` with its kind suffix.
- **`TransiencyResolvers`** (`transiency.dfy`): the exception → `Transiency`
  decision table of the three standard resolvers.
- **`Todos`** (`todos.dfy`): the sample `SimpleTodos` store, whose commands
  keep todo ids unique.
- **`Base64`** (`base64.dfy`): the `Base64Encoded` value type, with `Encode`
  as the Base64 of section 4 of RFC 4648 and a decoder as its inverse.

Shared helpers are `Wrappers` (`Option`, `Result`) and `Text` (join, split,
index-of and decimal text of naturals).

Ambient state is passed explicitly: the thread-static or async-local current
context, the processor's dictionaries, the timer set and the caches. So are
external services: the call router, the method-def builder, the version
generator, the fresh-id source, the item hash functions, and the set of log
indexes whose processing throws. Each of these is a parameter or a datatype
field.

## Model

| member | source | states |
|---|---|---|
| ComputedCapture.GetCurrent | src/ActualLab.Fusion/Computed.Static.cs:13-21 | Succeeds exactly when the innermost context has a computed, returning that computed. Otherwise it fails with `CurrentComputedIsNull`. |
| ComputedCapture.Begin | src/ActualLab.Fusion/Computed.Static.cs:23-33 | Opening a scope makes its context current. Disposing the scope gives back the stack exactly as it was. |
| ComputedCapture.Dispose | src/ActualLab.Fusion/Computed.Static.cs:41 | Disposing a scope pops exactly the innermost context. Pushing that context back gives the stack the scope closed. |
| ComputedCapture.BeginCompute | src/ActualLab.Fusion/Computed.Static.cs:23-24 | The scope makes its computed current: `GetCurrent` returns it. The context neither captures nor holds a captured computed. Disposing the scope restores the previous stack exactly. |
| ComputedCapture.BeginIsolation | src/ActualLab.Fusion/Computed.Static.cs:26-27 | The scope installs `ComputeContext.None`: `GetCurrent` fails with `CurrentComputedIsNull` and nothing is captured. Disposing it restores the previous stack exactly. |
| ComputedCapture.BeginCapture | src/ActualLab.Fusion/Computed.Static.cs:29-30 | The new context captures but does not ask for an existing computed. It has no computed of its own and has captured nothing yet. Disposing it restores the previous stack exactly. |
| ComputedCapture.BeginCaptureExisting | src/ActualLab.Fusion/Computed.Static.cs:32-33 | The new context captures and asks for an existing computed. It has no computed of its own and has captured nothing yet. Disposing it restores the previous stack exactly. |
| ComputedCapture.Record | src/ActualLab.Fusion/Computed.Static.cs:44 | A computed reported to the current context is kept only when that context captures. The rest of the stack and the context's own computed and options are unchanged. |
| ComputedCapture.IsolationRecordsNothing | src/ActualLab.Fusion/Computed.Static.cs:26-27 | Under an isolation scope a reported computed is not captured. |
| ComputedCapture.RunInScope | src/ActualLab.Fusion/Computed.Static.cs:37-52 | Running a producer in a scope leaves the stack as it was before (the `using` scope is disposed on every path). A fresh capturing context yields the producer's computed; a non-capturing one yields nothing new. |
| ComputedCapture.TryCapture | src/ActualLab.Fusion/Computed.Static.cs:37-52 | A completed producer gives whatever was captured, possibly nothing. A failed producer gives the captured computed exactly when the failure is not cancellation of the caller's token and that computed carries an error. Otherwise the original exception is rethrown. The scope stack is restored. |
| ComputedCapture.Capture | src/ActualLab.Fusion/Computed.Static.cs:107-122 | A completed producer succeeds exactly when something was captured (`GetCaptured`), and fails with `NoComputedCaptured` otherwise. The scope stack is restored. |
| ComputedCapture.CaptureUnwrapsTryCapture | src/ActualLab.Fusion/Computed.Static.cs:107-122 | `Capture` returns computed c exactly when `TryCapture` returns Some(c). It fails with `NoComputedCaptured` where `TryCapture` yields nothing, and with the same error where `TryCapture` throws. |
| ComputedCapture.CancellationPropagates | src/ActualLab.Fusion/Computed.Static.cs:46 | Cancellation of the caller's own token is rethrown by both helpers and never turned into a result. |
| ComputedCapture.FailureYieldsErrorComputed | src/ActualLab.Fusion/Computed.Static.cs:46-51 | After a failure neither helper reports "nothing captured", and any computed returned carries an error. |
| ComputedCapture.GetExisting | src/ActualLab.Fusion/Computed.Static.cs:177-183 | Fails (`AssertCompleted`) exactly when the producer did not complete synchronously. Otherwise it returns the computed the producer reported to the capture-existing context, or null when it reported none. The stack is restored. |
| TimerSets.Empty | tests/ActualLab.Tests/Time/ConcurrentTimerSetTest.cs:27-32 | A new timer set has `Count` 0. |
| TimerSets.AddOrUpdate | tests/ActualLab.Tests/Time/ConcurrentTimerSetTest.cs:147-148 | The item becomes due at the given moment. Every other item keeps its presence and its due moment. |
| TimerSets.AddOrUpdateToEarlier | tests/ActualLab.Tests/Time/ConcurrentTimerSetTest.cs:47-53 | Reports a change exactly when the set changes, and exactly when the item is absent or the new moment is earlier. The item ends up due no later than the new moment, and no later than before. Every other item keeps its presence and due moment. |
| TimerSets.AddOrUpdateToLater | tests/ActualLab.Tests/Time/ConcurrentTimerSetTest.cs:36-43 | Reports a change exactly when the set changes, and exactly when the item is absent or the new moment is later. The item ends up due no earlier than the new moment, and no earlier than before. Every other item keeps its presence and due moment. |
| TimerSets.EarlierLaterRules | tests/ActualLab.Tests/Time/ConcurrentTimerSetTest.cs:36-53 | `AddOrUpdateToEarlier` reports a change exactly when the item is absent or the new moment is earlier; `AddOrUpdateToLater` exactly when it is absent or the new moment is later. A change reschedules only that item. A refused update leaves the set unchanged. |
| TimerSets.EarlierLaterBounds | tests/ActualLab.Tests/Time/ConcurrentTimerSetTest.cs:36-53 | For a pending item, the conditional updates leave it due at the minimum (earlier) or maximum (later) of the old and new moments. |
| TimerSets.Remove | tests/ActualLab.Tests/Time/ConcurrentTimerSetTest.cs:57-63 | Returns true exactly when the item was pending. Afterwards the item is gone and every other timer is unchanged. |
| TimerSets.Tick | tests/ActualLab.Tests/Time/ConcurrentTimerSetTest.cs:36-53 | A tick at `now` fires exactly the pending items due at or before `now`. Exactly the others remain, with their due moments. |
| TimerSets.RemovedNeverFires | tests/ActualLab.Tests/Time/ConcurrentTimerSetTest.cs:78-83 | An item that is not pending neither fires nor remains after a tick. |
| TimerSets.FiresWhenDue | tests/ActualLab.Tests/Time/ConcurrentTimerSetTest.cs:36-53 | A freshly added timer fires on a tick exactly when the tick is at or after its due moment. |
| TimerSets.Run | tests/ActualLab.Tests/Time/ConcurrentTimerSetTest.cs:147-159 | Driving the set with periodic ticks fires each item no earlier than its due moment, and less than one resolution after it unless it was already due at the first tick. A pending item has fired exactly when it is no longer in the set. Items still pending were due after the last tick. |
| TimerSets.RunUntilAllDue | tests/ActualLab.Tests/Time/ConcurrentTimerSetTest.cs:151-159 | Once the last tick is at or after every due moment, every timer has fired and `Count` is 0. Each fire time is within one resolution of its due moment. |
| RpcOutbound.NewContext | src/ActualLab.Rpc/Infrastructure/RpcOutboundContext.cs:31-33 | A fresh context has no method, arguments, call or peer. |
| RpcOutbound.TokenAt | src/ActualLab.Rpc/Infrastructure/RpcOutboundContext.cs:48-49 | Reading the token slot fails with `ArgumentOutOfRange` exactly when the index is outside the argument list. |
| RpcOutbound.Dispatch | src/ActualLab.Rpc/Infrastructure/RpcOutboundContext.cs:53-63 | The chosen peer is stored. A local-call peer produces no call (`Call` null). Any other peer gets a new call for that peer and method. Nothing else in the context changes. |
| RpcOutbound.PrepareCall | src/ActualLab.Rpc/Infrastructure/RpcOutboundContext.cs:40-64 | A context that already has a method throws `AlreadyInvoked` and is unchanged. Otherwise the method and arguments are stored first. A failure can only be the token read on an index past the end. |
| RpcOutbound.SecondPrepareFails | src/ActualLab.Rpc/Infrastructure/RpcOutboundContext.cs:42-43 | After any first `PrepareCall`, a second one throws `AlreadyInvoked` and changes nothing. |
| RpcOutbound.PrepareCallOutcome | src/ActualLab.Rpc/Infrastructure/RpcOutboundContext.cs:45-63 | The call succeeds exactly when the token index is below the argument count. The token is the default for a negative index, else the slot's token. The peer is the pre-selected peer, else the router's choice. A call is created exactly for a non-local peer. |
| RpcOutbound.PrepareReroutedCall | src/ActualLab.Rpc/Infrastructure/RpcOutboundContext.cs:67-87 | Throws `NotInvoked` before `PrepareCall`, and `InternalError` when a peer is pinned, leaving the context unchanged. Otherwise it succeeds: the peer becomes the router's current choice, and a local-call peer gets no call (null). Any other peer gets a new call for that peer and method. The returned call is the one stored in the context, and nothing else in the context changes. |
| RpcOutbound.IsPeerChanged | src/ActualLab.Rpc/Infrastructure/RpcOutboundContext.cs:89-90 | False whenever a peer is pre-selected. Otherwise true exactly when the router now picks a different peer; without a method it dereferences null. |
| RpcOutbound.FreshRouteUnchanged | src/ActualLab.Rpc/Infrastructure/RpcOutboundContext.cs:67-90 | Right after a successful reroute the peer is not reported as changed. |
| RpcOutbound.MustCaptureCacheKey | src/ActualLab.Rpc/Infrastructure/RpcOutboundContext.cs:92-103 | Without a capture: false, with `keyOnly` false and nothing changed. With a capture: true, `keyOnly` exactly in KeyOnly mode, and a key is set afterwards. Only the capture's key can change, and only when it was unset. It fails only when a key must be computed from serialized arguments while no method is set. |
| RpcOutbound.CacheKeyCapturedOnce | src/ActualLab.Rpc/Infrastructure/RpcOutboundContext.cs:99-101 | The key is assigned only while it is null: a second call keeps the first key and changes nothing, whatever its message. |
| RpcOutbound.CapturedKeyValue | src/ActualLab.Rpc/Infrastructure/RpcOutboundContext.cs:99-101 | The first captured key is (service, method, argument data) for a message whose `Arguments` are null, and `Invalid` otherwise. |
| RpcOutbound.MustCaptureCacheData | src/ActualLab.Rpc/Infrastructure/RpcOutboundContext.cs:105-109 | True exactly when the capture has a data source, and then that source is handed out. |
| RpcOutbound.GetCurrent | src/ActualLab.Rpc/Infrastructure/RpcOutboundContext.cs:27-28 | Returns the current context, or throws `NoCurrentRpcOutboundContext` when there is none. |
| RpcOutbound.Activate | src/ActualLab.Rpc/Infrastructure/RpcOutboundContext.cs:119-125 | The activated context becomes current, and the scope remembers the previous one. |
| RpcOutbound.DisposeScope | src/ActualLab.Rpc/Infrastructure/RpcOutboundContext.cs:127-134 | Throws `RpcOutboundContextChanged`, changing nothing, exactly when the current context is no longer the scope's. Otherwise the previous context becomes current again. |
| RpcOutbound.ActivateDisposeRestores | src/ActualLab.Rpc/Infrastructure/RpcOutboundContext.cs:119-134 | Activating a context and disposing its scope restores the previous current context without error. |
| RpcOutbound.OutOfOrderDisposeFails | src/ActualLab.Rpc/Infrastructure/RpcOutboundContext.cs:127-130 | Disposing an outer scope while an inner, different context is current throws `RpcOutboundContextChanged`. |
| ClientCache.Fetch | src/ActualLab.Fusion/Client/Caching/InMemoryClientComputedCache.cs:19-22 | A hit exactly for a stored key, returning the stored value. A miss otherwise. |
| ClientCache.Flush | src/ActualLab.Fusion/Client/Caching/InMemoryClientComputedCache.cs:24-34 | A queued value sets its key to exactly that value. A queued null makes the key miss. Keys not in the queue answer as before. |
| ClientCache.FlushInOrder | src/ActualLab.Fusion/Client/Caching/InMemoryClientComputedCache.cs:27-32 | The loop of `Flush()`, one queued entry at a time in enumeration order, computes the same cache as `Flush` of the queue's dictionary. |
| ClientCache.FlushIdempotent | src/ActualLab.Fusion/Client/Caching/InMemoryClientComputedCache.cs:24-34 | Flushing the same queue twice gives the same cache as flushing it once. |
| ClientCache.SameFetchSameCache | src/ActualLab.Fusion/Client/Caching/InMemoryClientComputedCache.cs:19-22 | A cache is determined by its `Fetch` answers. |
| ClientCache.Clear | src/ActualLab.Fusion/Client/Caching/InMemoryClientComputedCache.cs:36-40 | After `Clear` every key misses. |
| VersionSets.ParseVersion | src/ActualLab.Core/Collections/VersionSet.cs:128-135 | A parsed version has two to four components, each at most `int.MaxValue`. |
| VersionSets.ParseFormatVersion | src/ActualLab.Core/Collections/VersionSet.cs:128-135 | A valid version parses back from its formatted text. |
| VersionSets.ToMap | src/ActualLab.Core/Collections/VersionSet.cs:13 | The dictionary is empty exactly when there are no items, and the first item's scope maps to its version. `ToMapKeys`, `ToMapValue` and `ToMapSize` complete it for every item. |
| VersionSets.ToMapKeys | src/ActualLab.Core/Collections/VersionSet.cs:21-23 | A scope is a key of the set's dictionary exactly when some item names it. |
| VersionSets.ToMapValue | src/ActualLab.Core/Collections/VersionSet.cs:21-23 | With distinct scopes, the dictionary maps each item's scope to that item's version. |
| VersionSets.ToMapSize | src/ActualLab.Core/Collections/VersionSet.cs:21 | With distinct scopes, `Count` equals the number of dictionary keys. |
| VersionSets.Lookup | src/ActualLab.Core/Collections/VersionSet.cs:40-41 | Finds a version exactly for a key of the dictionary, and returns that key's version. |
| VersionSets.Get | src/ActualLab.Core/Collections/VersionSet.cs:40-41 | The indexer returns the stored version of a known scope, and `ZeroVersion` (0.0) for an unknown one. |
| VersionSets.Put | src/ActualLab.Core/Collections/VersionSet.cs:138 | `versions[scope] = version` never drops an entry and adds at most one. `PutSpec` states the dictionary update and the kept order. |
| VersionSets.PutSpec | src/ActualLab.Core/Collections/VersionSet.cs:137-138 | Assigning a scope in the parser's dictionary keeps scopes distinct. The dictionary becomes the old one updated at that scope. The count grows exactly for a new scope, and existing positions keep their scopes. |
| VersionSets.ParseItems | src/ActualLab.Core/Collections/VersionSet.cs:116-140 | A successful parse yields distinct scopes with valid versions. |
| VersionSets.TryParse | src/ActualLab.Core/Collections/VersionSet.cs:109-143 | A parsed set is well formed, and null or "" parses to the empty set. |
| VersionSets.Parse | src/ActualLab.Core/Collections/VersionSet.cs:104-105 | Succeeds exactly when `TryParse` does, with its set. Otherwise it fails with a format error naming the input. |
| VersionSets.EmptyText | src/ActualLab.Core/Collections/VersionSet.cs:111-114 | Null and "" parse to the empty set, whichever `ignoreErrors` is given. The empty set formats as "". |
| VersionSets.ParseItemsLastWins | src/ActualLab.Core/Collections/VersionSet.cs:137-138 | When a scope appears in several items, the parsed set holds the version of the last well-formed one. A scope with no well-formed item is absent. |
| VersionSets.ParseItemsIgnoring | src/ActualLab.Core/Collections/VersionSet.cs:121-135 | With `ignoreErrors` the parse never fails. |
| VersionSets.ParseItemsFailure | src/ActualLab.Core/Collections/VersionSet.cs:121-135 | Without `ignoreErrors` the parse fails exactly when some item lacks '=' or has an unparsable version. |
| VersionSets.AllMalformedIgnored | src/ActualLab.Core/Collections/VersionSet.cs:121-135 | With `ignoreErrors`, a list of only malformed items parses to the empty set. |
| VersionSets.TextWithoutEquals | src/ActualLab.Core/Collections/VersionSet.cs:121-126 | A non-empty text without '=' fails to parse, or gives the empty set when errors are ignored. |
| VersionSets.ParseItem | src/ActualLab.Core/Collections/VersionSet.cs:120-137 | A parsed item always carries a valid version. `ParseItemSplit` states where it comes from, and `ParseItemText` is the inverse of formatting. |
| VersionSets.ParseItemSplit | src/ActualLab.Core/Collections/VersionSet.cs:121-137 | A parsed item splits its text at the first '=': the scope is the text before it and contains no '=', and the text after it parses as the item's version. |
| VersionSets.ParseItemText | src/ActualLab.Core/Collections/VersionSet.cs:118-135 | One formatted `scope=version` item parses back to itself when the scope has no '='. |
| VersionSets.PutAppends | src/ActualLab.Core/Collections/VersionSet.cs:137-138 | Assigning a scope the dictionary does not hold appends it. |
| VersionSets.ParseItemTexts | src/ActualLab.Core/Collections/VersionSet.cs:109-143 | The formatted items of a well-formed set parse back to the same items, in order. |
| VersionSets.Format | src/ActualLab.Core/Collections/VersionSet.cs:75-85 | The text is empty exactly for the empty set. |
| VersionSets.FormatParseRoundTrip | src/ActualLab.Core/Collections/VersionSet.cs:104-143 | The serialized `Versions` text parses back, through the string constructor, to the same set, for scopes without separators. |
| VersionSets.HashCode | src/ActualLab.Core/Collections/VersionSet.cs:26-38 | The hash code is never 0. |
| VersionSets.RemoveScope | src/ActualLab.Core/Collections/VersionSet.cs:26-38 | Dropping a scope keeps scopes distinct and removes exactly that key from the dictionary. |
| VersionSets.XorRemove | src/ActualLab.Core/Collections/VersionSet.cs:26-37 | The XOR of item hashes splits into any one item's hash XOR the rest. |
| VersionSets.XorOrderIndependent | src/ActualLab.Core/Collections/VersionSet.cs:26-37 | Lists holding the same dictionary have the same XOR of item hashes, in whatever order. |
| VersionSets.Equals | src/ActualLab.Core/Collections/VersionSet.cs:89-98 | Equal sets have the same count and hash code, and the indexer of the first set returns every version of the second. |
| VersionSets.EqualsIffSameItems | src/ActualLab.Core/Collections/VersionSet.cs:89-98 | `Equals` holds exactly when both sets map the same scopes to the same versions, whatever the item order and the item hash. |
| Arguments.GetItem | src/Stl.Interception/ArgumentList.cs:270-284 | Succeeds exactly for an index in [0, Length), returning that slot. Otherwise it throws `ArgumentOutOfRange`. |
| Arguments.SetItem | src/Stl.Interception/ArgumentList.cs:288-314 | Succeeds exactly for an index in [0, Length), keeping the length. Otherwise it throws `ArgumentOutOfRange`. |
| Arguments.SetThenGet | src/Stl.Interception/ArgumentList.cs:277-314 | After `SetItem(i, v)` slot i reads v, and every other slot reads as before. |
| Arguments.EmptyRejectsEveryIndex | src/Stl.Interception/ArgumentList.cs:59-67 | On the empty list every index throws, for reading and for writing. |
| Arguments.ToArray | src/Stl.Interception/ArgumentList.cs:260-266 | The array has `Length` elements, and element i is slot i. |
| Arguments.ToString | src/Stl.Interception/ArgumentList.cs:249-258 | The empty list renders as "()", a one-item list as "(" + item + ")". Every text starts with "(" and ends with ")". |
| Arguments.ToStringAppend | src/Stl.Interception/ArgumentList.cs:249-258 | One more item replaces the closing ")" by ", ", the new item's text and ")". With the one-item case this fixes every character of the text. |
| Arguments.ToStringShape | src/Stl.Interception/ArgumentList.cs:249-258 | A non-empty list's text starts with "(" and the first item. Its length is the items' lengths plus two parentheses and n-1 ", " separators. |
| Arguments.JoinLength | src/Stl.Interception/ArgumentList.cs:249-258 | Joined text is as long as its parts plus one separator between each pair. |
| Arguments.EqualsIgnoring | src/Stl.Interception/ArgumentList.cs:353-363 | `Equals(other, ignoredIndex)` holds exactly when the lengths agree and the indexer returns the same item at every other index. Equal lists are always equal ignoring any index. |
| Arguments.EqualsIgnoringOutOfRange | src/Stl.Interception/ArgumentList.cs:353-363 | An ignored index outside [0, Length) ignores nothing: the comparison is plain equality. |
| Arguments.EqualImpliesEqualsIgnoring | src/Stl.Interception/ArgumentList.cs:353-363 | Equal lists are equal ignoring any index. For an index in range, equality ignoring it plus equality of that one slot is exactly plain equality. |
| Arguments.Hash | src/Stl.Interception/ArgumentList.cs:344-351 | `GetHashCode()` is 1 for the empty list and the item's hash for one item. It equals `GetHashCode(k)` for every `k` that names no slot, so `HashAppend` gives its recurrence. |
| Arguments.HashIgnoring | src/Stl.Interception/ArgumentList.cs:365-372 | `GetHashCode(ignoredIndex)` is 1 for the empty list. For one item it is 0 when that slot is ignored and the item's hash otherwise. `HashAppend` gives each further step. |
| Arguments.SlotHashes | src/Stl.Interception/ArgumentList.cs:365-372 | The per-slot hashes, one per item, with the ignored slot contributing 0. |
| Arguments.EqualsIgnoringHash | src/Stl.Interception/ArgumentList.cs:353-372 | Lists equal up to index k have equal `GetHashCode(k)`, whatever the item hash. |
| Arguments.HashIgnoresIgnoredSlot | src/Stl.Interception/ArgumentList.cs:365-372 | Changing the ignored item does not change `GetHashCode(k)`. |
| Arguments.HashAppend | src/Stl.Interception/ArgumentList.cs:365-372 | Appending an item multiplies the hash by 397 and adds the new slot's hash (0 if ignored), wrapping at 32 bits. |
| Arguments.EqualsWith | src/Stl.Interception/ArgumentList.cs:374-396 | Throws `ArgumentOutOfRange` exactly when the list is non-empty and the delegate array is shorter than `Length`. Equal lists have the same length. |
| Arguments.HashWith | src/Stl.Interception/ArgumentList.cs:398-416 | Throws `ArgumentOutOfRange` exactly when the list is non-empty and the delegate array is shorter than `Length`. |
| Arguments.NoDelegatesMeansDefault | src/Stl.Interception/ArgumentList.cs:374-416 | With no delegates, the delegate-based `Equals` is item-wise equality and the hash is the plain `GetHashCode()`. |
| Arguments.EqualsWithHash | src/Stl.Interception/ArgumentList.cs:374-416 | With hash delegates compatible with the equality delegates, lists the delegate `Equals` accepts have equal delegate hash codes. |
| LogProcessing.ModeOf | src/ActualLab.Fusion.EntityFramework/LogProcessing/DbLogProcessor.cs:76-80 | Cooperative options give Cooperative mode, exclusive options give Exclusive mode, and any other options type throws `ArgumentOutOfRange`. |
| LogProcessing.QueryHints | src/ActualLab.Fusion.EntityFramework/LogProcessing/DbLogProcessor.cs:48-54 | Cooperative readers use no hints. Exclusive readers use the update lock and skip-locked hints. |
| LogProcessing.From | src/ActualLab.Fusion.EntityFramework/LogProcessing/DbLogProcessor.cs:132 | Exactly the log entries with `Index >= nextIndex`. |
| LogProcessing.FromAscending | src/ActualLab.Fusion.EntityFramework/LogProcessing/DbLogProcessor.cs:132-133 | On an ordered log the filtered entries are in ascending index order. |
| LogProcessing.FetchBatch | src/ActualLab.Fusion.EntityFramework/LogProcessing/DbLogProcessor.cs:130-135 | At most `BatchSize` log entries, all with `Index >= nextIndex`, in ascending index order. A short batch holds every such entry. |
| LogProcessing.FetchBatchLowest | src/ActualLab.Fusion.EntityFramework/LogProcessing/DbLogProcessor.cs:132-134 | The batch holds every log entry from `nextIndex` up to its last index, so a full batch holds the lowest-indexed entries. |
| LogProcessing.Gaps | src/ActualLab.Fusion.EntityFramework/LogProcessing/DbLogProcessor.cs:203-204 | One gap per skipped index, in order. |
| LogProcessing.ProcessTasksCover | src/ActualLab.Fusion.EntityFramework/LogProcessing/DbLogProcessor.cs:199-208 | The tasks cover [nextIndex, last entry's index] exactly once and in order. |
| LogProcessing.ProcessTasksEntries | src/ActualLab.Fusion.EntityFramework/LogProcessing/DbLogProcessor.cs:199-208 | Each entry is processed at its own index. Only entries are processed; every other index is a gap. |
| LogProcessing.ProcessTasks | src/ActualLab.Fusion.EntityFramework/LogProcessing/DbLogProcessor.cs:199-208 | No entries give no tasks. Otherwise there is one task per index from `nextIndex` to the last entry's index, and the last task processes the last entry. |
| LogProcessing.ProcessGapSafe | src/ActualLab.Fusion.EntityFramework/LogProcessing/DbLogProcessor.cs:231-240 | The key (shard, index) is registered afterwards. A task starts exactly when none was registered. Nothing else changes. |
| LogProcessing.FinishGap | src/ActualLab.Fusion.EntityFramework/LogProcessing/DbLogProcessor.cs:241-244 | A finished gap task unregisters exactly its key. |
| LogProcessing.GapDeduplication | src/ActualLab.Fusion.EntityFramework/LogProcessing/DbLogProcessor.cs:234-245 | A second gap task for the same key is not started while the first runs, and can start again once it has finished. |
| LogProcessing.ProcessSafe | src/ActualLab.Fusion.EntityFramework/LogProcessing/DbLogProcessor.cs:210-229 | Processed entries are skipped. A failure is swallowed, and with the fallback it hands the entry's index to `ProcessGapSafe`. |
| LogProcessing.RunTasks | src/ActualLab.Fusion.EntityFramework/LogProcessing/DbLogProcessor.cs:199-228 | Running the tasks registers a gap task for every gap and for every failed unprocessed entry. Conversely, every new key belongs to this shard and to an index some task hands to `ProcessGapSafe`: a gap, or an unprocessed entry whose processing failed. A processed or successfully processed entry adds nothing. Only gap keys change. |
| LogProcessing.StartEntry | src/ActualLab.Fusion.EntityFramework/LogProcessing/DbLogProcessor.cs:180-197 | The first entry in index order that is a start candidate, or none when no entry is. Cooperative readers start from entries logged within the start offset; exclusive readers start from unprocessed entries. |
| LogProcessing.TryGetNextIndex | src/ActualLab.Fusion.EntityFramework/LogProcessing/DbLogProcessor.cs:164-178 | Returns the remembered next index if there is one. Otherwise it returns the start entry's index and remembers it. There is none exactly when no entry is a start candidate. |
| LogProcessing.MarkProcessed | src/ActualLab.Fusion.EntityFramework/LogProcessing/DbLogProcessor.cs:323-327 | The entry becomes processed with the next version; index and log time are kept. |
| LogProcessing.MarkAll | src/ActualLab.Fusion.EntityFramework/LogProcessing/DbLogProcessor.cs:151-156 | Exactly the batch's entries are marked processed, and the log keeps its length. |
| LogProcessing.ProcessBatch | src/ActualLab.Fusion.EntityFramework/LogProcessing/DbLogProcessor.cs:116-162 | Only the gap tasks and next indexes change. Gap tasks are only added. Other shards keep their next indexes. A cooperative reader leaves the log unchanged. Any reader keeps the log's length and indexes. Which entries an exclusive reader changes is stated by `BatchMarksProcessed`. |
| LogProcessing.BatchStops | src/ActualLab.Fusion.EntityFramework/LogProcessing/DbLogProcessor.cs:116-144 | No start entry or an empty batch stops the loop, leaves the log unchanged and registers no gap task. |
| LogProcessing.BatchAdvances | src/ActualLab.Fusion.EntityFramework/LogProcessing/DbLogProcessor.cs:149-161 | After a non-empty batch the shard's next index is the last fetched index + 1, beyond the start. The loop continues exactly when the batch was full. |
| LogProcessing.BatchSchedulesGaps | src/ActualLab.Fusion.EntityFramework/LogProcessing/DbLogProcessor.cs:199-229 | After a non-empty batch, a gap task is registered for every index in the scanned range without an entry. The same holds for every fetched entry whose processing failed. |
| LogProcessing.TasksScheduleGaps | src/ActualLab.Fusion.EntityFramework/LogProcessing/DbLogProcessor.cs:199-229 | The same for the task list of any ascending batch. |
| LogProcessing.BatchSchedulesOnlyGaps | src/ActualLab.Fusion.EntityFramework/LogProcessing/DbLogProcessor.cs:199-228 | The converse of `BatchSchedulesGaps`. A non-empty batch adds gap keys only under its own shard, and only for an index in the scanned range with no entry or for a fetched unprocessed entry whose processing failed. |
| LogProcessing.TasksScheduleOnlyGaps | src/ActualLab.Fusion.EntityFramework/LogProcessing/DbLogProcessor.cs:199-228 | The same converse for the task list of any ascending batch. |
| LogProcessing.BatchMarksProcessed | src/ActualLab.Fusion.EntityFramework/LogProcessing/DbLogProcessor.cs:151-158 | An exclusive reader marks exactly the fetched entries processed, with the new version, and leaves every other log entry as it was. |
| LogProcessing.GetEntry | src/ActualLab.Fusion.EntityFramework/LogProcessing/DbLogProcessor.cs:315-321 | The position of an entry with the given index, or none when the log has no such entry. |
| LogProcessing.ProcessGapImpl | src/ActualLab.Fusion.EntityFramework/LogProcessing/DbLogProcessor.cs:274-313 | A missing entry throws `LogEntryNotFound`. A cooperative reader reports true and leaves the log. An exclusive reader reports false for a processed entry. For an unprocessed one, a failure rolls back and throws; success marks it processed and reports true. |
| LogProcessing.ExclusiveFailedEntryNotRetried | src/ActualLab.Fusion.EntityFramework/LogProcessing/DbLogProcessor.cs:151-158 | After an exclusive batch, a gap task for any fetched entry, even one whose processing failed, finds it processed and reports false. |
| CommandHandlers.MatchType | src/Stl.CommandR/Configuration/CommandHandlerResolver.cs:37-39 | The candidates of one base type are exactly the registered handlers for that type, tagged with the type's index. |
| CommandHandlers.Join | src/Stl.CommandR/Configuration/CommandHandlerResolver.cs:33-39 | The join holds exactly the registered handlers whose command type is one of the base types and that pass every filter, each tagged with its base type's index. |
| CommandHandlers.Insert | src/Stl.CommandR/Configuration/CommandHandlerResolver.cs:40 | Inserting a candidate adds exactly it and keeps the order. |
| CommandHandlers.Sort | src/Stl.CommandR/Configuration/CommandHandlerResolver.cs:40 | The result is a permutation ordered by priority, then base-type index, both descending. |
| CommandHandlers.DistinctHandlers | src/Stl.CommandR/Configuration/CommandHandlerResolver.cs:42 | Every handler of the input is kept, nothing new is added, and no handler appears twice. |
| CommandHandlers.DistinctOrdered | src/Stl.CommandR/Configuration/CommandHandlerResolver.cs:40-42 | Removing duplicates from an ordered list keeps it ordered. |
| CommandHandlers.SortDistinctMembers | src/Stl.CommandR/Configuration/CommandHandlerResolver.cs:40-42 | Ordering and removing duplicates keeps exactly the handlers of the join. |
| CommandHandlers.JoinMembers | src/Stl.CommandR/Configuration/CommandHandlerResolver.cs:33-39 | A handler is in the join exactly when it applies: it is registered for a base type and passes every filter. |
| CommandHandlers.SelectHandlers | src/Stl.CommandR/Configuration/CommandHandlerResolver.cs:33-42 | The selected handlers are exactly those that apply, each once. |
| CommandHandlers.SelectHandlersOrdered | src/Stl.CommandR/Configuration/CommandHandlerResolver.cs:40-42 | The selected handlers are the handlers of a list ordered by priority, then base-type index, both descending. |
| CommandHandlers.NonFilterHandlers | src/Stl.CommandR/Configuration/CommandHandlerResolver.cs:44 | Exactly the handlers that are not filters. |
| CommandHandlers.ChainFor | src/Stl.CommandR/Configuration/CommandHandlerResolver.cs:61 | The chain of one handler holds the filters and that handler, each as often as in the list and nothing else. It is a subsequence of the list, so the list order is kept. |
| CommandHandlers.BuildChains | src/Stl.CommandR/Configuration/CommandHandlerResolver.cs:59-63 | Fails exactly when two non-filter handlers share an id (the immutable dictionary rejects the duplicate key). Otherwise the keys are exactly the non-filter handlers' ids. |
| CommandHandlers.BuildChainsValue | src/Stl.CommandR/Configuration/CommandHandlerResolver.cs:59-63 | Each non-filter handler's id maps to that handler's chain. |
| CommandHandlers.Resolve | src/Stl.CommandR/Configuration/CommandHandlerResolver.cs:30-56 | A type that is not a command throws `ArgumentOutOfRange`. A regular command with more than one non-filter handler throws `MultipleNonFilterHandlers`. Otherwise the whole ordered list is its single chain. |
| CommandHandlers.ChainsOf | src/Stl.CommandR/Configuration/CommandHandlerResolver.cs:57-64 | Every chain of an event command contains all the filters and exactly one non-filter handler, its own, in the order of the selected list. |
| CommandHandlers.EventChainsSpec | src/Stl.CommandR/Configuration/CommandHandlerResolver.cs:57-64 | An event command gets one chain per non-filter handler. It fails exactly when two of them share an id. |
| CommandHandlers.GetCommandHandlers | src/Stl.CommandR/Configuration/CommandHandlerResolver.cs:28-29 | A cached set is returned as is. A new result is cached under its command type. A failure caches nothing. The registry and filters never change. |
| CommandHandlers.CachedResultIsStable | src/Stl.CommandR/Configuration/CommandHandlerResolver.cs:28-29 | A second call for the same command type returns the same set and leaves the resolver unchanged. |
| RpcServiceDefs.NewServiceDef | src/ActualLab.Rpc/Configuration/RpcServiceDef.cs:31-47 | An empty builder name falls back to the type's name. `HasServer` holds exactly when a server resolver is given. `IsSystem` and `IsBackend` follow the type. No registry is built yet. |
| RpcServiceDefs.NameNeverEmpty | src/ActualLab.Rpc/Configuration/RpcServiceDef.cs:33-35 | For a type with a non-empty name, the service name is never empty. |
| RpcServiceDefs.ConflictStep | src/ActualLab.Rpc/Configuration/RpcServiceDef.cs:64-78 | One loop step: a conflict arises exactly when a registrable method's name was already taken, and the taken names grow by that name. |
| RpcServiceDefs.AddStep | src/ActualLab.Rpc/Configuration/RpcServiceDef.cs:74-77 | Registering a registrable method whose name is free extends the registries of the first i methods to those of the first i+1. |
| RpcServiceDefs.SkipStep | src/ActualLab.Rpc/Configuration/RpcServiceDef.cs:65-72 | Skipping a method that is not registrable keeps the registries of the first i methods valid for the first i+1. |
| RpcServiceDefs.BuildMethods | src/ActualLab.Rpc/Configuration/RpcServiceDef.cs:49-79 | A different service type throws `ArgumentOutOfRange`. Otherwise the build fails, with `MethodNameConflict` for the first conflicting name, exactly when two registrable methods share a name. The registries are installed either way. On success they hold exactly the registrable methods, each under its method and its name. On failure they hold exactly the registrable methods before the conflicting one. Methods on `object`, generic definitions and invalid defs are skipped. |
| RpcServiceDefs.GetByMethod | src/ActualLab.Rpc/Configuration/RpcServiceDef.cs:96 | The registered def for a method, or none. Before the build it dereferences null. |
| RpcServiceDefs.GetByName | src/ActualLab.Rpc/Configuration/RpcServiceDef.cs:97 | The registered def for a name, or none. Before the build it dereferences null. |
| RpcServiceDefs.Item | src/ActualLab.Rpc/Configuration/RpcServiceDef.cs:29 | The indexer throws `NoMethod` exactly for an unregistered name. |
| RpcServiceDefs.ItemByMethod | src/ActualLab.Rpc/Configuration/RpcServiceDef.cs:28 | The indexer throws `NoMethod` exactly for an unregistered method. |
| RpcServiceDefs.LookupAgrees | src/ActualLab.Rpc/Configuration/RpcServiceDef.cs:28-29 | The indexer fails exactly when `Get` finds nothing, and otherwise returns what `Get` finds. |
| RpcServiceDefs.KindSuffixRoundTrip | src/ActualLab.Rpc/Configuration/RpcServiceDef.cs:87-92 | The four kind suffixes are distinct: the (`IsSystem`, `IsBackend`) pair is recovered from its suffix. |
| RpcServiceDefs.Describe | src/ActualLab.Rpc/Configuration/RpcServiceDef.cs:86-93 | The text starts with the quoted name and kind suffix, and ends with " method(s)" after the method count. |
| RpcServiceDefs.ToString | src/ActualLab.Rpc/Configuration/RpcServiceDef.cs:81-94 | A cached text is returned unchanged. Before the build it dereferences null. Otherwise it describes the service and caches that text. |
| RpcServiceDefs.ToStringCached | src/ActualLab.Rpc/Configuration/RpcServiceDef.cs:81-94 | Once computed, the text stays the same, even after the registry changes. |
| TransiencyResolvers.CoreOnly | tests/ActualLab.Tests/TransiencyResolversTest.cs:9-15 | Unknown exactly for exceptions that are not well known. |
| TransiencyResolvers.PreferTransient | tests/ActualLab.Tests/TransiencyResolversTest.cs:18-29 | Never Unknown. An exception that is not well known is Transient exactly when it is a cancellation. |
| TransiencyResolvers.PreferNonTransient | tests/ActualLab.Tests/TransiencyResolversTest.cs:32-43 | Never Unknown. |
| TransiencyResolvers.ResolversAgree | tests/ActualLab.Tests/TransiencyResolversTest.cs:9-54 | Where `CoreOnly` knows the answer, both preferring resolvers give it. The two differ exactly on cancellations, which `CoreOnly` leaves Unknown. |
| TransiencyResolvers.DisposedProviderIsTerminal | tests/ActualLab.Tests/TransiencyResolversTest.cs:54-65 | A disposed service provider is Terminal under every resolver, while another disposed object is Unknown under `CoreOnly`. |
| TransiencyResolvers.DecisionTable | tests/ActualLab.Tests/TransiencyResolversTest.cs:9-54 | The three resolvers give every value the tests assert. |
| Todos.RemoveAll | samples/TodoApp/Services/SimpleTodos.cs:33 | Exactly the todos without the id remain, so none has it. |
| Todos.RemoveAllUnique | samples/TodoApp/Services/SimpleTodos.cs:33 | Removing todos keeps ids unique. |
| Todos.UniqueCount | samples/TodoApp/Services/SimpleTodos.cs:57 | With unique ids at most one todo has a given id, and one does exactly when some todo has it. |
| Todos.CountAppend | samples/TodoApp/Services/SimpleTodos.cs:33 | Counting an id over two lists adds up. |
| Todos.AddOrUpdate | samples/TodoApp/Services/SimpleTodos.cs:25-39 | While invalidating, nothing changes and the result is null. Otherwise the saved todo is the given one, with the fresh id if its id was empty. Exactly one todo has that id, and todos with other ids are unchanged. |
| Todos.Remove | samples/TodoApp/Services/SimpleTodos.cs:41-52 | While invalidating, nothing changes. Otherwise no todo has the id afterwards, and todos with other ids are unchanged. |
| Todos.Get | samples/TodoApp/Services/SimpleTodos.cs:56-57 | Throws exactly when more than one todo has the id. Null exactly when none does. Otherwise it is a stored todo with that id. |
| Todos.AddOrUpdateKeepsIdsUnique | samples/TodoApp/Services/SimpleTodos.cs:25-39 | `AddOrUpdate` keeps ids unique, and `Get` then returns the saved todo. |
| Todos.RemoveKeepsIdsUnique | samples/TodoApp/Services/SimpleTodos.cs:41-52 | `Remove` keeps ids unique, and `Get` then returns null for that id. |
| Todos.CountDone | samples/TodoApp/Services/SimpleTodos.cs:69 | The done count is at most the number of todos. |
| Todos.GetSummary | samples/TodoApp/Services/SimpleTodos.cs:65-71 | The summary counts every todo, and its done count is at most that count. |
| Todos.CountDoneAppend | samples/TodoApp/Services/SimpleTodos.cs:69 | The done count over two lists adds up. |
| Todos.SummaryAfterAdd | samples/TodoApp/Services/SimpleTodos.cs:65-71 | Adding a todo with a new id grows the count by one. The done count grows by one exactly when the todo is done. |
| Todos.RemoveAllAbsent | samples/TodoApp/Services/SimpleTodos.cs:33 | Removing an id no todo has changes nothing. |
| Base64.CharSextet | tests/ActualLab.Tests/Serialization/Base64EncodedTest.cs:11 | A decoded alphabet character maps back to the same character. |
| Base64.SextetRoundTrip | tests/ActualLab.Tests/Serialization/Base64EncodedTest.cs:11 | The alphabet maps each sextet to a distinct character, never the pad '='. |
| Base64.QuantumRoundTrip | tests/ActualLab.Tests/Serialization/Base64EncodedTest.cs:11 | Four sextets decode back to the three bytes they encode. |
| Base64.Encode | tests/ActualLab.Tests/Serialization/Base64EncodedTest.cs:11-16 | The text has four characters per started group of three bytes, and is "" exactly for no bytes. |
| Base64.EncodeDecodeRoundTrip | tests/ActualLab.Tests/Serialization/Base64EncodedTest.cs:11-16 | Decoding the encoding of any bytes gives the bytes back. |
| Base64.EmptyValues | tests/ActualLab.Tests/Serialization/Base64EncodedTest.cs:8-22 | The default value and the empty-array value have `Count` 0, no data and encode to "". They are equal. A one-byte value has `Count` 1 and differs from the default. |
| Base64.EqualIffSameEncoding | tests/ActualLab.Tests/Serialization/Base64EncodedTest.cs:17-22 | Two values are equal exactly when they encode to the same text. |

## Left out

- The dependency graph of computed values (`used`/`usedBy`, the invalidation cascade) and `PreciseInvalidationDelayThreshold` are out of scope. The model covers the capture protocol around the graph: the ambient compute context, its scopes, and the capture helpers.
- `ComputeContextScope` is not part of this model. Its constructor and `Dispose` are modelled as a push and a pop of the context stack (`ComputedCapture.Begin`, `ComputedCapture.Dispose`), as the `Begin*` helpers and their `using` blocks use them.
- How a nested call records its computed into the capturing context (the `ComputeContext` internals) is not part of this model. `ComputedCapture.Record` states it as a single step.
- The generic overloads of `TryCapture`, `Capture` and `GetExisting` (`Task<T>`, `ValueTask`, `ValueTask<T>`) repeat the same logic. Only the rules are modelled, once.
- Concurrency is not modelled: the timer set's locking and background driver, `Collect(ProcessConcurrencyLevel)` and `Task.Run` in the log processor, and the thread-static and async-local current-context pointers. Each becomes explicit sequential state.
- TimerSets: the set's source is not part of this model, only its test. An absent item given to `AddOrUpdateToEarlier` or `AddOrUpdateToLater` is added, and the call reports a change. Due moments are not quantized to tick buckets, and `Dispose` is not modelled.
- TimerSets.Run: wall-clock delays are integer ticks at a fixed resolution, so the test's "close to" bound is stated as "less than one resolution late".
- Database work, I/O and logging in the log processor are left out: EF queries, transactions, `SaveChanges`, the log watcher, retry and back-off policies, random delays, the chaos maker, and log output. `Process` is given by the set of indexes on which it throws.
- LogProcessing.QueryHints: the contents of `DbHintSet.UpdateSkipLocked` are not part of this model. They are taken to be the update lock and skip-locked hints.
- LogProcessing.ProcessGapImpl: the gap retry policy and the log-entry-not-found retries are not modelled. One call is one attempt.
- RpcOutbound: outbound middlewares and the `NoWait` check are not modelled, and neither is the call object beyond its peer and method.
- RpcOutbound.TokenAt: `ArgumentList.GetCancellationToken` is not part of this model. A slot holding anything other than a token reads as the default token.
- VersionSets: `ListFormat` escaping is not modelled. Parsing splits on every ',', so the round trip assumes scopes contain no ',', '=' or '\'.
- VersionSets.ParseVersion: `System.Version` parsing is modelled on digits only. `int.TryParse` also accepts surrounding whitespace and a sign; that is not modelled.
- VersionSets.HashCode: the per-item `HashCode.Combine(scope, version)` is a parameter, because its seed is random per process.
- Arguments: the thirteen arity-specific records are one list, with a single item type. Runtime type coercion in `GetItem<T>`/`SetItem<T>` (`value is T0 ? value : default`) is not modelled. Neither is the `SetCancellationToken` setter.
- Arguments.Hash: for the empty list, the record's compiler-generated `GetHashCode()` is not part of this model. The model uses 1, the value of `GetHashCode(ignoredIndex)`.
- Equality against `null` or against a list of another type is not modelled; lists of different lengths are simply unequal.
- CommandHandlers: reflection is supplied as data, namely the command's base types in `GetAllBaseTypes` order and whether the type is a command or an event. `CommandHandlerResolverExt` and `CommanderHub` are thin wrappers.
- CommandHandlers.Sort: `OrderBy` is a stable sort. The model's insertion sort is stable too, but the proofs state only ordering and permutation, not stability among equal keys.
- RpcServiceDefs: method lists, legacy names and the scope resolver are supplied as data or functions. The server resolver is represented by its display text. The `Server` property is not modelled, because it resolves a service.
- RpcServiceDefs.Describe: the type name and the method count are rendered as given text, and the contract states the shape of the text, not each character.
- TransiencyResolvers: the resolver source is not part of this model, only its test. Cells the test does not assert are a modelling decision: `CoreOnly` answers Unknown, `PreferTransient` answers Transient for cancellations and NonTransient otherwise, and `PreferNonTransient` answers NonTransient.
- Todos: `List` (paging through `OrderByAndTakePage`), the invalidation re-runs and the RPC streaming helpers are not modelled. Ulid generation is a fresh-id parameter.
- Base64: the type's own source is not part of this model, only its test. `Encode` follows section 4 of RFC 4648, and `Decode` is the model's inverse of it, not an operation modelled from C#.
- Thin wrappers and plumbing outside the core: `AsyncEnumerableExt`, `TaskExt`, `AsymmetricByteSerializer`, `RpcInternalServices`, `Interceptor`, `TransientOperationScopeProvider`, `CommandExt`, `RandomInt64Generator`, `StatefulComponentBase`, `FakeDbLogWatcher` and `DbOperationEventLogProcessor`.

=== FILE: argument_list.dfy ===
/** The argument list of an intercepted call.

    `ArgumentList.cs` declares thirteen records, `ArgumentList` (no items) and
    `ArgumentList<T0>` … `ArgumentList<T0, …, T11>`, each spelling out the same
    members for its arity. Here one list of `Length` items stands for all of
    them, with one item type: two lists have the "same shape" exactly when their
    lengths agree. Hash codes are C# `int` values computed `unchecked`, so they
    are 32-bit words here and `397 * h + x` wraps around as it does there.
 */
module Arguments {
  import opened Wrappers
  import opened Text

  datatype ArgumentError = ArgumentOutOfRange

  datatype ArgumentList<T> = ArgumentList(items: seq<T>)
  {
    /** The number of items (the `Length` override of each arity). */
    function Length(): nat {
      |items|
    }
  }

  // Items

  /** `GetItemUntyped(index)`: the item at `index`, or `ArgumentOutOfRange`. */
  function GetItem<T>(a: ArgumentList<T>, index: int): (r: Result<T, ArgumentError>)
    ensures r.Ok? <==> 0 <= index < a.Length()
    ensures r.Ok? ==> r.value == a.items[index]
  {
    if 0 <= index < |a.items| then Ok(a.items[index]) else Err(ArgumentOutOfRange)
  }

  /** `SetItemUntyped(index, value)`: the list with slot `index` replaced, or
      `ArgumentOutOfRange` when there is no such slot. */
  function SetItem<T>(a: ArgumentList<T>, index: int, value: T): (r: Result<ArgumentList<T>, ArgumentError>)
    ensures r.Ok? <==> 0 <= index < a.Length()
    ensures r.Ok? ==> r.value.Length() == a.Length()
  {
    if 0 <= index < |a.items| then Ok(ArgumentList(a.items[index := value]))
    else Err(ArgumentOutOfRange)
  }

  /** After a successful `SetItem(i, v)`, slot `i` reads `v` and every other
      slot reads what it read before. */
  lemma SetThenGet<T>(a: ArgumentList<T>, i: int, v: T, j: int)
    requires SetItem(a, i, v).Ok?
    ensures GetItem(SetItem(a, i, v).value, j) == (if j == i then Ok(v) else GetItem(a, j))
  {
  }

  /** On the empty list every index is out of range, for reading and writing. */
  lemma EmptyRejectsEveryIndex<T>(a: ArgumentList<T>, index: int, v: T)
    requires a.Length() == 0
    ensures GetItem(a, index) == Err(ArgumentOutOfRange)
    ensures SetItem(a, index, v) == Err(ArgumentOutOfRange)
  {
  }

  /** `ToArray()`: a fresh array holding `Item0` … `ItemN-1` in order. */
  function ToArray<T>(a: ArgumentList<T>): (r: seq<T>)
    ensures |r| == a.Length()
    ensures forall i :: 0 <= i < |r| ==> GetItem(a, i) == Ok(r[i])
  {
    seq(|a.items|, i requires 0 <= i < |a.items| => a.items[i])
  }

  // ToString

  function MapShow<T>(xs: seq<T>, show: T -> string): (r: seq<string>)
    ensures |r| == |xs|
    ensures forall i :: 0 <= i < |xs| ==> r[i] == show(xs[i])
  {
    if |xs| == 0 then [] else [show(xs[0])] + MapShow(xs[1..], show)
  }

  /** `ToString()`: the items, rendered by `show` (the string builder's
      `Append(item)`), separated by ", " and enclosed in parentheses. */
  function ToString<T>(a: ArgumentList<T>, show: T -> string): (r: string)
    ensures a.Length() == 0 ==> r == "()"
    ensures a.Length() == 1 ==> r == "(" + show(a.items[0]) + ")"
    ensures |r| >= 2 && r[0] == '(' && r[|r| - 1] == ')'
  {
    "(" + Join(", ", MapShow(a.items, show)) + ")"
  }

  function TotalLength(ss: seq<string>): nat
  {
    if |ss| == 0 then 0 else |ss[0]| + TotalLength(ss[1..])
  }

  lemma {:induction false} JoinLength(sep: string, ss: seq<string>)
    requires |ss| >= 1
    ensures |Join(sep, ss)| == TotalLength(ss) + |sep| * (|ss| - 1)
  {
    if |ss| > 1 {
      JoinLength(sep, ss[1..]);
    }
  }

  /** Joining one more item adds a separator and the item at the end. */
  lemma {:induction false} JoinSnoc(sep: string, ss: seq<string>, x: string)
    requires |ss| >= 1
    ensures Join(sep, ss + [x]) == Join(sep, ss) + sep + x
  {
    if |ss| > 1 {
      assert (ss + [x])[1..] == ss[1..] + [x];
      JoinSnoc(sep, ss[1..], x);
    }
  }

  /** Rendering a list with one more item: the closing parenthesis of the
      shorter list's text gives way to ", ", the new item and ")". With the
      one-item case of `ToString`, this fixes every character of the text. */
  lemma ToStringAppend<T>(a: ArgumentList<T>, x: T, show: T -> string)
    requires a.Length() >= 1
    ensures var s := ToString(a, show);
            ToString(ArgumentList(a.items + [x]), show) == s[..|s| - 1] + ", " + show(x) + ")"
  {
    var parts := MapShow(a.items, show);
    assert MapShow(a.items + [x], show) == parts + [show(x)];
    JoinSnoc(", ", parts, show(x));
    var s := ToString(a, show);
    assert s[..|s| - 1] == "(" + Join(", ", parts);
  }

  /** The empty list renders as "()"; a list of n >= 1 items renders as the
      items' texts plus the two parentheses and n - 1 two-character
      separators, beginning with "(" followed by the first item's text and
      ending with ")". */
  lemma ToStringShape<T>(a: ArgumentList<T>, show: T -> string)
    ensures a.Length() == 0 ==> ToString(a, show) == "()"
    ensures a.Length() >= 1 ==>
      |ToString(a, show)| == 2 + TotalLength(MapShow(a.items, show)) + 2 * (a.Length() - 1)
    ensures a.Length() >= 1 ==>
      ToString(a, show)[..1 + |show(a.items[0])|] == "(" + show(a.items[0])
    ensures ToString(a, show)[|ToString(a, show)| - 1] == ')'
  {
    var parts := MapShow(a.items, show);
    if |parts| >= 1 {
      JoinLength(", ", parts);
      var s := ToString(a, show);
      var j := Join(", ", parts);
      if |parts| == 1 {
        assert j == show(a.items[0]);
      } else {
        assert j == parts[0] + ", " + Join(", ", parts[1..]);
      }
      assert j[..|show(a.items[0])|] == show(a.items[0]);
      assert s == "(" + j + ")";
      assert s[..1 + |show(a.items[0])|] == "(" + j[..|show(a.items[0])|];
    }
  }

  // Equality

  /** `Equals(other, ignoredIndex)`: the same shape and equal items at every
      index other than `ignoredIndex`, as the indexer reads them. */
  function EqualsIgnoring<T(==)>(a: ArgumentList<T>, b: ArgumentList<T>, ignoredIndex: int): (r: bool)
    ensures a == b ==> r
    ensures r <==> a.Length() == b.Length() &&
                   forall i :: 0 <= i < a.Length() && i != ignoredIndex ==> GetItem(a, i) == GetItem(b, i)
  {
    && |a.items| == |b.items|
    && (SlotsAgreeByIndexer(a, b, ignoredIndex);
        forall i :: 0 <= i < |a.items| && i != ignoredIndex ==> a.items[i] == b.items[i])
  }

  /** Comparing the slots directly and comparing what the indexer returns
      for them agree. */
  lemma SlotsAgreeByIndexer<T>(a: ArgumentList<T>, b: ArgumentList<T>, ignoredIndex: int)
    requires |a.items| == |b.items|
    ensures (forall i :: 0 <= i < |a.items| && i != ignoredIndex ==> a.items[i] == b.items[i]) <==>
            (forall i :: 0 <= i < a.Length() && i != ignoredIndex ==> GetItem(a, i) == GetItem(b, i))
  {
    if forall i :: 0 <= i < a.Length() && i != ignoredIndex ==> GetItem(a, i) == GetItem(b, i) {
      forall i | 0 <= i < |a.items| && i != ignoredIndex ensures a.items[i] == b.items[i] {
        assert GetItem(a, i) == GetItem(b, i);
      }
    }
  }

  /** An ignored index outside [0, Length) ignores nothing: the comparison is
      then plain equality. */
  lemma {:induction false} EqualsIgnoringOutOfRange<T>(a: ArgumentList<T>, b: ArgumentList<T>, k: int)
    requires k < 0 || k >= a.Length()
    ensures EqualsIgnoring(a, b, k) <==> a == b
  {
    if EqualsIgnoring(a, b, k) {
      assert a.items == b.items;
    }
  }

  /** Comparing with an index ignored is weaker than comparing everything:
      equal lists are equal ignoring any index, and for an index in range
      the ignoring comparison plus that one slot is exactly plain equality. */
  lemma EqualImpliesEqualsIgnoring<T>(a: ArgumentList<T>, b: ArgumentList<T>, k: int)
    ensures a == b ==> EqualsIgnoring(a, b, k)
    ensures 0 <= k < a.Length() ==> (a == b <==> EqualsIgnoring(a, b, k) && k < b.Length() && a.items[k] == b.items[k])
  {
    if 0 <= k < a.Length() && EqualsIgnoring(a, b, k) && a.items[k] == b.items[k] {
      assert a.items == b.items;
    }
  }

  // Hash codes

  /** The 397-polynomial of the slot hashes in Horner form: `h = s0`, then
      `h = 397 * h + s_i` for each further slot, wrapping at 32 bits. */
  function HashPoly(slots: seq<bv32>): bv32
    requires |slots| >= 1
  {
    if |slots| == 1 then slots[0]
    else HashStep(HashPoly(slots[..|slots| - 1]), slots[|slots| - 1])
  }

  /** One wrapping Horner step, `unchecked(397 * h + x)`. */
  function HashStep(h: bv32, x: bv32): bv32
  {
    397 * h + x
  }

  /** Per-slot hashes with slot `ignoredIndex` contributing 0. */
  function SlotHashes<T>(a: ArgumentList<T>, ignoredIndex: int, hash: T -> bv32): (r: seq<bv32>)
    ensures |r| == a.Length()
    ensures forall i :: 0 <= i < |r| ==> r[i] == (if i == ignoredIndex then 0 else hash(a.items[i]))
  {
    seq(|a.items|, i requires 0 <= i < |a.items| => if i == ignoredIndex then 0 else hash(a.items[i]))
  }

  /** `GetHashCode(ignoredIndex)`: 1 for the empty list, otherwise the
      397-polynomial of the items' hashes with slot `ignoredIndex` zeroed. */
  function HashIgnoring<T>(a: ArgumentList<T>, ignoredIndex: int, hash: T -> bv32): (r: bv32)
    ensures a.Length() == 0 ==> r == 1
    ensures a.Length() == 1 ==> r == if ignoredIndex == 0 then 0 else hash(a.items[0])
  {
    if |a.items| == 0 then 1 else HashPoly(SlotHashes(a, ignoredIndex, hash))
  }

  /** `GetHashCode()`: the polynomial of all items' hashes — the same as
      `GetHashCode(k)` for any `k` that names no slot. */
  function Hash<T>(a: ArgumentList<T>, hash: T -> bv32): (r: bv32)
    ensures a.Length() == 0 ==> r == 1
    ensures a.Length() == 1 ==> r == hash(a.items[0])
    ensures forall k :: k < 0 || k >= a.Length() ==> r == HashIgnoring(a, k, hash)
  {
    SlotHashesOutOfRange(a, hash);
    HashIgnoring(a, -1, hash)
  }

  /** An ignored index that names no slot zeroes nothing. */
  lemma SlotHashesOutOfRange<T>(a: ArgumentList<T>, hash: T -> bv32)
    ensures forall k :: k < 0 || k >= a.Length() ==> SlotHashes(a, k, hash) == SlotHashes(a, -1, hash)
  {
    forall k | k < 0 || k >= a.Length() ensures SlotHashes(a, k, hash) == SlotHashes(a, -1, hash) {
      assert forall i :: 0 <= i < a.Length() ==> SlotHashes(a, k, hash)[i] == SlotHashes(a, -1, hash)[i];
    }
  }

  /** Lists equal up to `ignoredIndex` have equal `GetHashCode(ignoredIndex)`:
      the pair `Equals(·, k)` / `GetHashCode(k)` is a consistent equality
      comparer, whatever the item hash is. */
  lemma EqualsIgnoringHash<T>(a: ArgumentList<T>, b: ArgumentList<T>, k: int, hash: T -> bv32)
    requires EqualsIgnoring(a, b, k)
    ensures HashIgnoring(a, k, hash) == HashIgnoring(b, k, hash)
  {
    if a.Length() > 0 {
      var sa := SlotHashes(a, k, hash);
      var sb := SlotHashes(b, k, hash);
      forall i | 0 <= i < |sa| ensures sa[i] == sb[i] {
        if i != k {
          assert a.items[i] == b.items[i];
        }
      }
      assert sa == sb;
    }
  }

  /** The polynomial only sees the slot hashes: changing the ignored item
      leaves `GetHashCode(k)` unchanged. */
  lemma HashIgnoresIgnoredSlot<T>(a: ArgumentList<T>, k: int, v: T, hash: T -> bv32)
    requires 0 <= k < a.Length()
    ensures HashIgnoring(ArgumentList(a.items[k := v]), k, hash) == HashIgnoring(a, k, hash)
  {
    var b := ArgumentList(a.items[k := v]);
    assert SlotHashes(b, k, hash) == SlotHashes(a, k, hash);
  }

  /** One step of the Horner form: appending an item multiplies the previous
      hash by 397 and adds the new slot's hash (0 when it is the ignored one). */
  lemma HashAppend<T>(a: ArgumentList<T>, x: T, k: int, hash: T -> bv32)
    requires a.Length() >= 1
    ensures HashIgnoring(ArgumentList(a.items + [x]), k, hash)
         == HashStep(HashIgnoring(a, k, hash), if k == a.Length() then 0 else hash(x))
  {
    var b := ArgumentList(a.items + [x]);
    var sa := SlotHashes(a, k, hash);
    var last: bv32 := if k == a.Length() then 0 else hash(x);
    assert SlotHashes(b, k, hash) == sa + [last];
    HashPolySnoc(sa, last);
  }

  lemma HashPolySnoc(s: seq<bv32>, x: bv32)
    requires |s| >= 1
    ensures HashPoly(s + [x]) == HashStep(HashPoly(s), x)
  {
    assert (s + [x])[..|s|] == s;
  }

  // Delegate-based equality and hash codes

  /** One slot under `Equals(other, equalsDelegates)`: the slot's delegate when
      it is a comparer of the right type, the default comparer otherwise. */
  function SlotEquals<T(==)>(d: Option<(T, T) -> bool>, x: T, y: T): bool
  {
    match d
    case Some(f) => f(x, y)
    case None => x == y
  }

  /** One slot under `GetHashCode(getHashCodeDelegates)`. */
  function SlotHash<T>(d: Option<T -> bv32>, x: T, hash: T -> bv32): bv32
  {
    match d
    case Some(f) => f(x)
    case None => hash(x)
  }

  /** `Equals(other, equalsDelegates)`: the empty list only checks the shape;
      any other list first rejects a delegate array shorter than `Length`, then
      compares slot by slot. */
  function EqualsWith<T(==)>(a: ArgumentList<T>, b: ArgumentList<T>, delegates: seq<Option<(T, T) -> bool>>)
    : (r: Result<bool, ArgumentError>)
    ensures r.Err? <==> 0 < a.Length() && |delegates| < a.Length()
    ensures r.Ok? && r.value ==> |b.items| == |a.items|
  {
    var n := |a.items|;
    if n == 0 then Ok(|b.items| == 0)
    else if |delegates| < n then Err(ArgumentOutOfRange)
    else Ok(|b.items| == n && forall i :: 0 <= i < n ==> SlotEquals(delegates[i], a.items[i], b.items[i]))
  }

  /** `GetHashCode(getHashCodeDelegates)`: 1 for the empty list; otherwise a
      delegate array shorter than `Length` is rejected and the polynomial is
      taken over the slots' delegate (or default) hashes. */
  function HashWith<T>(a: ArgumentList<T>, delegates: seq<Option<T -> bv32>>, hash: T -> bv32)
    : (r: Result<bv32, ArgumentError>)
    ensures r.Err? <==> 0 < a.Length() && |delegates| < a.Length()
  {
    var n := |a.items|;
    if n == 0 then Ok(1)
    else if |delegates| < n then Err(ArgumentOutOfRange)
    else Ok(HashPoly(seq(n, i requires 0 <= i < n => SlotHash(delegates[i], a.items[i], hash))))
  }

  /** Without any delegate the delegate-based members agree with the plain
      ones: `Equals` is item-wise equality and the hash is `GetHashCode()`. */
  lemma NoDelegatesMeansDefault<T>(a: ArgumentList<T>, b: ArgumentList<T>,
                                       eqs: seq<Option<(T, T) -> bool>>, hs: seq<Option<T -> bv32>>,
                                       hash: T -> bv32)
    requires |eqs| >= a.Length() && |hs| >= a.Length()
    requires forall i :: 0 <= i < |eqs| ==> eqs[i].None?
    requires forall i :: 0 <= i < |hs| ==> hs[i].None?
    ensures EqualsWith(a, b, eqs) == Ok(a == b)
    ensures HashWith(a, hs, hash) == Ok(Hash(a, hash))
  {
    var n := a.Length();
    if n > 0 {
      if EqualsWith(a, b, eqs).value {
        assert a.items == b.items;
      }
      var slots := seq(n, i requires 0 <= i < n => SlotHash(hs[i], a.items[i], hash));
      assert slots == SlotHashes(a, -1, hash);
    }
  }

  /** Each slot's hash delegate agrees with its equality delegate. */
  ghost predicate Compatible<T(!new)>(eqs: seq<Option<(T, T) -> bool>>, hs: seq<Option<T -> bv32>>, hash: T -> bv32, n: nat)
  {
    && |eqs| >= n && |hs| >= n
    && forall i, x: T, y: T :: 0 <= i < n && SlotEquals(eqs[i], x, y) ==> SlotHash(hs[i], x, hash) == SlotHash(hs[i], y, hash)
  }

  /** With compatible delegates, lists that `Equals(other, equalsDelegates)`
      have the same `GetHashCode(getHashCodeDelegates)`. */
  lemma EqualsWithHash<T(!new)>(a: ArgumentList<T>, b: ArgumentList<T>,
                                eqs: seq<Option<(T, T) -> bool>>, hs: seq<Option<T -> bv32>>, hash: T -> bv32)
    requires Compatible(eqs, hs, hash, a.Length())
    requires EqualsWith(a, b, eqs) == Ok(true)
    ensures HashWith(a, hs, hash) == HashWith(b, hs, hash)
  {
    var n := a.Length();
    if n > 0 {
      var sa := seq(n, i requires 0 <= i < n => SlotHash(hs[i], a.items[i], hash));
      var sb := seq(n, i requires 0 <= i < n => SlotHash(hs[i], b.items[i], hash));
      forall i | 0 <= i < n ensures sa[i] == sb[i] {
        assert SlotEquals(eqs[i], a.items[i], b.items[i]);
      }
      assert sa == sb;
    }
  }
}

=== FILE: base64.dfy ===
/** `Base64Encoded`: a byte array that serializes as Base64 text. The
    default value holds no array and behaves as the empty one; equality is by
    content. `Encode` is the standard Base64 of section 4 of RFC 4648 (the
    `+` `/` alphabet with `=` padding), and `Decode` its inverse.
 */
module Base64 {
  import opened Wrappers

  type Byte = b: int | 0 <= b < 256

  type Sextet = v: int | 0 <= v < 64

  datatype Base64Encoded = Base64Encoded(data: Option<seq<Byte>>)
  {
    /** `Data`: the bytes, empty for the default value. */
    function Data(): seq<Byte> {
      data.GetOr([])
    }

    /** `Count`: the number of bytes. */
    function Count(): nat {
      |Data()|
    }
  }

  /** `default(Base64Encoded)`. */
  const Default: Base64Encoded := Base64Encoded(None)

  /** `Equals`: the same bytes. */
  predicate Equal(a: Base64Encoded, b: Base64Encoded)
  {
    a.Data() == b.Data()
  }

  // The alphabet of section 4 of RFC 4648 (Table 1)

  function SextetChar(v: Sextet): char
  {
    if v < 26 then ('A' as int + v) as char
    else if v < 52 then ('a' as int + (v - 26)) as char
    else if v < 62 then ('0' as int + (v - 52)) as char
    else if v == 62 then '+'
    else '/'
  }

  function CharSextet(c: char): (r: Option<Sextet>)
    ensures r.Some? ==> SextetChar(r.value) == c
  {
    if 'A' <= c <= 'Z' then Some(c as int - 'A' as int)
    else if 'a' <= c <= 'z' then Some(c as int - 'a' as int + 26)
    else if '0' <= c <= '9' then Some(c as int - '0' as int + 52)
    else if c == '+' then Some(62)
    else if c == '/' then Some(63)
    else None
  }

  /** The alphabet is a bijection between sextets and its 64 characters,
      none of which is the pad character. */
  lemma SextetRoundTrip(v: Sextet)
    ensures CharSextet(SextetChar(v)) == Some(v)
    ensures SextetChar(v) != '='
  {
  }

  // Quanta

  /** Three bytes as four sextets. */
  function EncodeQuantum(b0: Byte, b1: Byte, b2: Byte): (r: seq<Sextet>)
    ensures |r| == 4
  {
    [b0 / 4, (b0 % 4) * 16 + b1 / 16, (b1 % 16) * 4 + b2 / 64, b2 % 64]
  }

  /** Four sextets as three bytes. */
  function DecodeQuantum(v0: Sextet, v1: Sextet, v2: Sextet, v3: Sextet): (r: seq<Byte>)
    ensures |r| == 3
  {
    [v0 * 4 + v1 / 16, (v1 % 16) * 16 + v2 / 4, (v2 % 4) * 64 + v3]
  }

  lemma QuantumRoundTrip(b0: Byte, b1: Byte, b2: Byte)
    ensures var q := EncodeQuantum(b0, b1, b2);
            DecodeQuantum(q[0], q[1], q[2], q[3]) == [b0, b1, b2]
  {
    assert ((b0 % 4) * 16 + b1 / 16) / 16 == b0 % 4;
    assert ((b0 % 4) * 16 + b1 / 16) % 16 == b1 / 16;
    assert ((b1 % 16) * 4 + b2 / 64) / 4 == b1 % 16;
    assert ((b1 % 16) * 4 + b2 / 64) % 4 == b2 / 64;
  }

  function Chars(vs: seq<Sextet>): (r: string)
    ensures |r| == |vs|
    ensures forall i :: 0 <= i < |vs| ==> r[i] == SextetChar(vs[i])
  {
    if |vs| == 0 then [] else [SextetChar(vs[0])] + Chars(vs[1..])
  }

  /** `Encode()`: every three bytes become four characters; a final one or
      two bytes are zero-extended and padded with `==` or `=`. */
  function Encode(data: seq<Byte>): (r: string)
    ensures |r| == (|data| + 2) / 3 * 4
    ensures |data| == 0 <==> r == ""
  {
    if |data| == 0 then ""
    else if |data| == 1 then
      var q := EncodeQuantum(data[0], 0, 0);
      Chars(q[..2]) + "=="
    else if |data| == 2 then
      var q := EncodeQuantum(data[0], data[1], 0);
      Chars(q[..3]) + "="
    else
      Chars(EncodeQuantum(data[0], data[1], data[2])) + Encode(data[3..])
  }

  /** The sextets of four characters, if all are in the alphabet. */
  function Sextets(s: string): (r: Option<seq<Sextet>>)
    ensures r.Some? ==> |r.value| == |s|
  {
    if |s| == 0 then Some([])
    else
      match (CharSextet(s[0]), Sextets(s[1..]))
      case (Some(v), Some(rest)) => Some([v] + rest)
      case _ => None
  }

  /** The inverse of `Encode`: text whose length is a multiple of four, with
      at most two pad characters at the very end. */
  function Decode(s: string): (r: Option<seq<Byte>>)
    decreases |s|
  {
    if |s| == 0 then Some([])
    else if |s| < 4 then None
    else if |s| == 4 && s[2..] == "==" then
      match Sextets(s[..2])
      case Some(v) => Some(DecodeQuantum(v[0], v[1], 0, 0)[..1])
      case None => None
    else if |s| == 4 && s[3] == '=' then
      match Sextets(s[..3])
      case Some(v) => Some(DecodeQuantum(v[0], v[1], v[2], 0)[..2])
      case None => None
    else
      match (Sextets(s[..4]), Decode(s[4..]))
      case (Some(v), Some(rest)) => Some(DecodeQuantum(v[0], v[1], v[2], v[3]) + rest)
      case _ => None
  }

  lemma {:induction false} SextetsOfChars(vs: seq<Sextet>)
    ensures Sextets(Chars(vs)) == Some(vs)
  {
    if |vs| > 0 {
      SextetRoundTrip(vs[0]);
      assert Chars(vs)[0] == SextetChar(vs[0]);
      assert Chars(vs)[1..] == Chars(vs[1..]);
      assert vs == [vs[0]] + vs[1..];
      SextetsOfChars(vs[1..]);
    }
  }

  /** One final byte: two characters and `==`. */
  lemma RoundTripOne(b0: Byte)
    ensures Decode(Encode([b0])) == Some([b0])
  {
    var s := Encode([b0]);
    var q := EncodeQuantum(b0, 0, 0);
    assert s == Chars(q[..2]) + "==";
    SextetsOfChars(q[..2]);
    assert s[..2] == Chars(q[..2]);
    assert s[2..] == "==";
    var v := Sextets(s[..2]).value;
    assert v[0] == q[0] && v[1] == q[1];
    assert q[2] == 0 && q[3] == 0;
    QuantumRoundTrip(b0, 0, 0);
    var dq := DecodeQuantum(v[0], v[1], 0, 0);
    assert dq == DecodeQuantum(q[0], q[1], q[2], q[3]);
    assert dq == [b0, 0, 0];
    assert dq[..1] == [b0];
    assert Decode(s) == Some(dq[..1]);
  }

  /** Two final bytes: three characters and `=`. */
  lemma RoundTripTwo(b0: Byte, b1: Byte)
    ensures Decode(Encode([b0, b1])) == Some([b0, b1])
  {
    var s := Encode([b0, b1]);
    var q := EncodeQuantum(b0, b1, 0);
    assert s == Chars(q[..3]) + "=";
    SextetsOfChars(q[..3]);
    assert s[..3] == Chars(q[..3]);
    assert s[3] == '=';
    assert s[2] == SextetChar(q[2]);
    SextetRoundTrip(q[2]);
    assert s[2..] != "==";
    var v := Sextets(s[..3]).value;
    assert v[0] == q[0] && v[1] == q[1] && v[2] == q[2];
    assert q[3] == 0;
    QuantumRoundTrip(b0, b1, 0);
    var dq := DecodeQuantum(v[0], v[1], v[2], 0);
    assert dq == DecodeQuantum(q[0], q[1], q[2], q[3]);
    assert dq == [b0, b1, 0];
    assert dq[..2] == [b0, b1];
    assert Decode(s) == Some(dq[..2]);
  }

  /** The first four characters of a full quantum are no padding. */
  lemma QuantumChars(q: seq<Sextet>, rest: string)
    requires |q| == 4
    ensures var s := Chars(q) + rest;
            && s[..4] == Chars(q) && s[4..] == rest
            && s[2] != '=' && s[3] != '='
            && Sextets(s[..4]) == Some(q)
  {
    var s := Chars(q) + rest;
    assert s[..4] == Chars(q);
    assert s[4..] == rest;
    SextetsOfChars(q);
    SextetRoundTrip(q[2]);
    SextetRoundTrip(q[3]);
    assert s[2] == SextetChar(q[2]) && s[3] == SextetChar(q[3]);
  }

  /** Text whose fourth character is no pad starts with a full quantum. */
  lemma DecodeFullQuantum(s: string, v: seq<Sextet>, rest: seq<Byte>)
    requires |s| >= 4 && s[3] != '='
    requires Sextets(s[..4]) == Some(v) && Decode(s[4..]) == Some(rest)
    ensures Decode(s) == Some(DecodeQuantum(v[0], v[1], v[2], v[3]) + rest)
  {
    assert s[2..][1] == s[3];
  }

  lemma EncodeFullQuantum(data: seq<Byte>)
    requires |data| >= 3
    ensures Encode(data) == Chars(EncodeQuantum(data[0], data[1], data[2])) + Encode(data[3..])
  {
  }

  /** A full quantum followed by the rest decodes quantum by quantum. */
  lemma RoundTripStep(data: seq<Byte>)
    requires |data| >= 3
    requires Decode(Encode(data[3..])) == Some(data[3..])
    ensures Decode(Encode(data)) == Some(data)
  {
    var q := EncodeQuantum(data[0], data[1], data[2]);
    var rest := Encode(data[3..]);
    EncodeFullQuantum(data);
    QuantumChars(q, rest);
    DecodeFullQuantum(Chars(q) + rest, q, data[3..]);
    Reassemble(data);
  }

  lemma Reassemble(data: seq<Byte>)
    requires |data| >= 3
    ensures var q := EncodeQuantum(data[0], data[1], data[2]);
            DecodeQuantum(q[0], q[1], q[2], q[3]) + data[3..] == data
  {
    var q := EncodeQuantum(data[0], data[1], data[2]);
    QuantumRoundTrip(data[0], data[1], data[2]);
    var head: seq<Byte> := [data[0], data[1], data[2]];
    assert head == data[..3];
    assert data[..3] + data[3..] == data;
  }

  /** Decoding the encoding gives the bytes back. */
  lemma {:induction false} EncodeDecodeRoundTrip(data: seq<Byte>)
    ensures Decode(Encode(data)) == Some(data)
  {
    if |data| == 1 {
      assert data == [data[0]];
      RoundTripOne(data[0]);
    } else if |data| == 2 {
      assert data == [data[0], data[1]];
      RoundTripTwo(data[0], data[1]);
    } else if |data| >= 3 {
      EncodeDecodeRoundTrip(data[3..]);
      RoundTripStep(data);
    }
  }

  /** The default value and the empty array are equal, both empty and both
      encoded as ""; a one-byte value is neither. */
  lemma EmptyValues(b: Byte)
    ensures Default.Count() == 0 && Default.Data() == [] && Encode(Default.Data()) == ""
    ensures var empty := Base64Encoded(Some([]));
            empty.Count() == 0 && Encode(empty.Data()) == "" && Equal(Default, empty)
    ensures var one := Base64Encoded(Some([b]));
            one.Count() == 1 && !Equal(Default, one) && Encode(one.Data()) != ""
  {
  }

  /** Equal values encode alike, and values that encode alike are equal. */
  lemma EqualIffSameEncoding(a: Base64Encoded, b: Base64Encoded)
    ensures Equal(a, b) <==> Encode(a.Data()) == Encode(b.Data())
  {
    EncodeDecodeRoundTrip(a.Data());
    EncodeDecodeRoundTrip(b.Data());
  }
}

=== FILE: client_cache.dfy ===
/** `InMemoryClientComputedCache`: a key → serialized-result store that is
    read by `Fetch` and written only by batch flushes, where each queued key
    is either set to a value or removed.
 */
module ClientCache {
  import opened Wrappers

  datatype Cache<K, V> = Cache(entries: map<K, V>)

  /** `Fetch(key)`: the stored value, or a miss (null). */
  function Fetch<K, V>(c: Cache<K, V>, key: K): (r: Option<V>)
    ensures r.Some? <==> key in c.entries
    ensures r.Some? ==> r.value == c.entries[key]
  {
    if key in c.entries then Some(c.entries[key]) else None
  }

  /** `Flush(flushingQueue)`: a queued value sets its key, a queued null
      removes it, and keys that are not queued keep their entries. */
  function Flush<K(!new), V>(c: Cache<K, V>, queue: map<K, Option<V>>): (r: Cache<K, V>)
    ensures forall k :: k in queue && queue[k].Some? ==> Fetch(r, k) == queue[k]
    ensures forall k :: k in queue && queue[k].None? ==> Fetch(r, k).None?
    ensures forall k :: k !in queue ==> Fetch(r, k) == Fetch(c, k)
  {
    Cache(map k | k in c.entries.Keys + queue.Keys && (k in queue ==> queue[k].Some?)
            :: if k in queue then queue[k].value else c.entries[k])
  }

  /** Flushing the same queue a second time changes nothing. */
  lemma FlushIdempotent<K(!new), V>(c: Cache<K, V>, queue: map<K, Option<V>>)
    ensures Flush(Flush(c, queue), queue) == Flush(c, queue)
  {
    var once := Flush(c, queue);
    var twice := Flush(once, queue);
    forall k ensures Fetch(twice, k) == Fetch(once, k) {
    }
    SameFetchSameCache(twice, once);
  }

  /** Two caches that answer every `Fetch` alike are the same cache. */
  lemma SameFetchSameCache<K(!new), V>(a: Cache<K, V>, b: Cache<K, V>)
    requires forall k :: Fetch(a, k) == Fetch(b, k)
    ensures a == b
  {
    assert a.entries.Keys == b.entries.Keys by {
      forall k ensures k in a.entries <==> k in b.entries {
        assert Fetch(a, k).Some? == Fetch(b, k).Some?;
      }
    }
    forall k | k in a.entries ensures a.entries[k] == b.entries[k] {
      assert Fetch(a, k) == Fetch(b, k);
    }
  }

  /** `Clear()`: every entry is dropped. The C# method first flushes the
      pending writes, but whatever that flush stores is dropped right after,
      so it has no visible effect on the result. */
  function Clear<K(!new), V>(c: Cache<K, V>): (r: Cache<K, V>)
    ensures forall k :: Fetch(r, k).None?
  {
    Cache(map[])
  }

  /** The loop of `Flush()` in `InMemoryClientComputedCache`, one queued entry at a time in the
      queue's enumeration order, computes `Flush`: keys are distinct, so the
      order does not matter. */
  method FlushInOrder<K(!new), V>(c: Cache<K, V>, queue: seq<(K, Option<V>)>) returns (r: Cache<K, V>)
    requires forall i, j :: 0 <= i < j < |queue| ==> queue[i].0 != queue[j].0
    ensures r == Flush(c, QueueMap(queue))
  {
    var entries := c.entries;
    var i := 0;
    while i < |queue|
      invariant 0 <= i <= |queue|
      invariant entries == Flush(c, QueueMap(queue[..i])).entries
    {
      var (key, result) := queue[i];
      match result {
        case Some(v) => entries := entries[key := v];
        case None => entries := entries - {key};
      }
      FlushStep(c, queue, i);
      i := i + 1;
    }
    assert queue[..|queue|] == queue;
    r := Cache(entries);
  }

  /** The dictionary a queue in enumeration order stands for. */
  function QueueMap<K, V>(queue: seq<(K, Option<V>)>): (m: map<K, Option<V>>)
    ensures forall i :: 0 <= i < |queue| ==> queue[i].0 in m
    ensures forall k :: k in m ==> exists i :: 0 <= i < |queue| && queue[i].0 == k
  {
    if |queue| == 0 then map[]
    else
      var last := queue[|queue| - 1];
      var m := QueueMap(queue[..|queue| - 1]);
      assert forall i :: 0 <= i < |queue| - 1 ==> queue[..|queue| - 1][i] == queue[i];
      m[last.0 := last.1]
  }

  lemma FlushStep<K(!new), V>(c: Cache<K, V>, queue: seq<(K, Option<V>)>, i: nat)
    requires forall a, b :: 0 <= a < b < |queue| ==> queue[a].0 != queue[b].0
    requires i < |queue|
    ensures var before := Flush(c, QueueMap(queue[..i])).entries;
            Flush(c, QueueMap(queue[..i + 1])).entries ==
              if queue[i].1.Some? then before[queue[i].0 := queue[i].1.value] else before - {queue[i].0}
  {
    var prefix := queue[..i + 1];
    assert prefix[..i] == queue[..i];
    assert prefix[i] == queue[i];
    var m := QueueMap(queue[..i]);
    forall j | 0 <= j < i ensures queue[..i][j].0 != queue[i].0 {
      assert queue[..i][j] == queue[j];
    }
    var before := Flush(c, m);
    var after := Flush(c, QueueMap(prefix));
    var expected := Cache(if queue[i].1.Some? then before.entries[queue[i].0 := queue[i].1.value] else before.entries - {queue[i].0});
    forall k ensures Fetch(after, k) == Fetch(expected, k) {
    }
    SameFetchSameCache(after, expected);
  }
}

=== FILE: command_handlers.dfy ===
/** `CommandHandlerResolver.GetCommandHandlers(commandType)`: selects the
    registered handlers that apply to a command type, orders them, and turns
    them into one handler chain (a regular command) or one chain per
    non-filter handler (an event command). Results are cached per type.

    Types are numbered; what reflection tells about a type (whether it is an
    `ICommand` and an `IEventCommand`, and `GetAllBaseTypes(true, true)`) is
    given as `TypeInfo`. Handler filters are functions of the handler and the
    command type.
 */
module CommandHandlers {
  import opened Wrappers

  type TypeId = nat

  datatype Handler = Handler(id: string, commandType: TypeId, priority: int, isFilter: bool)

  datatype TypeInfo = TypeInfo(isCommand: bool, isEvent: bool, baseTypes: seq<TypeId>)

  type HandlerFilter = (Handler, TypeId) -> bool

  datatype ResolveError = ArgumentOutOfRange | MultipleNonFilterHandlers | DuplicateHandlerId

  /** A handler's entry in the join: the handler and the position of its
      command type among the base types. */
  datatype Candidate = Candidate(handler: Handler, typeIndex: nat)

  /** `filters.All(f => f.IsCommandHandlerUsed(handler, type))`. */
  predicate PassesFilters(filters: seq<HandlerFilter>, h: Handler, commandType: TypeId)
  {
    forall i :: 0 <= i < |filters| ==> filters[i](h, commandType)
  }

  // The join

  /** Handlers of one base type, in registry order. */
  function MatchType(registry: seq<Handler>, filters: seq<HandlerFilter>, commandType: TypeId, t: TypeId, index: nat): (r: seq<Candidate>)
    ensures forall c :: c in r <==> c.typeIndex == index && c.handler in registry && c.handler.commandType == t
                                      && PassesFilters(filters, c.handler, commandType)
  {
    if |registry| == 0 then []
    else
      var h := registry[0];
      var rest := MatchType(registry[1..], filters, commandType, t, index);
      assert forall x :: x in registry <==> x == h || x in registry[1..];
      if h.commandType == t && PassesFilters(filters, h, commandType) then [Candidate(h, index)] + rest else rest
  }

  /** `from typeEntry in baseTypes from handler in Registry.Handlers where …`:
      the matching pairs, base types outermost. */
  function Join(baseTypes: seq<TypeId>, registry: seq<Handler>, filters: seq<HandlerFilter>, commandType: TypeId, offset: nat)
    : (r: seq<Candidate>)
    ensures forall c :: c in r <==>
      offset <= c.typeIndex < offset + |baseTypes| && c.handler in registry
      && c.handler.commandType == baseTypes[c.typeIndex - offset] && PassesFilters(filters, c.handler, commandType)
  {
    if |baseTypes| == 0 then []
    else
      var first := MatchType(registry, filters, commandType, baseTypes[0], offset);
      var rest := Join(baseTypes[1..], registry, filters, commandType, offset + 1);
      assert forall k :: 1 <= k < |baseTypes| ==> baseTypes[1..][k - 1] == baseTypes[k];
      first + rest
  }

  // Ordering: `orderby handler.Priority descending, typeEntry.Index descending`

  /** `a` sorts strictly before `b`. */
  predicate Precedes(a: Candidate, b: Candidate)
  {
    a.handler.priority > b.handler.priority
    || (a.handler.priority == b.handler.priority && a.typeIndex > b.typeIndex)
  }

  predicate Ordered(s: seq<Candidate>)
  {
    forall i, j :: 0 <= i < j < |s| ==> !Precedes(s[j], s[i])
  }

  /** Inserts `x` before the first element it does not follow; equal keys
      keep `x` first, which makes the sort stable. */
  function Insert(x: Candidate, s: seq<Candidate>): (r: seq<Candidate>)
    ensures multiset(r) == multiset(s) + multiset{x}
    ensures |r| == |s| + 1
    ensures Ordered(s) ==> Ordered(r)
  {
    if |s| == 0 then [x]
    else if !Precedes(s[0], x) then
      assert Ordered(s) ==> Ordered([x] + s) by {
        if Ordered(s) {
          forall i, j | 0 <= i < j < |[x] + s| ensures !Precedes(([x] + s)[j], ([x] + s)[i]) {
            if i == 0 {
              assert !Precedes(s[j - 1], s[0]);
            }
          }
        }
      }
      [x] + s
    else
      var rest := Insert(x, s[1..]);
      assert s == [s[0]] + s[1..];
      InsertAfterHead(x, s, rest);
      [s[0]] + rest
  }

  /** The recursive case of `Insert`: `x` goes after the head, into the
      tail, and the head stays first. */
  lemma InsertAfterHead(x: Candidate, s: seq<Candidate>, rest: seq<Candidate>)
    requires |s| > 0 && Precedes(s[0], x)
    requires multiset(rest) == multiset(s[1..]) + multiset{x}
    requires Ordered(s[1..]) ==> Ordered(rest)
    ensures Ordered(s) ==> Ordered([s[0]] + rest)
  {
    if Ordered(s) {
      assert Ordered(s[1..]);
      forall j | 0 <= j < |rest| ensures !Precedes(rest[j], s[0]) {
        assert rest[j] in multiset(rest);
        assert rest[j] == x || rest[j] in multiset(s[1..]);
        if rest[j] != x {
          var k :| 0 <= k < |s[1..]| && s[1..][k] == rest[j];
          assert s[k + 1] == rest[j];
        }
      }
      forall i, j | 0 <= i < j < |[s[0]] + rest| ensures !Precedes(([s[0]] + rest)[j], ([s[0]] + rest)[i]) {
        if i > 0 {
          assert ([s[0]] + rest)[i] == rest[i - 1];
        }
      }
    }
  }

  /** The stable sort of the join. */
  function Sort(s: seq<Candidate>): (r: seq<Candidate>)
    ensures multiset(r) == multiset(s)
    ensures Ordered(r)
  {
    if |s| == 0 then []
    else
      assert s == [s[0]] + s[1..];
      Insert(s[0], Sort(s[1..]))
  }

  /** Some candidate of `d` carries handler `h`. */
  predicate HasHandler(d: seq<Candidate>, h: Handler)
  {
    exists i :: 0 <= i < |d| && d[i].handler == h
  }

  /** `.Distinct()`: the first candidate of each handler, in order. */
  function DistinctHandlers(s: seq<Candidate>): (r: seq<Candidate>)
    ensures forall c :: c in r ==> c in s
    ensures forall i :: 0 <= i < |s| ==> HasHandler(r, s[i].handler)
    ensures forall i, j :: 0 <= i < j < |r| ==> r[i].handler != r[j].handler
  {
    if |s| == 0 then []
    else
      var n := |s| - 1;
      var d := DistinctHandlers(s[..n]);
      assert forall i :: 0 <= i < n ==> s[..n][i] == s[i];
      if HasHandler(d, s[n].handler) then d
      else
        assert HasHandler(d + [s[n]], s[n].handler) by {
          assert (d + [s[n]])[|d|] == s[n];
        }
        assert forall i :: 0 <= i < n ==> HasHandler(d + [s[n]], s[i].handler) by {
          forall i | 0 <= i < n ensures HasHandler(d + [s[n]], s[i].handler) {
            assert HasHandler(d, s[..n][i].handler);
            var k :| 0 <= k < |d| && d[k].handler == s[i].handler;
            assert (d + [s[n]])[k] == d[k];
          }
        }
        d + [s[n]]
  }

  /** `.Distinct()` keeps the order it is given: it only drops elements. */
  lemma {:induction false} DistinctOrdered(s: seq<Candidate>)
    requires Ordered(s)
    ensures Ordered(DistinctHandlers(s))
  {
    if |s| > 0 {
      var n := |s| - 1;
      assert Ordered(s[..n]);
      DistinctOrdered(s[..n]);
      var d := DistinctHandlers(s[..n]);
      forall i | 0 <= i < |d| ensures !Precedes(s[n], d[i]) {
        assert d[i] in s[..n];
        var a :| 0 <= a < n && s[..n][a] == d[i];
        assert s[a] == d[i];
      }
    }
  }

  function Handlers(s: seq<Candidate>): (r: seq<Handler>)
    ensures |r| == |s|
    ensures forall i :: 0 <= i < |s| ==> r[i] == s[i].handler
  {
    if |s| == 0 then [] else [s[0].handler] + Handlers(s[1..])
  }

  /** The candidates of the selected handlers: joined, sorted, deduplicated. */
  function Selected(info: TypeInfo, registry: seq<Handler>, filters: seq<HandlerFilter>, commandType: TypeId): seq<Candidate>
  {
    DistinctHandlers(Sort(Join(info.baseTypes, registry, filters, commandType, 0)))
  }


  /** A handler applies to a command type when it is registered for one of
      the type's base types and passes every filter. */
  predicate Applies(info: TypeInfo, registry: seq<Handler>, filters: seq<HandlerFilter>, commandType: TypeId, h: Handler)
  {
    h in registry && h.commandType in info.baseTypes && PassesFilters(filters, h, commandType)
  }

  /** Sorting then deduplicating neither invents nor loses a handler. */
  lemma SortDistinctMembers(join: seq<Candidate>, h: Handler)
    ensures HasHandler(DistinctHandlers(Sort(join)), h) <==> HasHandler(join, h)
  {
    var sorted := Sort(join);
    var d := DistinctHandlers(sorted);
    if HasHandler(d, h) {
      var i :| 0 <= i < |d| && d[i].handler == h;
      assert d[i] in sorted;
      assert d[i] in multiset(join);
      var a :| 0 <= a < |join| && join[a] == d[i];
    }
    if HasHandler(join, h) {
      var a :| 0 <= a < |join| && join[a].handler == h;
      assert join[a] in multiset(sorted);
      var b :| 0 <= b < |sorted| && sorted[b] == join[a];
    }
  }

  /** The join carries exactly the applicable handlers. */
  lemma JoinMembers(info: TypeInfo, registry: seq<Handler>, filters: seq<HandlerFilter>, commandType: TypeId, h: Handler)
    ensures HasHandler(Join(info.baseTypes, registry, filters, commandType, 0), h) <==> Applies(info, registry, filters, commandType, h)
  {
    var join := Join(info.baseTypes, registry, filters, commandType, 0);
    if HasHandler(join, h) {
      var a :| 0 <= a < |join| && join[a].handler == h;
      assert join[a] in join;
    }
    if Applies(info, registry, filters, commandType, h) {
      var k :| 0 <= k < |info.baseTypes| && info.baseTypes[k] == h.commandType;
      assert Candidate(h, k) in join;
      var a :| 0 <= a < |join| && join[a] == Candidate(h, k);
    }
  }

  /** The selected handlers (the join, ordered, without duplicates): exactly
      the applicable handlers, each once. */
  function SelectHandlers(info: TypeInfo, registry: seq<Handler>, filters: seq<HandlerFilter>, commandType: TypeId): (r: seq<Handler>)
    ensures forall h :: h in r <==> Applies(info, registry, filters, commandType, h)
    ensures forall i, j :: 0 <= i < j < |r| ==> r[i] != r[j]
  {
    var join := Join(info.baseTypes, registry, filters, commandType, 0);
    var d := DistinctHandlers(Sort(join));
    var hs := Handlers(d);
    assert forall h :: h in hs <==> Applies(info, registry, filters, commandType, h) by {
      forall h ensures h in hs <==> Applies(info, registry, filters, commandType, h) {
        SortDistinctMembers(join, h);
        JoinMembers(info, registry, filters, commandType, h);
        assert h in hs <==> HasHandler(d, h) by {
          if h in hs {
            var i :| 0 <= i < |hs| && hs[i] == h;
            assert d[i].handler == h;
          }
          if HasHandler(d, h) {
            var i :| 0 <= i < |d| && d[i].handler == h;
            assert hs[i] == h;
          }
        }
      }
    }
    hs
  }

  /** The selected handlers come ordered by priority descending, then by the
      index of their command type among the base types, descending. */
  lemma SelectHandlersOrdered(info: TypeInfo, registry: seq<Handler>, filters: seq<HandlerFilter>, commandType: TypeId)
    ensures Ordered(Selected(info, registry, filters, commandType))
    ensures SelectHandlers(info, registry, filters, commandType) == Handlers(Selected(info, registry, filters, commandType))
  {
    DistinctOrdered(Sort(Join(info.baseTypes, registry, filters, commandType, 0)));
  }

  // Handler sets

  /** `CommandHandlerSet`: one chain for a regular command, or one chain per
      non-filter handler id for an event command. */
  datatype HandlerSet =
    | SingleChain(commandType: TypeId, chain: seq<Handler>)
    | EventChains(commandType: TypeId, chains: map<string, seq<Handler>>)

  function NonFilterHandlers(hs: seq<Handler>): (r: seq<Handler>)
    ensures forall h :: h in r <==> h in hs && !h.isFilter
    ensures |r| <= |hs|
  {
    if |hs| == 0 then []
    else
      var rest := NonFilterHandlers(hs[1..]);
      assert forall x :: x in hs <==> x == hs[0] || x in hs[1..];
      if hs[0].isFilter then rest else [hs[0]] + rest
  }

  /** `a` is `b` with some elements left out: the elements of `a` occur in
      `b` in the same order. */
  predicate IsSubsequence(a: seq<Handler>, b: seq<Handler>)
    decreases |b|
  {
    if |a| == 0 then true
    else if |b| == 0 then false
    else if a[0] == b[0] then IsSubsequence(a[1..], b[1..])
    else IsSubsequence(a, b[1..])
  }

  /** The handlers a chain keeps from the ordered list. */
  predicate InChain(h: Handler, handler: Handler)
  {
    h.isFilter || h == handler
  }

  /** `handlers.Where(h => h.IsFilter || h == handler)`: every filter and the
      handler itself, as often as they occur, in list order. */
  function ChainFor(hs: seq<Handler>, handler: Handler): (r: seq<Handler>)
    ensures forall h :: h in r <==> h in hs && InChain(h, handler)
    ensures forall h :: multiset(r)[h] == if InChain(h, handler) then multiset(hs)[h] else 0
    ensures IsSubsequence(r, hs)
  {
    if |hs| == 0 then []
    else
      var rest := ChainFor(hs[1..], handler);
      assert forall x :: x in hs <==> x == hs[0] || x in hs[1..];
      assert hs == [hs[0]] + hs[1..];
      if InChain(hs[0], handler) then
        assert ([hs[0]] + rest)[1..] == rest;
        [hs[0]] + rest
      else
        assert |rest| > 0 ==> rest[0] != hs[0] by {
          if |rest| > 0 {
            assert rest[0] in rest;
          }
        }
        rest
  }

  /** Some id is carried by two handlers of `hs`. */
  predicate DuplicateIds(hs: seq<Handler>)
  {
    exists i, j :: 0 <= i < j < |hs| && hs[i].id == hs[j].id
  }

  /** Some handler of `hs` carries `id`. */
  predicate HasId(hs: seq<Handler>, id: string)
  {
    exists h :: h in hs && h.id == id
  }

  /** Duplicates in a non-empty list: the head's id recurs in the tail, or
      the tail has duplicates of its own. */
  lemma DuplicateIdsCons(hs: seq<Handler>)
    requires |hs| > 0
    ensures DuplicateIds(hs) <==> HasId(hs[1..], hs[0].id) || DuplicateIds(hs[1..])
  {
    var rest := hs[1..];
    if DuplicateIds(hs) {
      var i, j :| 0 <= i < j < |hs| && hs[i].id == hs[j].id;
      assert hs[j] == rest[j - 1] && rest[j - 1] in rest;
      if i > 0 {
        assert hs[i] == rest[i - 1];
      }
    }
    if HasId(rest, hs[0].id) {
      var x :| x in rest && x.id == hs[0].id;
      var j :| 0 <= j < |rest| && rest[j] == x;
      assert hs[j + 1] == x;
    }
    if DuplicateIds(rest) {
      var i, j :| 0 <= i < j < |rest| && rest[i].id == rest[j].id;
      assert hs[i + 1] == rest[i] && hs[j + 1] == rest[j];
    }
  }

  lemma HasIdCons(hs: seq<Handler>, id: string)
    requires |hs| > 0
    ensures HasId(hs, id) <==> hs[0].id == id || HasId(hs[1..], id)
  {
    assert forall x :: x in hs <==> x == hs[0] || x in hs[1..];
  }

  /** `.ToImmutableDictionary()` over (id, chain) pairs: a repeated id throws. */
  function BuildChains(hs: seq<Handler>, nonFilters: seq<Handler>): (r: Result<map<string, seq<Handler>>, ResolveError>)
    ensures r.Ok? ==> forall id :: id in r.value <==> HasId(nonFilters, id)
    ensures r.Ok? ==> forall h :: h in nonFilters ==> h.id in r.value
    ensures r.Err? <==> DuplicateIds(nonFilters)
  {
    if |nonFilters| == 0 then Ok(map[])
    else
      var h := nonFilters[0];
      var rest := nonFilters[1..];
      DuplicateIdsCons(nonFilters);
      match BuildChains(hs, rest)
      case Err(e) => Err(e)
      case Ok(m) =>
        if h.id in m then Err(DuplicateHandlerId)
        else
          var chains := m[h.id := ChainFor(hs, h)];
          assert forall id :: id in chains <==> HasId(nonFilters, id) by {
            forall id ensures id in chains <==> HasId(nonFilters, id) {
              HasIdCons(nonFilters, id);
            }
          }
          assert forall x :: x in nonFilters ==> x.id in chains by {
            forall x | x in nonFilters ensures x.id in chains {
              assert HasId(nonFilters, x.id);
            }
          }
          Ok(chains)
  }

  lemma {:induction false} BuildChainsValue(hs: seq<Handler>, nonFilters: seq<Handler>, k: nat)
    requires BuildChains(hs, nonFilters).Ok? && k < |nonFilters|
    ensures BuildChains(hs, nonFilters).value[nonFilters[k].id] == ChainFor(hs, nonFilters[k])
  {
    var rest := nonFilters[1..];
    var m := BuildChains(hs, rest).value;
    if k > 0 {
      BuildChainsValue(hs, rest, k - 1);
      assert rest[k - 1] == nonFilters[k];
    }
  }

  /** The uncached computation of `GetCommandHandlers`. */
  function Resolve(info: TypeInfo, registry: seq<Handler>, filters: seq<HandlerFilter>, commandType: TypeId)
    : (r: Result<HandlerSet, ResolveError>)
    ensures !info.isCommand ==> r == Err(ArgumentOutOfRange)
    ensures info.isCommand && !info.isEvent ==>
      var hs := SelectHandlers(info, registry, filters, commandType);
      (if |NonFilterHandlers(hs)| > 1 then r == Err(MultipleNonFilterHandlers) else r == Ok(SingleChain(commandType, hs)))
  {
    if !info.isCommand then Err(ArgumentOutOfRange)
    else
      var hs := SelectHandlers(info, registry, filters, commandType);
      var nonFilters := NonFilterHandlers(hs);
      if !info.isEvent then
        if |nonFilters| > 1 then Err(MultipleNonFilterHandlers) else Ok(SingleChain(commandType, hs))
      else
        match BuildChains(hs, nonFilters)
        case Err(e) => Err(e)
        case Ok(chains) => Ok(EventChains(commandType, chains))
  }

  /** Chains built from a handler list: one per non-filter handler, keyed by
      its id, holding every filter plus that handler, in list order. */
  lemma ChainsOf(hs: seq<Handler>)
    requires BuildChains(hs, NonFilterHandlers(hs)).Ok?
    ensures var chains := BuildChains(hs, NonFilterHandlers(hs)).value;
            && (forall id :: id in chains <==> exists h :: h in hs && !h.isFilter && h.id == id)
            && (forall h :: h in hs && !h.isFilter ==> h.id in chains && chains[h.id] == ChainFor(hs, h))
            && (forall h :: h in hs && !h.isFilter ==> IsSubsequence(chains[h.id], hs))
  {
    var nonFilters := NonFilterHandlers(hs);
    var chains := BuildChains(hs, nonFilters).value;
    forall id ensures id in chains <==> exists h :: h in hs && !h.isFilter && h.id == id {
      if id in chains {
        var h :| h in nonFilters && h.id == id;
        assert h in hs && !h.isFilter;
      }
    }
    forall h | h in hs && !h.isFilter ensures h.id in chains && chains[h.id] == ChainFor(hs, h) {
      assert h in nonFilters;
      var k :| 0 <= k < |nonFilters| && nonFilters[k] == h;
      BuildChainsValue(hs, nonFilters, k);
    }
  }

  /** An event command gets one chain per selected non-filter handler, and
      fails only when two of them share an id. */
  lemma EventChainsSpec(info: TypeInfo, registry: seq<Handler>, filters: seq<HandlerFilter>, commandType: TypeId)
    requires info.isCommand && info.isEvent
    ensures var hs := SelectHandlers(info, registry, filters, commandType);
            var r := Resolve(info, registry, filters, commandType);
            && (r.Err? <==> DuplicateIds(NonFilterHandlers(hs)))
            && (r.Ok? ==> r.value.EventChains? && r.value.commandType == commandType
                          && r.value.chains == BuildChains(hs, NonFilterHandlers(hs)).value)
  {
  }

  // The cache

  datatype Resolver = Resolver(registry: seq<Handler>, filters: seq<HandlerFilter>, cache: map<TypeId, HandlerSet>)

  /** `GetCommandHandlers(commandType)`: a cached set is returned as is;
      otherwise the set is computed and cached, unless computing it throws. */
  function GetCommandHandlers(r: Resolver, info: TypeInfo, commandType: TypeId): (out: (Resolver, Result<HandlerSet, ResolveError>))
    ensures commandType in r.cache ==> out == (r, Ok(r.cache[commandType]))
    ensures out.0.registry == r.registry && out.0.filters == r.filters
    ensures out.1.Ok? ==> commandType in out.0.cache && out.0.cache[commandType] == out.1.value
    ensures out.1.Err? ==> out.0 == r
  {
    if commandType in r.cache then (r, Ok(r.cache[commandType]))
    else
      match Resolve(info, r.registry, r.filters, commandType)
      case Err(e) => (r, Err(e))
      case Ok(s) => (r.(cache := r.cache[commandType := s]), Ok(s))
  }

  /** Asking twice gives the same set and leaves the cache alone. */
  lemma CachedResultIsStable(r: Resolver, info: TypeInfo, commandType: TypeId)
    requires GetCommandHandlers(r, info, commandType).1.Ok?
    ensures var (r1, s1) := GetCommandHandlers(r, info, commandType);
            GetCommandHandlers(r1, info, commandType) == (r1, s1)
  {
  }
}

=== FILE: computed_capture.dfy ===
/** The capture-scope protocol of `Computed`: the ambient compute context,
    the four kinds of scope that install a context, and the helpers
    `TryCapture`, `Capture` and `GetExisting` that run a producer inside a
    capture scope and turn its outcome into a result.

    The ambient context (`ComputeContext.Current` in C#)
    is an explicit stack of contexts: opening a scope pushes, disposing it
    pops. A producer is given by its outcome and by the computed that the
    nested call produced, which a capturing context records.
 */
module ComputedCapture {
  import opened Wrappers

  /** A computed node, as far as capturing is concerned: an identity and
      whether its output is an error. */
  datatype Computed = Computed(id: nat, hasError: bool)

  /** The `CallOptions` flags used by the scopes. */
  datatype CallOptions = CallOptions(capture: bool, getExisting: bool)

  const NoCallOptions: CallOptions := CallOptions(false, false)

  /** A `ComputeContext`: the computed being produced (if any), the call
      options, and what the context has captured so far. */
  datatype ComputeContext = ComputeContext(computed: Option<Computed>, options: CallOptions, captured: Option<Computed>)

  /** `ComputeContext.None`: no computed, no options. */
  const NoneContext: ComputeContext := ComputeContext(None, NoCallOptions, None)

  /** The ambient context stack; the innermost scope is last. */
  datatype ScopeStack = ScopeStack(frames: seq<ComputeContext>)

  /** `ComputeContext.Current`: the innermost context, `None` outside any scope. */
  function Current(s: ScopeStack): ComputeContext
  {
    if |s.frames| == 0 then NoneContext else s.frames[|s.frames| - 1]
  }

  datatype CaptureError =
    | CurrentComputedIsNull
    | NoComputedCaptured
    | NotCompleted
    | Thrown(exception: Exception)

  /** `Computed.GetCurrent()`: the computed of the current context, or
      `CurrentComputedIsNull`. */
  function GetCurrent(s: ScopeStack): (r: Result<Computed, CaptureError>)
    ensures r.Ok? <==> Current(s).computed.Some?
    ensures r.Ok? ==> Some(r.value) == Current(s).computed
    ensures r.Err? ==> r.error == CurrentComputedIsNull
  {
    match Current(s).computed
    case Some(c) => Ok(c)
    case None => Err(CurrentComputedIsNull)
  }

  // Scopes

  /** Opening a `ComputeContextScope`: the context becomes current, and
      disposing the scope gives back the stack as it was. */
  function Begin(s: ScopeStack, context: ComputeContext): (r: ScopeStack)
    ensures Current(r) == context
    ensures |r.frames| > 0 && Dispose(r) == s
  {
    var r := ScopeStack(s.frames + [context]);
    assert r.frames[..|s.frames|] == s.frames;
    r
  }

  /** `ComputeContextScope.Dispose`: the previous context becomes current
      again; pushing the disposed context back gives the stack it closed. */
  function Dispose(s: ScopeStack): (r: ScopeStack)
    requires |s.frames| > 0
    ensures |r.frames| == |s.frames| - 1
    ensures r.frames + [Current(s)] == s.frames
  {
    ScopeStack(s.frames[..|s.frames| - 1])
  }

  /** `BeginCompute(computed)`: the computed becomes current. */
  function BeginCompute(s: ScopeStack, computed: Computed): (r: ScopeStack)
    ensures GetCurrent(r) == Ok(computed)
    ensures !Current(r).options.capture && Current(r).captured.None?
    ensures |r.frames| > 0 && Dispose(r) == s
  {
    Begin(s, ComputeContext(Some(computed), NoCallOptions, None))
  }

  /** `BeginIsolation()`: `ComputeContext.None` becomes current, so there is
      no current computed and nothing is captured. */
  function BeginIsolation(s: ScopeStack): (r: ScopeStack)
    ensures Current(r) == NoneContext
    ensures GetCurrent(r) == Err(CurrentComputedIsNull) && !Current(r).options.capture
    ensures |r.frames| > 0 && Dispose(r) == s
  {
    Begin(s, NoneContext)
  }

  /** `BeginCapture()`: a fresh context with the `Capture` option only. */
  function BeginCapture(s: ScopeStack): (r: ScopeStack)
    ensures Current(r).options.capture && !Current(r).options.getExisting
    ensures GetCurrent(r).Err? && Current(r).captured.None?
    ensures |r.frames| > 0 && Dispose(r) == s
  {
    Begin(s, ComputeContext(None, CallOptions(true, false), None))
  }

  /** `BeginCaptureExisting()`: a fresh context with the `Capture` and
      `GetExisting` options. */
  function BeginCaptureExisting(s: ScopeStack): (r: ScopeStack)
    ensures Current(r).options.capture && Current(r).options.getExisting
    ensures GetCurrent(r).Err? && Current(r).captured.None?
    ensures |r.frames| > 0 && Dispose(r) == s
  {
    Begin(s, ComputeContext(None, CallOptions(true, true), None))
  }

  /** A nested call reports the computed it produced to the current context,
      which keeps it only when it has the `Capture` option. */
  function Record(s: ScopeStack, produced: Option<Computed>): (r: ScopeStack)
    ensures |r.frames| == |s.frames|
    ensures forall i :: 0 <= i < |s.frames| - 1 ==> r.frames[i] == s.frames[i]
    ensures Current(r).computed == Current(s).computed && Current(r).options == Current(s).options
    ensures Current(r).captured == if Current(s).options.capture && produced.Some? then produced else Current(s).captured
  {
    if |s.frames| == 0 || !Current(s).options.capture || produced.None? then s
    else
      var top := Current(s);
      ScopeStack(s.frames[..|s.frames| - 1] + [top.(captured := produced)])
  }

  // Producers

  /** An exception; `OperationCanceled` stands for `OperationCanceledException`
      and its subclasses. */
  datatype Exception = OperationCanceled | OtherException(code: int)

  datatype CancellationToken = CancellationToken(isCancellationRequested: bool)

  /** `e.IsCancellationOf(token)`: a cancellation exception while the
      caller's own token is cancelled. */
  predicate IsCancellationOf(e: Exception, token: CancellationToken)
  {
    e.OperationCanceled? && token.isCancellationRequested
  }

  datatype Outcome = Completed | Faulted(error: Exception)

  /** One run of a producer: whether it completed synchronously (the task it
      returned was already finished), how it ended, and the computed its
      nested call produced, if any. */
  datatype ProducerRun = ProducerRun(synchronous: bool, outcome: Outcome, produced: Option<Computed>)

  /** Runs the producer inside a scope with the given context and returns
      the stack after disposing the scope and what the context captured. */
  function RunInScope(s: ScopeStack, context: ComputeContext, run: ProducerRun): (r: (ScopeStack, Option<Computed>))
    ensures r.0 == s
    ensures context.options.capture && context.captured.None? ==> r.1 == run.produced
    ensures !context.options.capture ==> r.1 == context.captured
  {
    var inner := Record(Begin(s, context), run.produced);
    assert inner.frames[..|s.frames|] == s.frames;
    (Dispose(inner), Current(inner).captured)
  }

  /** The `catch (e) when (!e.IsCancellationOf(token))` rule shared by
      `TryCapture` and `Capture`: a captured computed that carries an error is
      returned in place of the failure, anything else rethrows. */
  function Recover(e: Exception, token: CancellationToken, captured: Option<Computed>): Result<Computed, CaptureError>
  {
    if !IsCancellationOf(e, token) && captured.Some? && captured.value.hasError then Ok(captured.value)
    else Err(Thrown(e))
  }

  /** `Computed.TryCapture(producer, token)`. */
  function TryCapture(s: ScopeStack, run: ProducerRun, token: CancellationToken): (r: (ScopeStack, Result<Option<Computed>, CaptureError>))
    ensures r.0 == s
    ensures run.outcome.Completed? ==> r.1 == Ok(run.produced)
    ensures run.outcome.Faulted? ==>
      (r.1.Ok? <==> !IsCancellationOf(run.outcome.error, token) && run.produced.Some? && run.produced.value.hasError)
    ensures run.outcome.Faulted? && r.1.Ok? ==> r.1.value == run.produced
    ensures run.outcome.Faulted? && r.1.Err? ==> r.1.error == Thrown(run.outcome.error)
  {
    var (after, captured) := RunInScope(s, ComputeContext(None, CallOptions(true, false), None), run);
    match run.outcome
    case Completed => (after, Ok(captured))
    case Faulted(e) =>
      match Recover(e, token, captured)
      case Ok(c) => (after, Ok(Some(c)))
      case Err(err) => (after, Err(err))
  }

  /** `Computed.Capture(producer, token)`: as `TryCapture`, except that a
      successful producer must have captured something (`GetCaptured`). */
  function Capture(s: ScopeStack, run: ProducerRun, token: CancellationToken): (r: (ScopeStack, Result<Computed, CaptureError>))
    ensures r.0 == s
    ensures run.outcome.Completed? ==> (r.1.Ok? <==> run.produced.Some?)
    ensures run.outcome.Completed? && r.1.Err? ==> r.1.error == NoComputedCaptured
  {
    var (after, captured) := RunInScope(s, ComputeContext(None, CallOptions(true, false), None), run);
    match run.outcome
    case Completed =>
      (after, if captured.Some? then Ok(captured.value) else Err(NoComputedCaptured))
    case Faulted(e) => (after, Recover(e, token, captured))
  }

  /** `Computed.GetExisting(producer)`: the producer must finish
      synchronously; its failure is not observed, and the result is whatever
      the capture-existing context captured. */
  function GetExisting(s: ScopeStack, run: ProducerRun): (r: (ScopeStack, Result<Option<Computed>, CaptureError>))
    ensures r.0 == s
    ensures r.1.Err? <==> !run.synchronous
    ensures r.1.Err? ==> r.1.error == NotCompleted
    ensures run.synchronous ==> r.1 == Ok(run.produced)
  {
    var (after, captured) := RunInScope(s, ComputeContext(None, CallOptions(true, true), None), run);
    if !run.synchronous then (after, Err(NotCompleted)) else (after, Ok(captured))
  }

  // Properties across the helpers

  /** The caller's own cancellation is never turned into a result: every
      capture helper rethrows it. */
  lemma CancellationPropagates(s: ScopeStack, run: ProducerRun, token: CancellationToken)
    requires run.outcome.Faulted? && IsCancellationOf(run.outcome.error, token)
    ensures TryCapture(s, run, token).1 == Err(Thrown(run.outcome.error))
    ensures Capture(s, run, token).1 == Err(Thrown(run.outcome.error))
  {
  }

  /** A result obtained from a failed producer is always a computed that
      carries the error; a failure never yields "nothing captured". */
  lemma FailureYieldsErrorComputed(s: ScopeStack, run: ProducerRun, token: CancellationToken)
    requires run.outcome.Faulted?
    ensures TryCapture(s, run, token).1 != Ok(None)
    ensures Capture(s, run, token).1.Ok? ==> Capture(s, run, token).1.value.hasError
  {
  }

  /** `Capture` is `TryCapture` with the option unwrapped: both succeed on
      the same computed, and `Capture` fails exactly where `TryCapture`
      fails or yields nothing. */
  lemma CaptureUnwrapsTryCapture(s: ScopeStack, run: ProducerRun, token: CancellationToken)
    ensures forall c :: TryCapture(s, run, token).1 == Ok(Some(c)) <==> Capture(s, run, token).1 == Ok(c)
    ensures TryCapture(s, run, token).1 == Ok(None) ==> Capture(s, run, token).1 == Err(NoComputedCaptured)
    ensures TryCapture(s, run, token).1.Err? ==> Capture(s, run, token).1 == TryCapture(s, run, token).1.PropagateFailure()
  {
  }

  /** Reporting a computed outside a capturing context, for example under an
      isolation scope, records nothing. */
  lemma IsolationRecordsNothing(s: ScopeStack, produced: Option<Computed>)
    ensures Record(BeginIsolation(s), produced) == BeginIsolation(s)
  {
  }
}

=== FILE: log_processor.dfy ===
/** `DbLogProcessor`: reads a shard's operation log in index order, in
    batches, processes each entry, and schedules a "gap" task for every
    index that is missing from the log (an entry not yet visible, or one
    whose processing failed).

    The database is the list of log entries of the shard; queries are
    functions over that list. `Process` is given by the set of indexes on
    which it throws; the version generator is a function parameter. One
    call of `ProcessBatch` runs its tasks to completion before it returns,
    and gap tasks only register their key (they run later, through
    `ProcessGapImpl`, and unregister with `FinishGap`).
 */
module LogProcessing {
  import opened Wrappers

  datatype Mode = Cooperative | Exclusive

  /** The record type of the processor's settings. */
  datatype OptionsKind = CooperativeOptions | ExclusiveOptions | OtherOptions

  datatype ProcessorError = ArgumentOutOfRange | LogEntryNotFound | ProcessFailed

  /** `Mode`: follows the settings type; any other settings type is rejected. */
  function ModeOf(kind: OptionsKind): (r: Result<Mode, ProcessorError>)
    ensures r == Ok(Cooperative) <==> kind == CooperativeOptions
    ensures r == Ok(Exclusive) <==> kind == ExclusiveOptions
    ensures r.Err? <==> kind == OtherOptions
    ensures r.Err? ==> r.error == ArgumentOutOfRange
  {
    match kind
    case CooperativeOptions => Ok(Cooperative)
    case ExclusiveOptions => Ok(Exclusive)
    case OtherOptions => Err(ArgumentOutOfRange)
  }

  datatype DbHint = UpdateHint | SkipLockedHint

  /** `GetProcessQueryHints(mode)`: no hints for cooperative readers; exclusive
      readers lock the rows they read and skip rows locked by others. */
  function QueryHints(mode: Mode): (r: seq<DbHint>)
    ensures mode.Cooperative? <==> r == []
    ensures mode.Exclusive? ==> UpdateHint in r && SkipLockedHint in r
  {
    if mode.Cooperative? then [] else [UpdateHint, SkipLockedHint]
  }

  // Log entries

  datatype Entry = Entry(index: int, loggedAt: int, isProcessed: bool, version: nat)

  /** Entries in strictly ascending index order, none below `from`. */
  predicate AscendingFrom(entries: seq<Entry>, from: int)
  {
    && (forall i :: 0 <= i < |entries| ==> entries[i].index >= from)
    && (forall i, j :: 0 <= i < j < |entries| ==> entries[i].index < entries[j].index)
  }

  /** The log of a shard: its entries ordered by index, indexes unique. */
  predicate WellOrdered(log: seq<Entry>)
  {
    forall i, j :: 0 <= i < j < |log| ==> log[i].index < log[j].index
  }

  /** The entries with `Index >= from`, in log order. */
  function From(log: seq<Entry>, from: int): (r: seq<Entry>)
    ensures forall i :: 0 <= i < |r| ==> r[i] in log && r[i].index >= from
    ensures forall e :: e in log && e.index >= from ==> e in r
  {
    if |log| == 0 then []
    else
      var rest := From(log[1..], from);
      assert forall e :: e in log ==> e == log[0] || e in log[1..];
      if log[0].index >= from then [log[0]] + rest else rest
  }

  /** On an ordered log the filtered entries come in ascending index order. */
  lemma {:induction false} FromAscending(log: seq<Entry>, from: int)
    requires WellOrdered(log)
    ensures AscendingFrom(From(log, from), from)
  {
    if |log| > 0 {
      assert WellOrdered(log[1..]);
      FromAscending(log[1..], from);
      var rest := From(log[1..], from);
      forall i | 0 <= i < |rest| ensures log[0].index < rest[i].index {
        var k :| 0 <= k < |log[1..]| && log[1..][k] == rest[i];
        assert log[k + 1] == rest[i];
      }
    }
  }

  /** The batch query: at most `batchSize` entries with `Index >= nextIndex`,
      in ascending index order (`FetchBatchLowest`: the lowest-indexed ones). */
  function FetchBatch(log: seq<Entry>, nextIndex: int, batchSize: nat): (r: seq<Entry>)
    requires WellOrdered(log)
    ensures |r| <= batchSize
    ensures AscendingFrom(r, nextIndex)
    ensures forall i :: 0 <= i < |r| ==> r[i] in log
    ensures |r| < batchSize ==> forall e :: e in log && e.index >= nextIndex ==> e in r
  {
    var all := From(log, nextIndex);
    FromAscending(log, nextIndex);
    if |all| <= batchSize then all else all[..batchSize]
  }

  /** The batch holds every entry from `nextIndex` up to its last index, so a
      full batch holds the lowest-indexed ones. */
  lemma FetchBatchLowest(log: seq<Entry>, nextIndex: int, batchSize: nat)
    requires WellOrdered(log)
    ensures var r := FetchBatch(log, nextIndex, batchSize);
            |r| > 0 ==> forall e :: e in log && nextIndex <= e.index <= r[|r| - 1].index ==> e in r
  {
    var all := From(log, nextIndex);
    FromAscending(log, nextIndex);
    if 0 < batchSize < |all| {
      PrefixHoldsLowest(all, nextIndex, batchSize);
    }
  }

  /** A prefix of an ascending list holds every element of the list up to
      the prefix's last index. */
  lemma PrefixHoldsLowest(all: seq<Entry>, from: int, n: nat)
    requires AscendingFrom(all, from) && 0 < n <= |all|
    ensures forall e :: e in all && e.index <= all[n - 1].index ==> e in all[..n]
  {
    forall e | e in all && e.index <= all[n - 1].index
      ensures e in all[..n]
    {
      var k :| 0 <= k < |all| && all[k] == e;
      assert k < n;
      assert all[..n][k] == e;
    }
  }

  // The task list of a batch

  /** What `GetProcessTasks` does for one index: start a gap task for a
      missing index, or process an entry. */
  datatype Action = Gap(gapIndex: int, maxLoggedAt: int) | Process(entry: Entry)
  {
    function Index(): int {
      match this
      case Gap(i, _) => i
      case Process(e) => e.index
    }
  }

  /** Gap tasks for the indexes `lo .. hi - 1`. */
  function Gaps(lo: int, hi: int, loggedAt: int): (r: seq<Action>)
    requires lo <= hi
    ensures |r| == hi - lo
    ensures forall j :: 0 <= j < |r| ==> r[j] == Gap(lo + j, loggedAt)
    decreases hi - lo
  {
    if lo == hi then [] else [Gap(lo, loggedAt)] + Gaps(lo + 1, hi, loggedAt)
  }

  /** `GetProcessTasks(shard, entries, nextIndex)`: walking the entries, every
      index skipped since the previous entry becomes a gap (with the
      following entry's `LoggedAt`), and each entry is processed. */
  function ProcessTasks(entries: seq<Entry>, nextIndex: int): (r: seq<Action>)
    requires AscendingFrom(entries, nextIndex)
    ensures |entries| == 0 <==> r == []
    ensures |entries| > 0 ==> |r| == entries[|entries| - 1].index + 1 - nextIndex
    ensures |entries| > 0 ==> r[|r| - 1] == Process(entries[|entries| - 1])
    decreases |entries|
  {
    if |entries| == 0 then []
    else
      var e := entries[0];
      assert AscendingFrom(entries[1..], e.index + 1);
      Gaps(nextIndex, e.index, e.loggedAt) + [Process(e)] + ProcessTasks(entries[1..], e.index + 1)
  }

  /** Position `j` of a task list built from gaps, one entry and a tail. */
  lemma TaskAt(gaps: seq<Action>, x: Action, tail: seq<Action>, j: int)
    requires 0 <= j < |gaps| + 1 + |tail|
    ensures (gaps + [x] + tail)[j] == if j < |gaps| then gaps[j] else if j == |gaps| then x else tail[j - |gaps| - 1]
  {
  }

  /** The tasks cover the index range `[nextIndex, last entry's index]`
      exactly once and in order: position `j` is about index `nextIndex + j`. */
  lemma {:induction false} ProcessTasksCover(entries: seq<Entry>, nextIndex: int)
    requires AscendingFrom(entries, nextIndex)
    ensures var r := ProcessTasks(entries, nextIndex);
            && (|entries| == 0 ==> r == [])
            && (|entries| > 0 ==> |r| == entries[|entries| - 1].index + 1 - nextIndex)
            && (forall j :: 0 <= j < |r| ==> r[j].Index() == nextIndex + j)
    decreases |entries|
  {
    if |entries| > 0 {
      var e := entries[0];
      var rest := entries[1..];
      assert AscendingFrom(rest, e.index + 1);
      var gaps := Gaps(nextIndex, e.index, e.loggedAt);
      var tail := ProcessTasks(rest, e.index + 1);
      var r := ProcessTasks(entries, nextIndex);
      assert r == gaps + [Process(e)] + tail;
      forall j | 0 <= j < |r| ensures r[j].Index() == nextIndex + j {
        TaskAt(gaps, Process(e), tail, j);
        if j > |gaps| {
          ProcessTasksCover(rest, e.index + 1);
        }
      }
      if |rest| > 0 {
        assert entries[|entries| - 1] == rest[|rest| - 1];
      }
    }
  }

  /** Each entry is processed at its own position. */
  lemma {:induction false} EntriesProcessedInPlace(entries: seq<Entry>, nextIndex: int)
    requires AscendingFrom(entries, nextIndex)
    ensures var r := ProcessTasks(entries, nextIndex);
            forall k :: 0 <= k < |entries| ==>
              0 <= entries[k].index - nextIndex < |r| && r[entries[k].index - nextIndex] == Process(entries[k])
    decreases |entries|
  {
    if |entries| > 0 {
      var e := entries[0];
      var rest := entries[1..];
      assert AscendingFrom(rest, e.index + 1);
      EntriesProcessedInPlace(rest, e.index + 1);
      var gaps := Gaps(nextIndex, e.index, e.loggedAt);
      var tail := ProcessTasks(rest, e.index + 1);
      var r := ProcessTasks(entries, nextIndex);
      assert r == gaps + [Process(e)] + tail;
      forall k | 0 <= k < |entries|
        ensures 0 <= entries[k].index - nextIndex < |r| && r[entries[k].index - nextIndex] == Process(entries[k])
      {
        if k > 0 {
          assert entries[k] == rest[k - 1];
        }
        TaskAt(gaps, Process(e), tail, entries[k].index - nextIndex);
      }
    }
  }

  /** Only the entries are processed: every other position is a gap. */
  lemma {:induction false} OnlyEntriesProcessed(entries: seq<Entry>, nextIndex: int)
    requires AscendingFrom(entries, nextIndex)
    ensures forall a :: a in ProcessTasks(entries, nextIndex) && a.Process? ==> a.entry in entries
    decreases |entries|
  {
    if |entries| > 0 {
      var e := entries[0];
      var rest := entries[1..];
      AscendingTail(entries, nextIndex);
      OnlyEntriesProcessed(rest, e.index + 1);
      var gaps := Gaps(nextIndex, e.index, e.loggedAt);
      assert forall a :: a in gaps ==> a.Gap? by {
        forall a | a in gaps ensures a.Gap? {
          var j :| 0 <= j < |gaps| && gaps[j] == a;
        }
      }
      var tail := ProcessTasks(rest, e.index + 1);
      var tasks := ProcessTasks(entries, nextIndex);
      assert tasks == gaps + [Process(e)] + tail;
      forall a | a in tasks && a.Process? ensures a.entry in entries {
        assert a == Process(e) || a in tail;
        assert entries == [e] + rest;
      }
    }
  }

  /** The entries after the first ascend from just past the first one. */
  lemma AscendingTail(entries: seq<Entry>, from: int)
    requires AscendingFrom(entries, from) && |entries| > 0
    ensures AscendingFrom(entries[1..], entries[0].index + 1)
  {
    assert forall i :: 0 <= i < |entries| - 1 ==> entries[1..][i] == entries[i + 1];
  }

  /** Each entry is processed at its own position, and only the entries are
      processed: every other position is a gap. */
  lemma ProcessTasksEntries(entries: seq<Entry>, nextIndex: int)
    requires AscendingFrom(entries, nextIndex)
    ensures var r := ProcessTasks(entries, nextIndex);
            && (forall k :: 0 <= k < |entries| ==>
                  0 <= entries[k].index - nextIndex < |r| && r[entries[k].index - nextIndex] == Process(entries[k]))
            && (forall j :: 0 <= j < |r| && r[j].Process? ==> r[j].entry in entries)
  {
    EntriesProcessedInPlace(entries, nextIndex);
    OnlyEntriesProcessed(entries, nextIndex);
    var r := ProcessTasks(entries, nextIndex);
    forall j | 0 <= j < |r| && r[j].Process? ensures r[j].entry in entries {
      assert r[j] in r;
    }
  }

  // Processor state

  /** The processor's in-memory state: the next index per shard
      (`NextIndexes`) and the keys of the running gap tasks
      (`ProcessGapTasks`). */
  datatype Processor = Processor(
    mode: Mode,
    batchSize: nat,
    startOffset: int,
    nextIndexes: map<nat, int>,
    gapTasks: set<(nat, int)>)

  /** `ProcessGapSafe(shard, index, …)`: starts a gap task unless one is
      already registered for that (shard, index). */
  function ProcessGapSafe(p: Processor, shard: nat, index: int): (r: (Processor, bool))
    ensures r.0.gapTasks == p.gapTasks + {(shard, index)}
    ensures r.1 <==> (shard, index) !in p.gapTasks
    ensures r.0 == p.(gapTasks := r.0.gapTasks)
  {
    if (shard, index) in p.gapTasks then (p, false)
    else (p.(gapTasks := p.gapTasks + {(shard, index)}), true)
  }

  /** The continuation of a gap task: its key is unregistered. */
  function FinishGap(p: Processor, shard: nat, index: int): (r: Processor)
    ensures r.gapTasks == p.gapTasks - {(shard, index)}
    ensures r == p.(gapTasks := r.gapTasks)
  {
    p.(gapTasks := p.gapTasks - {(shard, index)})
  }

  /** A gap task can be started again only after the previous one for the
      same key finished. */
  lemma GapDeduplication(p: Processor, shard: nat, index: int)
    ensures var (p1, started1) := ProcessGapSafe(p, shard, index);
            && !ProcessGapSafe(p1, shard, index).1
            && ProcessGapSafe(FinishGap(p1, shard, index), shard, index).1
  {
  }

  /** What `ProcessSafe` did with an entry. */
  datatype ProcessOutcome = Skipped | Processed | FailedToGap | Failed

  /** `ProcessSafe(shard, entry, fallbackToProcessGap)`: processed entries are
      skipped; a failure is swallowed and, with the fallback, the entry's
      index is handed to `ProcessGapSafe`. */
  function ProcessSafe(p: Processor, shard: nat, e: Entry, fallbackToGap: bool, failing: set<int>): (r: (Processor, ProcessOutcome))
    ensures e.isProcessed ==> r == (p, Skipped)
    ensures !e.isProcessed && e.index !in failing ==> r == (p, Processed)
    ensures !e.isProcessed && e.index in failing && fallbackToGap ==>
      r.1 == FailedToGap && r.0 == ProcessGapSafe(p, shard, e.index).0
    ensures !e.isProcessed && e.index in failing && !fallbackToGap ==> r == (p, Failed)
  {
    if e.isProcessed then (p, Skipped)
    else if e.index !in failing then (p, Processed)
    else if fallbackToGap then (ProcessGapSafe(p, shard, e.index).0, FailedToGap)
    else (p, Failed)
  }

  /** Whether running one task hands index `i` to `ProcessGapSafe`: a gap
      task for `i`, or an unprocessed entry at `i` whose processing fails. */
  predicate RegistersGap(a: Action, failing: set<int>, i: int)
  {
    match a
    case Gap(g, _) => g == i
    case Process(e) => !e.isProcessed && e.index in failing && e.index == i
  }

  /** Whether some task of the list hands index `i` to `ProcessGapSafe`. */
  predicate AddsGap(actions: seq<Action>, failing: set<int>, i: int)
  {
    exists j :: 0 <= j < |actions| && RegistersGap(actions[j], failing, i)
  }

  lemma AddsGapCons(actions: seq<Action>, failing: set<int>, i: int)
    requires |actions| > 0
    ensures AddsGap(actions, failing, i) <==>
            RegistersGap(actions[0], failing, i) || AddsGap(actions[1..], failing, i)
  {
    if AddsGap(actions[1..], failing, i) {
      var j :| 0 <= j < |actions[1..]| && RegistersGap(actions[1..][j], failing, i);
      assert actions[j + 1] == actions[1..][j];
    }
    if AddsGap(actions, failing, i) && !RegistersGap(actions[0], failing, i) {
      var j :| 0 <= j < |actions| && RegistersGap(actions[j], failing, i);
      assert actions[1..][j - 1] == actions[j];
    }
  }

  /** Runs the task list: gaps are registered, entries go through
      `ProcessSafe` with the gap fallback. Exactly the indexes some task
      hands to `ProcessGapSafe` gain a key, all under this shard. */
  function RunTasks(p: Processor, shard: nat, actions: seq<Action>, failing: set<int>): (r: Processor)
    ensures r == p.(gapTasks := r.gapTasks)
    ensures p.gapTasks <= r.gapTasks
    ensures forall j :: 0 <= j < |actions| && actions[j].Gap? ==> (shard, actions[j].gapIndex) in r.gapTasks
    ensures forall j :: (0 <= j < |actions| && actions[j].Process? && !actions[j].entry.isProcessed
                         && actions[j].entry.index in failing) ==> (shard, actions[j].entry.index) in r.gapTasks
    ensures forall key :: key in r.gapTasks && key !in p.gapTasks ==>
      key.0 == shard && AddsGap(actions, failing, key.1)
    decreases |actions|
  {
    if |actions| == 0 then p
    else
      var p1 :=
        match actions[0]
        case Gap(i, _) => ProcessGapSafe(p, shard, i).0
        case Process(e) => ProcessSafe(p, shard, e, true, failing).0;
      var r := RunTasks(p1, shard, actions[1..], failing);
      assert forall j :: 1 <= j < |actions| ==> actions[j] == actions[1..][j - 1];
      assert forall key :: key in r.gapTasks && key !in p.gapTasks ==>
        key.0 == shard && AddsGap(actions, failing, key.1) by {
        forall key | key in r.gapTasks && key !in p.gapTasks
          ensures key.0 == shard && AddsGap(actions, failing, key.1)
        {
          AddsGapCons(actions, failing, key.1);
        }
      }
      r
  }

  // Batches

  /** Whether a fresh reader may start from an entry: one logged at most
      `startOffset` before `now` for a cooperative reader, an unprocessed one
      for an exclusive reader. */
  predicate StartCandidate(mode: Mode, e: Entry, now: int, startOffset: int)
  {
    if mode.Cooperative? then e.loggedAt >= now - startOffset else !e.isProcessed
  }

  /** `GetStartEntry`: the first candidate in index order. */
  function StartEntry(mode: Mode, log: seq<Entry>, now: int, startOffset: int): (r: Option<nat>)
    ensures r.Some? ==> r.value < |log| && StartCandidate(mode, log[r.value], now, startOffset)
    ensures r.Some? ==> forall i :: 0 <= i < r.value ==> !StartCandidate(mode, log[i], now, startOffset)
    ensures r.None? ==> forall i :: 0 <= i < |log| ==> !StartCandidate(mode, log[i], now, startOffset)
  {
    if |log| == 0 then None
    else if StartCandidate(mode, log[0], now, startOffset) then Some(0)
    else
      match StartEntry(mode, log[1..], now, startOffset)
      case None => None
      case Some(k) => Some(k + 1)
  }

  /** `TryGetNextIndex(shard)`: the remembered next index, or the start
      entry's index, which is then remembered; none for a log with no start
      entry. */
  function TryGetNextIndex(p: Processor, shard: nat, log: seq<Entry>, now: int): (r: (Processor, Option<int>))
    ensures shard in p.nextIndexes ==> r == (p, Some(p.nextIndexes[shard]))
    ensures r.1.None? ==> r.0 == p
    ensures shard !in p.nextIndexes ==>
      (r.1.None? <==> forall i :: 0 <= i < |log| ==> !StartCandidate(p.mode, log[i], now, p.startOffset))
    ensures shard !in p.nextIndexes && r.1.Some? ==>
      exists k :: 0 <= k < |log| && r.1.value == log[k].index && StartCandidate(p.mode, log[k], now, p.startOffset)
    ensures r.1.Some? ==> shard in r.0.nextIndexes && r.0.nextIndexes[shard] == r.1.value
    ensures r.0 == p.(nextIndexes := r.0.nextIndexes)
    ensures r.0.nextIndexes == if r.1.Some? then p.nextIndexes[shard := r.1.value] else p.nextIndexes
  {
    if shard in p.nextIndexes then
      assert p.nextIndexes[shard := p.nextIndexes[shard]] == p.nextIndexes;
      (p, Some(p.nextIndexes[shard]))
    else
      match StartEntry(p.mode, log, now, p.startOffset)
      case None => (p, None)
      case Some(k) => (p.(nextIndexes := p.nextIndexes[shard := log[k].index]), Some(log[k].index))
  }

  /** `MarkProcessed(entry)`: processed, with the next version. */
  function MarkProcessed(e: Entry, nextVersion: nat -> nat): (r: Entry)
    ensures r.isProcessed && r.version == nextVersion(e.version)
    ensures r.index == e.index && r.loggedAt == e.loggedAt
  {
    e.(isProcessed := true, version := nextVersion(e.version))
  }

  /** The log after marking the given entries processed. */
  function MarkAll(log: seq<Entry>, batch: seq<Entry>, nextVersion: nat -> nat): (r: seq<Entry>)
    ensures |r| == |log|
    ensures forall i :: 0 <= i < |log| ==> r[i] == if log[i] in batch then MarkProcessed(log[i], nextVersion) else log[i]
  {
    seq(|log|, i requires 0 <= i < |log| => if log[i] in batch then MarkProcessed(log[i], nextVersion) else log[i])
  }

  /** The outcome of one `ProcessBatch` call: the new processor state, the
      log as stored afterwards, and whether to read another batch. */
  datatype BatchResult = BatchResult(processor: Processor, log: seq<Entry>, mustContinue: bool)

  /** `ProcessBatch(shard)`. */
  function ProcessBatch(p: Processor, shard: nat, log: seq<Entry>, now: int, failing: set<int>, nextVersion: nat -> nat): (r: BatchResult)
    requires WellOrdered(log)
    ensures r.processor == p.(gapTasks := r.processor.gapTasks, nextIndexes := r.processor.nextIndexes)
    ensures p.gapTasks <= r.processor.gapTasks
    ensures forall s :: s != shard ==> (s in r.processor.nextIndexes <==> s in p.nextIndexes)
    ensures forall s :: s != shard && s in p.nextIndexes ==> r.processor.nextIndexes[s] == p.nextIndexes[s]
    ensures p.mode.Cooperative? ==> r.log == log
    ensures |r.log| == |log| && forall i :: 0 <= i < |log| ==> r.log[i].index == log[i].index
  {
    var (p1, next) := TryGetNextIndex(p, shard, log, now);
    if next.None? then BatchResult(p1, log, false)
    else
      var entries := FetchBatch(log, next.value, p.batchSize);
      if |entries| == 0 then BatchResult(p1, log, false)
      else
        var p2 := RunTasks(p1, shard, ProcessTasks(entries, next.value), failing);
        var last := entries[|entries| - 1].index;
        var log1 := if p.mode.Exclusive? then MarkAll(log, entries, nextVersion) else log;
        BatchResult(p2.(nextIndexes := p2.nextIndexes[shard := last + 1]), log1, |entries| >= p.batchSize)
  }

  /** An empty log (no start entry) or an empty batch stops the loop and
      leaves the log as it was. */
  lemma BatchStops(p: Processor, shard: nat, log: seq<Entry>, now: int, failing: set<int>, nextVersion: nat -> nat)
    requires WellOrdered(log)
    requires var next := TryGetNextIndex(p, shard, log, now).1;
             next.None? || |FetchBatch(log, next.value, p.batchSize)| == 0
    ensures var r := ProcessBatch(p, shard, log, now, failing, nextVersion);
            !r.mustContinue && r.log == log && r.processor.gapTasks == p.gapTasks
    ensures TryGetNextIndex(p, shard, log, now).1.None? ==> ProcessBatch(p, shard, log, now, failing, nextVersion).processor == p
  {
  }

  /** After a non-empty batch the shard's next index is the last fetched
      index + 1, past where the batch started, and the loop continues exactly
      when the batch was full. */
  lemma BatchAdvances(p: Processor, shard: nat, log: seq<Entry>, now: int, failing: set<int>, nextVersion: nat -> nat)
    requires WellOrdered(log)
    requires var next := TryGetNextIndex(p, shard, log, now).1;
             next.Some? && |FetchBatch(log, next.value, p.batchSize)| > 0
    ensures var next := TryGetNextIndex(p, shard, log, now).1.value;
            var batch := FetchBatch(log, next, p.batchSize);
            var r := ProcessBatch(p, shard, log, now, failing, nextVersion);
            && shard in r.processor.nextIndexes
            && r.processor.nextIndexes[shard] == batch[|batch| - 1].index + 1
            && r.processor.nextIndexes[shard] > next
            && (r.mustContinue <==> |batch| == p.batchSize)
  {
  }

  /** After a non-empty batch every index in the scanned range that has no
      entry has a gap task, and so does every entry whose processing failed. */
  lemma BatchSchedulesGaps(p: Processor, shard: nat, log: seq<Entry>, now: int, failing: set<int>, nextVersion: nat -> nat)
    requires WellOrdered(log)
    requires var next := TryGetNextIndex(p, shard, log, now).1;
             next.Some? && |FetchBatch(log, next.value, p.batchSize)| > 0
    ensures var next := TryGetNextIndex(p, shard, log, now).1.value;
            var batch := FetchBatch(log, next, p.batchSize);
            var r := ProcessBatch(p, shard, log, now, failing, nextVersion);
            && (forall i :: next <= i <= batch[|batch| - 1].index && (forall e :: e in batch ==> e.index != i)
                  ==> (shard, i) in r.processor.gapTasks)
            && (forall e :: e in batch && !e.isProcessed && e.index in failing ==> (shard, e.index) in r.processor.gapTasks)
  {
    var (p1, next) := TryGetNextIndex(p, shard, log, now);
    var batch := FetchBatch(log, next.value, p.batchSize);
    TasksScheduleGaps(p1, shard, batch, next.value, failing);
    BatchGapTasks(p, shard, log, now, failing, nextVersion);
  }

  /** The converse of `BatchSchedulesGaps`: a non-empty batch adds gap keys
      only under its own shard, and only for an index in the scanned range
      that has no entry or for an unprocessed entry whose processing failed.
      A processed or successfully processed entry never becomes a gap. */
  lemma BatchSchedulesOnlyGaps(p: Processor, shard: nat, log: seq<Entry>, now: int, failing: set<int>, nextVersion: nat -> nat)
    requires WellOrdered(log)
    requires var next := TryGetNextIndex(p, shard, log, now).1;
             next.Some? && |FetchBatch(log, next.value, p.batchSize)| > 0
    ensures var next := TryGetNextIndex(p, shard, log, now).1.value;
            var batch := FetchBatch(log, next, p.batchSize);
            var r := ProcessBatch(p, shard, log, now, failing, nextVersion);
            forall key :: key in r.processor.gapTasks && key !in p.gapTasks ==>
              && key.0 == shard
              && ((next <= key.1 <= batch[|batch| - 1].index && forall e :: e in batch ==> e.index != key.1)
                  || exists e :: e in batch && e.index == key.1 && !e.isProcessed && key.1 in failing)
  {
    var (p1, next) := TryGetNextIndex(p, shard, log, now);
    var batch := FetchBatch(log, next.value, p.batchSize);
    BatchGapTasks(p, shard, log, now, failing, nextVersion);
    TasksScheduleOnlyGaps(p1, shard, batch, next.value, failing);
  }

  /** The gap tasks after a non-empty batch are those its task list registers. */
  lemma BatchGapTasks(p: Processor, shard: nat, log: seq<Entry>, now: int, failing: set<int>, nextVersion: nat -> nat)
    requires WellOrdered(log)
    requires var next := TryGetNextIndex(p, shard, log, now).1;
             next.Some? && |FetchBatch(log, next.value, p.batchSize)| > 0
    ensures var (p1, next) := TryGetNextIndex(p, shard, log, now);
            var batch := FetchBatch(log, next.value, p.batchSize);
            && AscendingFrom(batch, next.value)
            && ProcessBatch(p, shard, log, now, failing, nextVersion).processor.gapTasks
               == RunTasks(p1, shard, ProcessTasks(batch, next.value), failing).gapTasks
  {
  }

  lemma TasksScheduleGaps(p: Processor, shard: nat, batch: seq<Entry>, next: int, failing: set<int>)
    requires AscendingFrom(batch, next) && |batch| > 0
    ensures var g := RunTasks(p, shard, ProcessTasks(batch, next), failing).gapTasks;
            && (forall i :: next <= i <= batch[|batch| - 1].index && (forall e :: e in batch ==> e.index != i)
                  ==> (shard, i) in g)
            && (forall e :: e in batch && !e.isProcessed && e.index in failing ==> (shard, e.index) in g)
  {
    var actions := ProcessTasks(batch, next);
    ProcessTasksCover(batch, next);
    ProcessTasksEntries(batch, next);
    var g := RunTasks(p, shard, actions, failing).gapTasks;
    forall i | next <= i <= batch[|batch| - 1].index && (forall e :: e in batch ==> e.index != i)
      ensures (shard, i) in g
    {
      var j := i - next;
      assert actions[j].Index() == i;
    }
    forall e | e in batch && !e.isProcessed && e.index in failing ensures (shard, e.index) in g {
      var k :| 0 <= k < |batch| && batch[k] == e;
      assert actions[e.index - next] == Process(e);
    }
  }

  /** For any ascending batch, running its tasks adds a gap key only under
      the shard, for an index in the range that has no entry or for an
      unprocessed entry whose processing failed. */
  lemma TasksScheduleOnlyGaps(p: Processor, shard: nat, batch: seq<Entry>, next: int, failing: set<int>)
    requires AscendingFrom(batch, next) && |batch| > 0
    ensures var g := RunTasks(p, shard, ProcessTasks(batch, next), failing).gapTasks;
            forall key :: key in g && key !in p.gapTasks ==>
              && key.0 == shard
              && ((next <= key.1 <= batch[|batch| - 1].index && forall e :: e in batch ==> e.index != key.1)
                  || exists e :: e in batch && e.index == key.1 && !e.isProcessed && key.1 in failing)
  {
    var actions := ProcessTasks(batch, next);
    ProcessTasksCover(batch, next);
    ProcessTasksEntries(batch, next);
    var g := RunTasks(p, shard, actions, failing).gapTasks;
    forall key | key in g && key !in p.gapTasks
      ensures (next <= key.1 <= batch[|batch| - 1].index && forall e :: e in batch ==> e.index != key.1)
              || exists e :: e in batch && e.index == key.1 && !e.isProcessed && key.1 in failing
    {
      var j :| 0 <= j < |actions| && RegistersGap(actions[j], failing, key.1);
      assert actions[j].Index() == next + j;
      match actions[j]
      case Gap(_, _) =>
        forall e | e in batch ensures e.index != key.1 {
          var k :| 0 <= k < |batch| && batch[k] == e;
          assert actions[e.index - next] == Process(e);
        }
      case Process(e) =>
        assert e in batch;
    }
  }

  /** An exclusive reader marks exactly the fetched entries processed and
      leaves every other log entry as it was. */
  lemma BatchMarksProcessed(p: Processor, shard: nat, log: seq<Entry>, now: int, failing: set<int>, nextVersion: nat -> nat)
    requires WellOrdered(log) && p.mode.Exclusive?
    requires var next := TryGetNextIndex(p, shard, log, now).1;
             next.Some? && |FetchBatch(log, next.value, p.batchSize)| > 0
    ensures var next := TryGetNextIndex(p, shard, log, now).1.value;
            var batch := FetchBatch(log, next, p.batchSize);
            var r := ProcessBatch(p, shard, log, now, failing, nextVersion);
            && |r.log| == |log|
            && (forall i :: 0 <= i < |log| ==> r.log[i].index == log[i].index)
            && (forall i :: 0 <= i < |log| && log[i] in batch ==> r.log[i].isProcessed)
            && (forall i :: 0 <= i < |log| && log[i] in batch ==> r.log[i] == MarkProcessed(log[i], nextVersion))
            && (forall i :: 0 <= i < |log| && log[i] !in batch ==> r.log[i] == log[i])
  {
  }

  // Gap processing

  /** `GetEntry(index)`: the entry with that index, if the log has it. */
  function GetEntry(log: seq<Entry>, index: int): (r: Option<nat>)
    ensures r.Some? ==> r.value < |log| && log[r.value].index == index
    ensures r.None? ==> forall i :: 0 <= i < |log| ==> log[i].index != index
  {
    if |log| == 0 then None
    else if log[|log| - 1].index == index then Some(|log| - 1)
    else GetEntry(log[..|log| - 1], index)
  }

  /** `ProcessGapImpl(shard, index)`: a missing entry throws
      `LogEntryNotFound` (and the retry policy tries again later). A
      cooperative reader processes the entry (skipping it if already
      processed, without a further gap) and reports true. An exclusive
      reader reports false for an entry some host already processed;
      otherwise it marks the entry processed and processes it in one
      transaction, which a failure of `Process` rolls back. */
  function ProcessGapImpl(mode: Mode, log: seq<Entry>, index: int, failing: set<int>, nextVersion: nat -> nat)
    : (r: (seq<Entry>, Result<bool, ProcessorError>))
    ensures GetEntry(log, index).None? ==> r == (log, Err(LogEntryNotFound))
    ensures mode.Cooperative? ==> r.0 == log
    ensures mode.Cooperative? && GetEntry(log, index).Some? ==> r.1 == Ok(true)
    ensures mode.Exclusive? && GetEntry(log, index).Some? ==>
      var i := GetEntry(log, index).value;
      && (log[i].isProcessed ==> r == (log, Ok(false)))
      && (!log[i].isProcessed && index in failing ==> r == (log, Err(ProcessFailed)))
      && (!log[i].isProcessed && index !in failing ==>
            r.1 == Ok(true) && r.0 == log[i := MarkProcessed(log[i], nextVersion)])
  {
    match GetEntry(log, index)
    case None => (log, Err(LogEntryNotFound))
    case Some(i) =>
      if mode.Cooperative? then (log, Ok(true))
      else if log[i].isProcessed then (log, Ok(false))
      else if index in failing then (log, Err(ProcessFailed))
      else (log[i := MarkProcessed(log[i], nextVersion)], Ok(true))
  }

  lemma IndexesUnique(log: seq<Entry>, i: nat, k: nat)
    requires WellOrdered(log) && i < |log| && k < |log|
    requires log[i].index == log[k].index
    ensures i == k
  {
  }

  /** After an exclusive batch every fetched entry is marked processed, so a
      gap task later started for one of them (because its processing
      failed) finds it processed and does nothing. */
  lemma ExclusiveFailedEntryNotRetried(p: Processor, shard: nat, log: seq<Entry>, now: int, failing: set<int>,
                                       nextVersion: nat -> nat, k: nat)
    requires WellOrdered(log) && p.mode.Exclusive?
    requires k < |log|
    requires var next := TryGetNextIndex(p, shard, log, now).1;
             next.Some? && log[k] in FetchBatch(log, next.value, p.batchSize)
    ensures var r := ProcessBatch(p, shard, log, now, failing, nextVersion);
            ProcessGapImpl(Exclusive, r.log, log[k].index, failing, nextVersion).1 == Ok(false)
  {
    var r := ProcessBatch(p, shard, log, now, failing, nextVersion);
    BatchMarksProcessed(p, shard, log, now, failing, nextVersion);
    assert WellOrdered(r.log);
    var g := GetEntry(r.log, log[k].index);
    assert r.log[k].index == log[k].index;
    var i := g.value;
    IndexesUnique(r.log, i, k);
  }
}

=== FILE: rpc_outbound.dfy ===
/** `RpcOutboundContext`: the state of one outbound RPC call while it is
    being prepared — the method and arguments, the cancellation token taken
    from the arguments, the peer the call goes to, and the optional
    cache-info capture — together with the ambient "current context" and
    the scope that activates a context.

    The call router is a parameter (a pure function of method and
    arguments); the outbound call object is reduced to the peer and method
    it was created for. Object identity of contexts is their `id`.
 */
module RpcOutbound {
  import opened Wrappers
  import opened Arguments

  datatype ConnectionKind = Remote | Loopback | LocalCall

  datatype Peer = Peer(id: nat, connectionKind: ConnectionKind)

  /** A cancellation token; `DefaultToken` is `default(CancellationToken)`. */
  datatype CancellationToken = DefaultToken | Token(source: nat)

  /** An argument slot: a cancellation token or some other value. */
  datatype Arg = TokenArg(token: CancellationToken) | ValueArg(value: int)

  /** The parts of an `RpcMethodDef` the context reads. */
  datatype MethodDef = MethodDef(service: string, name: string, cancellationTokenIndex: int, noWait: bool)

  datatype OutboundCall = OutboundCall(peer: Peer, methodDef: MethodDef)

  datatype CaptureMode = KeyOnly | KeyAndData

  datatype CacheKey = CacheKey(service: string, methodName: string, argumentData: seq<bv8>) | InvalidKey

  /** `RpcCacheInfoCapture`: the mode, the key once captured, and the
      completion source that receives the data, when there is one. */
  datatype CacheInfoCapture = CacheInfoCapture(mode: CaptureMode, key: Option<CacheKey>, dataSource: Option<nat>)

  /** An `RpcMessage` as far as key capture is concerned. */
  datatype Message = Message(arguments: Option<ArgumentList<Arg>>, argumentData: seq<bv8>)

  datatype Context = Context(
    id: nat,
    preSelectedPeer: Option<Peer>,
    methodDef: Option<MethodDef>,
    arguments: Option<ArgumentList<Arg>>,
    cancellationToken: CancellationToken,
    call: Option<OutboundCall>,
    peer: Option<Peer>,
    cacheInfoCapture: Option<CacheInfoCapture>)

  /** A fresh context, as `new RpcOutboundContext()` creates it. */
  function NewContext(id: nat, preSelectedPeer: Option<Peer>, capture: Option<CacheInfoCapture>): (c: Context)
    ensures c.methodDef.None? && c.arguments.None? && c.call.None? && c.peer.None?
  {
    Context(id, preSelectedPeer, None, None, DefaultToken, None, None, capture)
  }

  datatype RpcError =
    | AlreadyInvoked
    | NotInvoked
    | InternalError
    | ArgumentOutOfRange
    | NullReference
    | NoCurrentRpcOutboundContext
    | RpcOutboundContextChanged

  type Router = (MethodDef, ArgumentList<Arg>) -> Peer

  /** `arguments.GetCancellationToken(index)`: the token in that slot; a slot
      holding anything else reads as the default token. */
  function TokenAt(arguments: ArgumentList<Arg>, index: int): (r: Result<CancellationToken, RpcError>)
    ensures r.Err? <==> !(0 <= index < arguments.Length())
    ensures r.Err? ==> r.error == RpcError.ArgumentOutOfRange
  {
    var item: Result<Arg, ArgumentError> := GetItem(arguments, index);
    if item.Err? then Err(RpcError.ArgumentOutOfRange)
    else if item.value.TokenArg? then Ok(item.value.token)
    else Ok(DefaultToken)
  }

  /** The tail shared by `PrepareCall` and `PrepareReroutedCall`: a local-call
      peer short-circuits with no call, any other peer gets a new call. */
  function Dispatch(ctx: Context, peer: Peer, md: MethodDef): (r: (Context, Option<OutboundCall>))
    ensures r.0.peer == Some(peer) && r.0.call == r.1
    ensures r.1.None? <==> peer.connectionKind == LocalCall
    ensures r.1.Some? ==> r.1.value == OutboundCall(peer, md)
    ensures r.0 == ctx.(peer := Some(peer), call := r.1)
  {
    if peer.connectionKind == LocalCall then (ctx.(peer := Some(peer), call := None), None)
    else
      var call := OutboundCall(peer, md);
      (ctx.(peer := Some(peer), call := Some(call)), Some(call))
  }

  /** `PrepareCall(methodDef, arguments)`. The method and arguments are
      stored before the cancellation token is read, so a failing token read
      leaves them set. */
  function PrepareCall(ctx: Context, md: MethodDef, arguments: ArgumentList<Arg>, router: Router)
    : (r: (Context, Result<Option<OutboundCall>, RpcError>))
    ensures ctx.methodDef.Some? ==> r == (ctx, Err(AlreadyInvoked))
    ensures ctx.methodDef.None? ==> r.0.methodDef == Some(md) && r.0.arguments == Some(arguments)
    ensures r.1.Err? && ctx.methodDef.None? ==>
      r.1.error == RpcError.ArgumentOutOfRange && !(md.cancellationTokenIndex < arguments.Length())
  {
    if ctx.methodDef.Some? then (ctx, Err(AlreadyInvoked))
    else
      var ctx1 := ctx.(methodDef := Some(md), arguments := Some(arguments));
      var token :=
        if md.cancellationTokenIndex >= 0 then TokenAt(arguments, md.cancellationTokenIndex)
        else Ok(DefaultToken);
      match token
      case Err(e) => (ctx1, Err(e))
      case Ok(t) =>
        var ctx2 := ctx1.(cancellationToken := t);
        var peer := ctx.preSelectedPeer.GetOr(router(md, arguments));
        var (ctx3, call) := Dispatch(ctx2, peer, md);
        (ctx3, Ok(call))
  }

  /** `PrepareReroutedCall()`: asks the router again for a prepared call. */
  function PrepareReroutedCall(ctx: Context, router: Router): (r: (Context, Result<Option<OutboundCall>, RpcError>))
    ensures (ctx.methodDef.None? || ctx.arguments.None?) ==> r == (ctx, Err(NotInvoked))
    ensures ctx.methodDef.Some? && ctx.arguments.Some? && ctx.preSelectedPeer.Some? ==> r == (ctx, Err(InternalError))
    ensures r.1.Ok? ==> r.0.peer == Some(router(ctx.methodDef.value, ctx.arguments.value))
    ensures ctx.methodDef.Some? && ctx.arguments.Some? && ctx.preSelectedPeer.None? ==>
      && r.1.Ok?
      && r.0.call == r.1.value
      && (r.1.value.None? <==> r.0.peer.value.connectionKind == LocalCall)
      && (r.1.value.Some? ==> r.1.value.value == OutboundCall(r.0.peer.value, ctx.methodDef.value))
      && r.0 == ctx.(peer := r.0.peer, call := r.1.value)
  {
    if ctx.methodDef.None? || ctx.arguments.None? then (ctx, Err(NotInvoked))
    else if ctx.preSelectedPeer.Some? then (ctx, Err(InternalError))
    else
      var (ctx1, call) := Dispatch(ctx, router(ctx.methodDef.value, ctx.arguments.value), ctx.methodDef.value);
      (ctx1, Ok(call))
  }

  /** A context whose method is set also has its arguments set: `PrepareCall`
      stores both together. */
  predicate Prepared(ctx: Context)
  {
    ctx.methodDef.Some? ==> ctx.arguments.Some?
  }

  /** `IsPeerChanged()`: never for a pinned peer; otherwise whether the
      router now picks a different peer. Without a method it dereferences
      null. The C# `Arguments!` is a nullability assertion, not a check:
      the requires encodes the invariant `PrepareCall` establishes (method
      and arguments are set together) before any caller reaches here. */
  function IsPeerChanged(ctx: Context, router: Router): (r: Result<bool, RpcError>)
    requires Prepared(ctx)
    ensures ctx.preSelectedPeer.Some? ==> r == Ok(false)
    ensures ctx.preSelectedPeer.None? && ctx.methodDef.None? ==> r == Err(NullReference)
    ensures ctx.preSelectedPeer.None? && ctx.methodDef.Some? ==>
      r == Ok(ctx.peer != Some(router(ctx.methodDef.value, ctx.arguments.value)))
  {
    if ctx.preSelectedPeer.Some? then Ok(false)
    else if ctx.methodDef.None? then Err(NullReference)
    else Ok(ctx.peer != Some(router(ctx.methodDef.value, ctx.arguments.value)))
  }

  // Properties of preparing a call

  /** A context can be prepared once: whatever the first `PrepareCall`
      returned, a second one throws `AlreadyInvoked` and changes nothing. */
  lemma SecondPrepareFails(ctx: Context, m1: MethodDef, a1: ArgumentList<Arg>, m2: MethodDef, a2: ArgumentList<Arg>, router: Router)
    ensures var c1 := PrepareCall(ctx, m1, a1, router).0;
            PrepareCall(c1, m2, a2, router) == (c1, Err(AlreadyInvoked))
  {
  }

  /** A successful `PrepareCall` takes the token from the slot named by the
      method (or the default token for a negative index), sends the call to
      the pre-selected peer or else to the router's choice, and creates no
      call for a local-call peer. Prepared contexts stay `Prepared`. */
  lemma PrepareCallOutcome(ctx: Context, md: MethodDef, arguments: ArgumentList<Arg>, router: Router)
    requires ctx.methodDef.None?
    ensures var (c, r) := PrepareCall(ctx, md, arguments, router);
            && Prepared(c)
            && (r.Ok? <==> md.cancellationTokenIndex < arguments.Length())
            && (r.Ok? ==> c.peer == Some(ctx.preSelectedPeer.GetOr(router(md, arguments))))
            && (r.Ok? ==> (r.value.None? <==> c.peer.value.connectionKind == LocalCall))
            && (r.Ok? ==> c.call == r.value)
            && (r.Ok? && md.cancellationTokenIndex < 0 ==> c.cancellationToken == DefaultToken)
            && (r.Ok? && md.cancellationTokenIndex >= 0 && arguments.items[md.cancellationTokenIndex].TokenArg? ==>
                  c.cancellationToken == arguments.items[md.cancellationTokenIndex].token)
  {
  }

  /** Right after a successful (re)routing the peer is the router's current
      choice, so the peer has not changed. */
  lemma FreshRouteUnchanged(ctx: Context, router: Router)
    requires Prepared(ctx)
    requires PrepareReroutedCall(ctx, router).1.Ok?
    ensures Prepared(PrepareReroutedCall(ctx, router).0)
    ensures IsPeerChanged(PrepareReroutedCall(ctx, router).0, router) == Ok(false)
  {
  }

  // Cache-info capture

  /** What `MustCaptureCacheKey` decides: whether to capture, and whether
      only the key is wanted. */
  datatype KeyCapture = KeyCapture(context: Context, must: bool, keyOnly: bool)

  /** `MustCaptureCacheKey(message, out keyOnly)`: without a capture there is
      nothing to do; otherwise the key is set once (`??=`) — to the
      (service, method, argument data) triple for a message whose arguments
      are already serialized, and to `Invalid` otherwise. */
  function MustCaptureCacheKey(ctx: Context, message: Option<Message>): (r: Result<KeyCapture, RpcError>)
    ensures ctx.cacheInfoCapture.None? ==> r == Ok(KeyCapture(ctx, false, false))
    ensures r.Ok? && ctx.cacheInfoCapture.Some? ==>
      && r.value.must
      && (r.value.keyOnly <==> ctx.cacheInfoCapture.value.mode == KeyOnly)
      && r.value.context.cacheInfoCapture.Some?
      && r.value.context.cacheInfoCapture.value.key.Some?
      && r.value.context == ctx.(cacheInfoCapture := Some(ctx.cacheInfoCapture.value.(key := r.value.context.cacheInfoCapture.value.key)))
    ensures r.Ok? && ctx.cacheInfoCapture.Some? && ctx.cacheInfoCapture.value.key.Some? ==>
      r.value.context == ctx
    ensures r.Err? <==>
      ctx.cacheInfoCapture.Some? && ctx.cacheInfoCapture.value.key.None?
      && message.Some? && message.value.arguments.None? && ctx.methodDef.None?
  {
    match ctx.cacheInfoCapture
    case None => Ok(KeyCapture(ctx, false, false))
    case Some(capture) =>
      var keyOnly := capture.mode == KeyOnly;
      if capture.key.Some? then Ok(KeyCapture(ctx, true, keyOnly))
      else if message.Some? && message.value.arguments.None? then
        match ctx.methodDef
        case None => Err(NullReference)
        case Some(m) =>
          var key := CacheKey(m.service, m.name, message.value.argumentData);
          Ok(KeyCapture(ctx.(cacheInfoCapture := Some(capture.(key := Some(key)))), true, keyOnly))
      else Ok(KeyCapture(ctx.(cacheInfoCapture := Some(capture.(key := Some(InvalidKey)))), true, keyOnly))
  }

  /** The key is captured once: a second call keeps the key the first call
      set, whatever message it is given, and touches nothing else. */
  lemma CacheKeyCapturedOnce(ctx: Context, m1: Option<Message>, m2: Option<Message>)
    requires ctx.cacheInfoCapture.Some?
    requires MustCaptureCacheKey(ctx, m1).Ok?
    ensures var c1 := MustCaptureCacheKey(ctx, m1).value.context;
            MustCaptureCacheKey(c1, m2) == Ok(KeyCapture(c1, true, ctx.cacheInfoCapture.value.mode == KeyOnly))
  {
  }

  /** The key a first capture stores: the call's identity for a message with
      serialized arguments, `Invalid` for anything else. */
  lemma CapturedKeyValue(ctx: Context, message: Option<Message>)
    requires ctx.cacheInfoCapture.Some? && ctx.cacheInfoCapture.value.key.None?
    requires MustCaptureCacheKey(ctx, message).Ok?
    ensures var k := MustCaptureCacheKey(ctx, message).value.context.cacheInfoCapture.value.key.value;
            if message.Some? && message.value.arguments.None?
            then k == CacheKey(ctx.methodDef.value.service, ctx.methodDef.value.name, message.value.argumentData)
            else k == InvalidKey
  {
  }

  /** `MustCaptureCacheData(out dataSource)`: true exactly when the capture
      has a data source, which is handed out. */
  function MustCaptureCacheData(ctx: Context): (r: (bool, Option<nat>))
    ensures r.0 <==> r.1.Some?
    ensures r.0 <==> ctx.cacheInfoCapture.Some? && ctx.cacheInfoCapture.value.dataSource.Some?
    ensures r.0 ==> r.1 == ctx.cacheInfoCapture.value.dataSource
  {
    var source := if ctx.cacheInfoCapture.Some? then ctx.cacheInfoCapture.value.dataSource else None;
    (source.Some?, source)
  }

  // The current context and its scope

  /** `RpcOutboundContext.GetCurrent()`. */
  function GetCurrent(current: Option<Context>): (r: Result<Context, RpcError>)
    ensures r.Ok? <==> current.Some?
    ensures r.Err? ==> r.error == NoCurrentRpcOutboundContext
    ensures r.Ok? ==> r.value == current.value
  {
    match current
    case Some(c) => Ok(c)
    case None => Err(NoCurrentRpcOutboundContext)
  }

  predicate SameContext(a: Option<Context>, b: Option<Context>)
  {
    (a.None? && b.None?) || (a.Some? && b.Some? && a.value.id == b.value.id)
  }

  /** `RpcOutboundContext.Scope`: the activated context and the one that was
      current before. */
  datatype Scope = Scope(context: Context, oldContext: Option<Context>)

  /** `context.Activate()`: the context becomes current. */
  function Activate(current: Option<Context>, context: Context): (r: (Scope, Option<Context>))
    ensures SameContext(r.1, Some(context))
    ensures r.0.oldContext == current
  {
    var scope := Scope(context, current);
    if !SameContext(Some(context), current) then (scope, Some(context)) else (scope, current)
  }

  /** `Scope.Dispose()`: the context that was current before activation is
      restored; if another context became current meanwhile, the scope
      throws `RpcOutboundContextChanged` and leaves it alone. */
  function DisposeScope(scope: Scope, current: Option<Context>): (r: (Option<Context>, Result<(), RpcError>))
    ensures r.1.Err? <==> !SameContext(Some(scope.context), current)
    ensures r.1.Err? ==> r == (current, Err(RpcOutboundContextChanged))
    ensures r.1.Ok? ==> SameContext(r.0, scope.oldContext)
  {
    if !SameContext(Some(scope.context), current) then (current, Err(RpcOutboundContextChanged))
    else if !SameContext(Some(scope.context), scope.oldContext) then (scope.oldContext, Ok(()))
    else (current, Ok(()))
  }

  /** Activation and disposal nest: disposing a scope right after
      activating it restores the previous current context. */
  lemma ActivateDisposeRestores(current: Option<Context>, context: Context)
    ensures var (scope, inside) := Activate(current, context);
            && GetCurrent(inside).Ok? && GetCurrent(inside).value.id == context.id
            && DisposeScope(scope, inside).1.Ok?
            && SameContext(DisposeScope(scope, inside).0, current)
  {
  }

  /** Disposing an outer scope while an inner, different context is still
      current fails. */
  lemma OutOfOrderDisposeFails(current: Option<Context>, outer: Context, inner: Context)
    requires outer.id != inner.id
    ensures var (outerScope, c1) := Activate(current, outer);
            var (_, c2) := Activate(c1, inner);
            DisposeScope(outerScope, c2) == (c2, Err(RpcOutboundContextChanged))
  {
  }
}

=== FILE: rpc_service_def.dfy ===
/** `RpcServiceDef`: the description of one RPC service, with its name, kind
    flags and the registry of its methods by reflection handle and by name.

    Reflection is given: a type is a `TypeRef`, its public instance methods
    (interface methods for an interface) are a sequence of `MethodInfo`, and
    the hub's method-def builder is a function of the method.
 */
module RpcServiceDefs {
  import opened Wrappers
  import Text

  datatype TypeRef = TypeRef(id: nat, name: string, isSystemService: bool)

  datatype MethodInfo = MethodInfo(id: nat, declaredOnObject: bool, isGenericDefinition: bool)

  datatype MethodDef = MethodDef(info: MethodInfo, name: string, isValid: bool)

  type MethodDefBuilder = MethodInfo -> MethodDef

  /** `RpcServiceBuilder`: what the configuration says about the service; an
      empty name means "use the type's name". `serverResolver` holds the
      resolver's display text, when there is one. */
  datatype ServiceBuilder = ServiceBuilder(name: string, serviceType: TypeRef, serverResolver: Option<string>)

  /** The two method dictionaries; `None` until `BuildMethods` has run. */
  datatype Registry = Registry(byMethod: map<MethodInfo, MethodDef>, byName: map<string, MethodDef>)

  datatype ServiceDef = ServiceDef(
    name: string,
    serviceType: TypeRef,
    serverResolver: Option<string>,
    isSystem: bool,
    isBackend: bool,
    scope: string,
    registry: Option<Registry>,
    toStringCached: Option<string>)
  {
    /** `HasServer`: a server resolver is configured. */
    predicate HasServer() {
      serverResolver.Some?
    }
  }

  datatype ServiceError =
    | ArgumentOutOfRange
    | MethodNameConflict(methodName: string)
    | NoMethod(methodName: string)
    | NoMethodInfo(info: MethodInfo)
    | NullReference

  /** The constructor. The hub's backend detector and scope resolver are
      given as functions. */
  function NewServiceDef(service: ServiceBuilder, isBackendType: TypeRef -> bool, scopeOf: (string, TypeRef) -> string): (r: ServiceDef)
    ensures r.name == (if service.name == [] then service.serviceType.name else service.name)
    ensures r.serviceType == service.serviceType && r.serverResolver == service.serverResolver
    ensures r.HasServer() <==> service.serverResolver.Some?
    ensures r.isSystem == service.serviceType.isSystemService && r.isBackend == isBackendType(service.serviceType)
    ensures r.registry.None? && r.toStringCached.None?
  {
    var name := if service.name == [] then service.serviceType.name else service.name;
    ServiceDef(name, service.serviceType, service.serverResolver,
      service.serviceType.isSystemService, isBackendType(service.serviceType),
      scopeOf(name, service.serviceType), None, None)
  }

  /** A service always has a name when its type has one. */
  lemma NameNeverEmpty(service: ServiceBuilder, isBackendType: TypeRef -> bool, scopeOf: (string, TypeRef) -> string)
    requires service.serviceType.name != []
    ensures NewServiceDef(service, isBackendType, scopeOf).name != []
  {
  }

  // Building the method registry

  /** A method gets registered: it is not declared on `object`, is not a
      generic method definition, and its method def is valid. */
  predicate Registrable(m: MethodInfo, builder: MethodDefBuilder)
  {
    !m.declaredOnObject && !m.isGenericDefinition && builder(m).isValid
  }

  /** Two registrable methods among the first `n` share a name. */
  predicate ConflictBefore(methods: seq<MethodInfo>, builder: MethodDefBuilder, n: nat)
    requires n <= |methods|
  {
    exists a, b :: 0 <= a < b < n && Registrable(methods[a], builder) && Registrable(methods[b], builder)
                   && builder(methods[a]).name == builder(methods[b]).name
  }

  /** A registrable method among the first `n` has the name `name`. */
  predicate NameTakenBefore(methods: seq<MethodInfo>, builder: MethodDefBuilder, n: nat, name: string)
    requires n <= |methods|
  {
    exists a :: 0 <= a < n && Registrable(methods[a], builder) && builder(methods[a]).name == name
  }

  /** One more method brings a conflict exactly when it is registrable and
      its name is taken already. */
  lemma ConflictStep(methods: seq<MethodInfo>, builder: MethodDefBuilder, i: nat)
    requires i < |methods|
    ensures ConflictBefore(methods, builder, i + 1) <==>
      ConflictBefore(methods, builder, i)
      || (Registrable(methods[i], builder) && NameTakenBefore(methods, builder, i, builder(methods[i]).name))
    ensures forall name :: NameTakenBefore(methods, builder, i + 1, name) <==>
      NameTakenBefore(methods, builder, i, name) || (Registrable(methods[i], builder) && builder(methods[i]).name == name)
  {
    if ConflictBefore(methods, builder, i + 1) && !ConflictBefore(methods, builder, i) {
      var a, b :| 0 <= a < b < i + 1 && Registrable(methods[a], builder) && Registrable(methods[b], builder)
                  && builder(methods[a]).name == builder(methods[b]).name;
      assert b == i;
    }
    forall name ensures NameTakenBefore(methods, builder, i + 1, name) <==>
      NameTakenBefore(methods, builder, i, name) || (Registrable(methods[i], builder) && builder(methods[i]).name == name)
    {
      if NameTakenBefore(methods, builder, i + 1, name) && !NameTakenBefore(methods, builder, i, name) {
        var a :| 0 <= a < i + 1 && Registrable(methods[a], builder) && builder(methods[a]).name == name;
        assert a == i;
      }
    }
  }

  /** The names in the registry are exactly those of the registrable
      methods among the first `n`. */
  ghost predicate NamesHeld(reg: Registry, methods: seq<MethodInfo>, builder: MethodDefBuilder, n: nat)
    requires n <= |methods|
  {
    forall name :: name in reg.byName <==> NameTakenBefore(methods, builder, n, name)
  }

  /** Every registrable method among the first `n` is registered under its
      handle and under its name. */
  predicate AllRegistered(reg: Registry, methods: seq<MethodInfo>, builder: MethodDefBuilder, n: nat)
    requires n <= |methods|
  {
    forall a :: 0 <= a < n && Registrable(methods[a], builder) ==>
      && methods[a] in reg.byMethod && reg.byMethod[methods[a]] == builder(methods[a])
      && builder(methods[a]).name in reg.byName && reg.byName[builder(methods[a]).name] == builder(methods[a])
  }

  /** Only registrable methods among the first `n` are registered. */
  predicate OnlyRegistrable(reg: Registry, methods: seq<MethodInfo>, builder: MethodDefBuilder, n: nat)
    requires n <= |methods|
  {
    forall m :: m in reg.byMethod ==> m in methods[..n] && Registrable(m, builder)
  }

  /** The registry holds exactly the registrable methods among the first
      `n`, by handle and by name. */
  ghost predicate HoldsFirst(reg: Registry, methods: seq<MethodInfo>, builder: MethodDefBuilder, n: nat)
    requires n <= |methods|
  {
    NamesHeld(reg, methods, builder, n) && AllRegistered(reg, methods, builder, n) && OnlyRegistrable(reg, methods, builder, n)
  }

  /** The name set after one more method: it grows by the method's name
      exactly when the method is registrable. */
  lemma NamesStep(reg: Registry, next: Registry, methods: seq<MethodInfo>, builder: MethodDefBuilder, i: nat)
    requires i < |methods| && NamesHeld(reg, methods, builder, i)
    requires Registrable(methods[i], builder) ==> next.byName.Keys == reg.byName.Keys + {builder(methods[i]).name}
    requires !Registrable(methods[i], builder) ==> next.byName.Keys == reg.byName.Keys
    ensures NamesHeld(next, methods, builder, i + 1)
  {
    ConflictStep(methods, builder, i);
  }

  /** Handles registered after one more method: the old ones, plus the
      method itself when it is registrable. */
  lemma OnlyStep(reg: Registry, next: Registry, methods: seq<MethodInfo>, builder: MethodDefBuilder, i: nat)
    requires i < |methods| && OnlyRegistrable(reg, methods, builder, i)
    requires Registrable(methods[i], builder) ==> next.byMethod.Keys == reg.byMethod.Keys + {methods[i]}
    requires !Registrable(methods[i], builder) ==> next.byMethod.Keys == reg.byMethod.Keys
    ensures OnlyRegistrable(next, methods, builder, i + 1)
  {
    forall x | x in next.byMethod ensures x in methods[..i + 1] && Registrable(x, builder) {
      if x in reg.byMethod {
        var a :| 0 <= a < i && methods[..i][a] == x;
        assert methods[..i + 1][a] == x;
      } else {
        assert methods[..i + 1][i] == x;
      }
    }
  }

  /** Every registrable method so far stays registered, and the new one is
      added when its name is fresh. */
  lemma AllStep(reg: Registry, methods: seq<MethodInfo>, builder: MethodDefBuilder, i: nat)
    requires i < |methods| && AllRegistered(reg, methods, builder, i)
    requires Registrable(methods[i], builder) && builder(methods[i]).name !in reg.byName
    ensures AllRegistered(Registry(reg.byMethod[methods[i] := builder(methods[i])], reg.byName[builder(methods[i]).name := builder(methods[i])]),
                          methods, builder, i + 1)
  {
    var m := methods[i];
    var md := builder(m);
    var next := Registry(reg.byMethod[m := md], reg.byName[md.name := md]);
    forall a | 0 <= a < i + 1 && Registrable(methods[a], builder)
      ensures && methods[a] in next.byMethod && next.byMethod[methods[a]] == builder(methods[a])
              && builder(methods[a]).name in next.byName && next.byName[builder(methods[a]).name] == builder(methods[a])
    {
      if a < i {
        assert builder(methods[a]).name in reg.byName;
      }
    }
  }

  /** A method that is not registrable leaves the registry as it is. */
  lemma SkipStep(reg: Registry, methods: seq<MethodInfo>, builder: MethodDefBuilder, i: nat)
    requires i < |methods| && HoldsFirst(reg, methods, builder, i)
    requires !Registrable(methods[i], builder)
    ensures HoldsFirst(reg, methods, builder, i + 1)
  {
    NamesStep(reg, reg, methods, builder, i);
    OnlyStep(reg, reg, methods, builder, i);
    assert AllRegistered(reg, methods, builder, i + 1) by {
      forall a | 0 <= a < i + 1 && Registrable(methods[a], builder)
        ensures methods[a] in reg.byMethod
      {
        assert a < i;
      }
    }
  }

  /** A registrable method with a fresh name is added under its handle and
      its name. */
  lemma AddStep(reg: Registry, methods: seq<MethodInfo>, builder: MethodDefBuilder, i: nat)
    requires i < |methods| && HoldsFirst(reg, methods, builder, i)
    requires Registrable(methods[i], builder) && builder(methods[i]).name !in reg.byName
    ensures HoldsFirst(Registry(reg.byMethod[methods[i] := builder(methods[i])], reg.byName[builder(methods[i]).name := builder(methods[i])]),
                       methods, builder, i + 1)
  {
    var m := methods[i];
    var md := builder(m);
    var next := Registry(reg.byMethod[m := md], reg.byName[md.name := md]);
    NamesStep(reg, next, methods, builder, i);
    OnlyStep(reg, next, methods, builder, i);
    AllStep(reg, methods, builder, i);
  }

  /** A registrable method whose name is taken brings a conflict. */
  lemma ConflictingStep(reg: Registry, methods: seq<MethodInfo>, builder: MethodDefBuilder, i: nat)
    requires i < |methods| && HoldsFirst(reg, methods, builder, i)
    requires Registrable(methods[i], builder) && builder(methods[i]).name in reg.byName
    ensures ConflictBefore(methods, builder, i + 1)
  {
    ConflictStep(methods, builder, i);
  }

  /** `BuildMethods(serviceType)`: registers every registrable method by
      handle and by name, in reflection order. The dictionaries are
      installed before the loop, so when a name is already taken the
      exception leaves the def holding the methods registered up to that
      point: the result is the def as it stands, and the error if any. */
  method BuildMethods(def: ServiceDef, serviceType: TypeRef, methods: seq<MethodInfo>, builder: MethodDefBuilder)
    returns (r: ServiceDef, error: Option<ServiceError>)
    ensures serviceType != def.serviceType ==> r == def && error == Some(ArgumentOutOfRange)
    ensures serviceType == def.serviceType ==> (error.Some? <==> ConflictBefore(methods, builder, |methods|))
    ensures serviceType == def.serviceType ==> r == def.(registry := r.registry) && r.registry.Some?
    ensures serviceType == def.serviceType && error.None? ==> HoldsFirst(r.registry.value, methods, builder, |methods|)
    ensures serviceType == def.serviceType && error.Some? ==>
      exists c :: 0 <= c < |methods|
        && !ConflictBefore(methods, builder, c) && ConflictBefore(methods, builder, c + 1)
        && error == Some(MethodNameConflict(builder(methods[c]).name))
        && HoldsFirst(r.registry.value, methods, builder, c)
  {
    if serviceType != def.serviceType {
      return def, Some(ArgumentOutOfRange);
    }
    var byMethod: map<MethodInfo, MethodDef> := map[];
    var byName: map<string, MethodDef> := map[];
    var i := 0;
    while i < |methods|
      invariant 0 <= i <= |methods|
      invariant !ConflictBefore(methods, builder, i)
      invariant HoldsFirst(Registry(byMethod, byName), methods, builder, i)
    {
      var m := methods[i];
      ConflictStep(methods, builder, i);
      if !m.declaredOnObject && !m.isGenericDefinition && builder(m).isValid {
        var md := builder(m);
        if md.name in byName {
          ConflictingStep(Registry(byMethod, byName), methods, builder, i);
          return def.(registry := Some(Registry(byMethod, byName))), Some(MethodNameConflict(md.name));
        }
        AddStep(Registry(byMethod, byName), methods, builder, i);
        byName := byName[md.name := md];
        byMethod := byMethod[m := md];
      } else {
        SkipStep(Registry(byMethod, byName), methods, builder, i);
      }
      i := i + 1;
    }
    assert methods[..i] == methods;
    r, error := def.(registry := Some(Registry(byMethod, byName))), None;
  }

  // Lookups

  /** `Get(method)`; the dictionaries are null before `BuildMethods`. */
  function GetByMethod(def: ServiceDef, m: MethodInfo): (r: Result<Option<MethodDef>, ServiceError>)
    ensures def.registry.None? <==> r == Err(NullReference)
    ensures r.Ok? ==> (r.value.Some? <==> m in def.registry.value.byMethod)
    ensures r.Ok? && r.value.Some? ==> r.value.value == def.registry.value.byMethod[m]
  {
    match def.registry
    case None => Err(NullReference)
    case Some(reg) => Ok(if m in reg.byMethod then Some(reg.byMethod[m]) else None)
  }

  /** `Get(methodName)`. */
  function GetByName(def: ServiceDef, methodName: string): (r: Result<Option<MethodDef>, ServiceError>)
    ensures def.registry.None? <==> r == Err(NullReference)
    ensures r.Ok? ==> (r.value.Some? <==> methodName in def.registry.value.byName)
    ensures r.Ok? && r.value.Some? ==> r.value.value == def.registry.value.byName[methodName]
  {
    match def.registry
    case None => Err(NullReference)
    case Some(reg) => Ok(if methodName in reg.byName then Some(reg.byName[methodName]) else None)
  }

  /** The indexer `this[methodName]`: `Get`, or `NoMethod` when it finds none. */
  function Item(def: ServiceDef, methodName: string): (r: Result<MethodDef, ServiceError>)
    ensures def.registry.None? ==> r == Err(NullReference)
    ensures def.registry.Some? ==> (r.Err? <==> methodName !in def.registry.value.byName)
    ensures r.Err? && def.registry.Some? ==> r.error == NoMethod(methodName)
  {
    match GetByName(def, methodName)
    case Err(e) => Err(e)
    case Ok(None) => Err(NoMethod(methodName))
    case Ok(Some(md)) => Ok(md)
  }

  /** The indexer `this[method]`. */
  function ItemByMethod(def: ServiceDef, m: MethodInfo): (r: Result<MethodDef, ServiceError>)
    ensures def.registry.None? ==> r == Err(NullReference)
    ensures def.registry.Some? ==> (r.Err? <==> m !in def.registry.value.byMethod)
    ensures r.Err? && def.registry.Some? ==> r.error == NoMethodInfo(m)
  {
    match GetByMethod(def, m)
    case Err(e) => Err(e)
    case Ok(None) => Err(NoMethodInfo(m))
    case Ok(Some(md)) => Ok(md)
  }

  /** After a successful build, every method is found by name under the name
      its def carries, and the indexer agrees with `Get`. */
  lemma LookupAgrees(def: ServiceDef, methodName: string)
    requires def.registry.Some?
    ensures Item(def, methodName).Err? <==> GetByName(def, methodName) == Ok(None)
    ensures Item(def, methodName).Ok? ==> GetByName(def, methodName) == Ok(Some(Item(def, methodName).value))
  {
  }

  // ToString

  /** The kind suffix for (`IsSystem`, `IsBackend`). */
  function KindSuffix(isSystem: bool, isBackend: bool): string
  {
    if isSystem && isBackend then " [System,Backend]"
    else if isSystem then " [System]"
    else if isBackend then " [Backend]"
    else ""
  }

  /** Reads the kind flags back from a suffix. */
  function KindOfSuffix(suffix: string): (r: Option<(bool, bool)>)
  {
    if suffix == " [System,Backend]" then Some((true, true))
    else if suffix == " [System]" then Some((true, false))
    else if suffix == " [Backend]" then Some((false, true))
    else if suffix == "" then Some((false, false))
    else None
  }

  /** The suffix tells the two flags apart: the four combinations get four
      different suffixes. */
  lemma KindSuffixRoundTrip(isSystem: bool, isBackend: bool)
    ensures KindOfSuffix(KindSuffix(isSystem, isBackend)) == Some((isSystem, isBackend))
  {
  }

  /** The head of the text: the quoted name and the kind suffix. */
  function Heading(def: ServiceDef): string
  {
    "'" + def.name + "'" + KindSuffix(def.isSystem, def.isBackend)
  }

  /** The text `'{Name}'{kind}: {type}{server}, {count} method(s)`. */
  function Describe(def: ServiceDef, reg: Registry): (r: string)
    ensures |r| > |Heading(def)| + 10
    ensures r[..|Heading(def)|] == Heading(def)
    ensures r[|r| - 10..] == " method(s)"
  {
    var serverInfo := if def.HasServer() then " -> " + def.serverResolver.value else "";
    var body := ": " + def.serviceType.name + serverInfo + ", " + Text.NatToString(|reg.byName|);
    var text := Heading(def) + (body + " method(s)");
    assert text[..|Heading(def)|] == Heading(def);
    assert text[|text| - 10..] == " method(s)";
    text
  }

  /** `ToString()`: the cached text if there is one; otherwise the text is
      computed and cached. `Methods.Count` throws before `BuildMethods`. */
  function ToString(def: ServiceDef): (r: (ServiceDef, Result<string, ServiceError>))
    ensures def.toStringCached.Some? ==> r == (def, Ok(def.toStringCached.value))
    ensures def.toStringCached.None? && def.registry.None? ==> r == (def, Err(NullReference))
    ensures def.toStringCached.None? && def.registry.Some? ==> r.1 == Ok(Describe(def, def.registry.value))
    ensures r.1.Ok? ==> r.0 == def.(toStringCached := Some(r.1.value))
  {
    match def.toStringCached
    case Some(text) => (def, Ok(text))
    case None =>
      match def.registry
      case None => (def, Err(NullReference))
      case Some(reg) =>
        var text := Describe(def, reg);
        (def.(toStringCached := Some(text)), Ok(text))
  }

  /** Once computed, `ToString` keeps answering the same text, even if the
      registry changes afterwards. */
  lemma ToStringCached(def: ServiceDef, later: Option<Registry>)
    requires ToString(def).1.Ok?
    ensures var (d1, s1) := ToString(def);
            ToString(d1.(registry := later)).1 == s1
  {
  }
}

=== FILE: text.dfy ===
/** Text helpers used by the formatting and parsing members of the model:
    first-occurrence search, joining with a separator, splitting at a
    separator character, and decimal rendering and parsing of naturals.
 */
module Text {
  import opened Wrappers

  /** Index of the first occurrence of `c` in `s` (`string.IndexOf(char)`). */
  function IndexOf(s: string, c: char): (r: Option<nat>)
    ensures r.None? <==> c !in s
    ensures r.Some? ==> r.value < |s| && s[r.value] == c && c !in s[..r.value]
  {
    if |s| == 0 then None
    else if s[0] == c then Some(0)
    else
      match IndexOf(s[1..], c)
      case None => None
      case Some(i) =>
        assert s[..i + 1] == [s[0]] + s[1..][..i];
        Some(i + 1)
  }

  /** Items separated by `sep`; no separator after the last one. */
  function Join(sep: string, items: seq<string>): string
  {
    if |items| == 0 then ""
    else if |items| == 1 then items[0]
    else items[0] + sep + Join(sep, items[1..])
  }

  /** The pieces of `s` between occurrences of `sep`; always at least one. */
  function Split(s: string, sep: char): (parts: seq<string>)
    ensures |parts| >= 1
    decreases |s|
  {
    match IndexOf(s, sep)
    case None => [s]
    case Some(i) => [s[..i]] + Split(s[i + 1..], sep)
  }

  /** True when no item contains the character `c`. */
  predicate NoneContains(items: seq<string>, c: char)
  {
    forall i :: 0 <= i < |items| ==> c !in items[i]
  }

  lemma IndexOfAfterPrefix(a: string, c: char, b: string)
    requires c !in a
    ensures IndexOf(a + [c] + b, c) == Some(|a|)
  {
    var s := a + [c] + b;
    var r := IndexOf(s, c);
    assert s[|a|] == c;
    assert s[..|a|] == a;
    assert forall j :: |a| < j <= |s| ==> s[..j][|a|] == c;
  }

  /** Splitting what `Join` produced gives back the items, provided no item
      contains the separator. */
  lemma {:induction false} SplitJoin(items: seq<string>, c: char)
    requires |items| >= 1
    requires NoneContains(items, c)
    ensures Split(Join([c], items), c) == items
  {
    if |items| == 1 {
      assert c !in items[0];
    } else {
      var rest := items[1..];
      assert NoneContains(rest, c) by {
        forall i | 0 <= i < |rest| ensures c !in rest[i] {
          assert rest[i] == items[i + 1];
        }
      }
      SplitJoin(rest, c);
      var s := Join([c], items);
      assert s == items[0] + [c] + Join([c], rest);
      IndexOfAfterPrefix(items[0], c, Join([c], rest));
      var i := |items[0]|;
      assert s[..i] == items[0];
      assert s[i + 1..] == Join([c], rest);
    }
  }

  /** A character that is not in any item stays out of their join when it is
      also not in the separator. */
  lemma {:induction false} JoinExcludes(sep: string, items: seq<string>, c: char)
    requires c !in sep
    requires NoneContains(items, c)
    ensures c !in Join(sep, items)
  {
    if |items| > 1 {
      assert NoneContains(items[1..], c) by {
        forall i | 0 <= i < |items[1..]| ensures c !in items[1..][i] {
          assert items[1..][i] == items[i + 1];
        }
      }
      JoinExcludes(sep, items[1..], c);
    }
  }

  // Decimal digits

  predicate IsDigit(c: char)
  {
    '0' <= c <= '9'
  }

  predicate AllDigits(s: string)
  {
    forall i :: 0 <= i < |s| ==> IsDigit(s[i])
  }

  function DigitChar(d: nat): (c: char)
    requires d < 10
    ensures IsDigit(c)
  {
    ('0' as int + d) as char
  }

  function DigitValue(c: char): (d: nat)
    requires IsDigit(c)
    ensures d < 10
  {
    (c as int - '0' as int)
  }

  /** Decimal rendering of `n` without sign or leading zeros. */
  function NatToString(n: nat): (s: string)
    ensures |s| >= 1
    ensures AllDigits(s)
  {
    if n < 10 then [DigitChar(n)]
    else NatToString(n / 10) + [DigitChar(n % 10)]
  }

  /** Decimal value of a non-empty digit string (leading zeros allowed). */
  function DigitsValue(s: string): nat
    requires |s| >= 1 && AllDigits(s)
  {
    if |s| == 1 then DigitValue(s[0])
    else DigitsValue(s[..|s| - 1]) * 10 + DigitValue(s[|s| - 1])
  }

  /** Parses a non-empty string of decimal digits; anything else fails. */
  function ParseNat(s: string): (r: Option<nat>)
    ensures r.Some? <==> |s| >= 1 && AllDigits(s)
  {
    if |s| >= 1 && AllDigits(s) then Some(DigitsValue(s)) else None
  }

  /** Parsing the decimal rendering of `n` gives back `n`. */
  lemma {:induction false} ParseNatToString(n: nat)
    ensures ParseNat(NatToString(n)) == Some(n)
  {
    var s := NatToString(n);
    if n >= 10 {
      ParseNatToString(n / 10);
      assert s[..|s| - 1] == NatToString(n / 10);
    }
  }
}

=== FILE: timer_set.dfy ===
/** `ConcurrentTimerSet<T>` as a sequential abstract data type: each item is
    mapped to the moment it is due, and a tick at moment `now` fires and
    removes every item whose due moment has come. Moments are integer ticks.

    The driver `Run` ticks at `start`, `start + resolution`, … and records
    when each item fired, as the fire callback of the test does.
 */
module TimerSets {

  datatype TimerSet<T> = TimerSet(due: map<T, int>)
  {
    /** `Count`: the number of pending timers. */
    function Count(): nat {
      |due|
    }
  }

  function Empty<T>(): (r: TimerSet<T>)
    ensures r.Count() == 0
  {
    TimerSet(map[])
  }

  /** `AddOrUpdate(item, dueAt)`: the item is (re)scheduled unconditionally. */
  function AddOrUpdate<T(!new)>(ts: TimerSet<T>, item: T, dueAt: int): (r: TimerSet<T>)
    ensures item in r.due && r.due[item] == dueAt
    ensures forall x :: x != item ==> (x in r.due <==> x in ts.due)
    ensures forall x :: x != item && x in ts.due ==> r.due[x] == ts.due[x]
  {
    TimerSet(ts.due[item := dueAt])
  }

  /** `AddOrUpdateToEarlier(item, dueAt)`: schedules the item unless it is
      already due no later than `dueAt`; true when the schedule changed. */
  function AddOrUpdateToEarlier<T(!new)>(ts: TimerSet<T>, item: T, dueAt: int): (r: (TimerSet<T>, bool))
    ensures r.1 <==> r.0 != ts
    ensures r.1 <==> item !in ts.due || dueAt < ts.due[item]
    ensures item in r.0.due && r.0.due[item] <= dueAt
    ensures item in ts.due ==> r.0.due[item] <= ts.due[item]
    ensures forall x :: x != item ==> (x in r.0.due <==> x in ts.due)
    ensures forall x :: x != item && x in ts.due ==> r.0.due[x] == ts.due[x]
  {
    if item in ts.due && ts.due[item] <= dueAt then (ts, false)
    else (AddOrUpdate(ts, item, dueAt), true)
  }

  /** `AddOrUpdateToLater(item, dueAt)`: schedules the item unless it is
      already due no earlier than `dueAt`; true when the schedule changed. */
  function AddOrUpdateToLater<T(!new)>(ts: TimerSet<T>, item: T, dueAt: int): (r: (TimerSet<T>, bool))
    ensures r.1 <==> r.0 != ts
    ensures r.1 <==> item !in ts.due || dueAt > ts.due[item]
    ensures item in r.0.due && r.0.due[item] >= dueAt
    ensures item in ts.due ==> r.0.due[item] >= ts.due[item]
    ensures forall x :: x != item ==> (x in r.0.due <==> x in ts.due)
    ensures forall x :: x != item && x in ts.due ==> r.0.due[x] == ts.due[x]
  {
    if item in ts.due && ts.due[item] >= dueAt then (ts, false)
    else (AddOrUpdate(ts, item, dueAt), true)
  }

  /** `Remove(item)`: true when the item was pending. */
  function Remove<T(!new)>(ts: TimerSet<T>, item: T): (r: (TimerSet<T>, bool))
    ensures item !in r.0.due
    ensures r.1 <==> item in ts.due
    ensures forall x :: x != item ==> (x in r.0.due <==> x in ts.due)
    ensures forall x :: x != item && x in ts.due ==> r.0.due[x] == ts.due[x]
  {
    (TimerSet(ts.due - {item}), item in ts.due)
  }

  /** One tick at moment `now`: the items that fire, and the timers that
      remain. */
  function Tick<T(!new)>(ts: TimerSet<T>, now: int): (r: (TimerSet<T>, set<T>))
    ensures forall x :: x in r.1 <==> x in ts.due && ts.due[x] <= now
    ensures forall x :: x in r.0.due <==> x in ts.due && ts.due[x] > now
    ensures forall x :: x in r.0.due ==> r.0.due[x] == ts.due[x]
  {
    var fired := set x | x in ts.due && ts.due[x] <= now;
    (TimerSet(map x | x in ts.due && ts.due[x] > now :: ts.due[x]), fired)
  }

  /** The earlier/later updates move the deadline in one direction only: the
      boolean says whether it moved, and a refused update leaves the set as
      it was. An absent item is always added. */
  lemma EarlierLaterRules<T(!new)>(ts: TimerSet<T>, item: T, dueAt: int)
    ensures var (r, changed) := AddOrUpdateToEarlier(ts, item, dueAt);
            && (changed <==> item !in ts.due || dueAt < ts.due[item])
            && (changed ==> r.due == ts.due[item := dueAt])
            && (!changed ==> r == ts && r.due[item] <= dueAt)
    ensures var (r, changed) := AddOrUpdateToLater(ts, item, dueAt);
            && (changed <==> item !in ts.due || dueAt > ts.due[item])
            && (changed ==> r.due == ts.due[item := dueAt])
            && (!changed ==> r == ts && r.due[item] >= dueAt)
  {
  }

  /** After either conditional update the item is due at the earlier
      (respectively later) of the two moments. */
  lemma EarlierLaterBounds<T(!new)>(ts: TimerSet<T>, item: T, dueAt: int)
    requires item in ts.due
    ensures AddOrUpdateToEarlier(ts, item, dueAt).0.due[item] == if dueAt < ts.due[item] then dueAt else ts.due[item]
    ensures AddOrUpdateToLater(ts, item, dueAt).0.due[item] == if dueAt > ts.due[item] then dueAt else ts.due[item]
  {
  }

  // Driving the set with a tick source

  /** Ticks at `start`, `start + resolution`, … (`ticks` of them) and records
      the moment each item fired. */
  method Run<T(!new)>(ts: TimerSet<T>, start: int, resolution: nat, ticks: nat) returns (rest: TimerSet<T>, firedAt: map<T, int>)
    requires resolution > 0
    ensures forall x :: x in firedAt ==> x in ts.due && ts.due[x] <= firedAt[x]
    ensures forall x :: x in firedAt ==> firedAt[x] == start || firedAt[x] < ts.due[x] + resolution
    ensures forall x :: x in ts.due ==> (x in firedAt <==> x !in rest.due)
    ensures forall x :: x in rest.due ==> x in ts.due && rest.due[x] == ts.due[x]
    ensures forall x :: x in rest.due ==> ticks == 0 || ts.due[x] > start + (ticks - 1) * resolution
  {
    rest := ts;
    firedAt := map[];
    var k := 0;
    while k < ticks
      invariant 0 <= k <= ticks
      invariant forall x :: x in firedAt ==> x in ts.due && ts.due[x] <= firedAt[x]
      invariant forall x :: x in firedAt ==> firedAt[x] == start || firedAt[x] < ts.due[x] + resolution
      invariant forall x :: x in ts.due ==> (x in firedAt <==> x !in rest.due)
      invariant forall x :: x in rest.due ==> x in ts.due && rest.due[x] == ts.due[x]
      invariant forall x :: x in rest.due ==> k == 0 || ts.due[x] > start + (k - 1) * resolution
    {
      var now := start + k * resolution;
      var (next, fired) := Tick(rest, now);
      firedAt := map x | x in firedAt.Keys + fired :: if x in fired then now else firedAt[x];
      rest := next;
      k := k + 1;
    }
  }

  /** Once the last tick is at or after every due moment, every timer has
      fired and the set is empty (`Count` is 0); each fired no earlier than
      its due moment and less than one resolution after it. */
  method RunUntilAllDue<T(!new)>(ts: TimerSet<T>, start: int, resolution: nat, ticks: nat) returns (rest: TimerSet<T>, firedAt: map<T, int>)
    requires resolution > 0 && ticks > 0
    requires forall x :: x in ts.due ==> ts.due[x] <= start + (ticks - 1) * resolution
    ensures rest.Count() == 0
    ensures forall x :: x in ts.due <==> x in firedAt
    ensures forall x :: x in firedAt ==> ts.due[x] <= firedAt[x] && (firedAt[x] == start || firedAt[x] < ts.due[x] + resolution)
  {
    rest, firedAt := Run(ts, start, resolution, ticks);
    assert rest.due.Keys == {};
  }

  /** A removed timer never fires: it is absent from the set, and ticks only
      fire pending timers. */
  lemma RemovedNeverFires<T(!new)>(ts: TimerSet<T>, item: T, now: int)
    requires item !in ts.due
    ensures item !in Tick(ts, now).1
    ensures item !in Tick(ts, now).0.due
  {
  }

  /** A freshly added timer does not fire on a tick before its due moment,
      and fires on the first tick at or after it. */
  lemma FiresWhenDue<T(!new)>(ts: TimerSet<T>, item: T, dueAt: int, now: int)
    ensures item in Tick(AddOrUpdate(ts, item, dueAt), now).1 <==> dueAt <= now
  {
  }
}

=== FILE: todos.dfy ===
/** The sample todo service `SimpleTodos`: an immutable list of todos that
    commands replace wholesale. Command handlers do nothing while an
    invalidation pass re-runs them; id generation is a given fresh id.
 */
module Todos {
  import opened Wrappers

  datatype Todo = Todo(id: string, title: string, isDone: bool)

  type Store = seq<Todo>

  datatype TodoError = MoreThanOneMatch

  datatype Summary = Summary(count: nat, doneCount: nat)

  /** No two todos share an id. */
  predicate UniqueIds(store: Store)
  {
    forall i, j :: 0 <= i < j < |store| ==> store[i].id != store[j].id
  }

  /** The number of todos with the id. */
  function CountId(store: Store, id: string): nat
  {
    if |store| == 0 then 0
    else (if store[0].id == id then 1 else 0) + CountId(store[1..], id)
  }

  /** `RemoveAll(i => i.Id == id)`: drops every todo with the id and keeps
      the others in order. */
  function RemoveAll(store: Store, id: string): (r: Store)
    ensures forall t :: t in r <==> t in store && t.id != id
    ensures CountId(r, id) == 0
    ensures |r| <= |store|
  {
    if |store| == 0 then []
    else
      var rest := RemoveAll(store[1..], id);
      assert forall t :: t in store <==> t == store[0] || t in store[1..];
      if store[0].id == id then rest else [store[0]] + rest
  }

  /** Ids that were unique stay unique after a removal. */
  lemma {:induction false} RemoveAllUnique(store: Store, id: string)
    requires UniqueIds(store)
    ensures UniqueIds(RemoveAll(store, id))
  {
    if |store| > 0 {
      assert UniqueIds(store[1..]) by {
        forall i, j | 0 <= i < j < |store[1..]| ensures store[1..][i].id != store[1..][j].id {
          assert store[1..][i] == store[i + 1] && store[1..][j] == store[j + 1];
        }
      }
      RemoveAllUnique(store[1..], id);
      var rest := RemoveAll(store[1..], id);
      if store[0].id != id {
        forall j | 0 <= j < |rest| ensures rest[j].id != store[0].id {
          assert rest[j] in store[1..];
          var k :| 0 <= k < |store[1..]| && store[1..][k] == rest[j];
          assert store[k + 1] == rest[j];
        }
        var r := [store[0]] + rest;
        forall i, j | 0 <= i < j < |r| ensures r[i].id != r[j].id {
          if i > 0 {
            assert r[i] == rest[i - 1] && r[j] == rest[j - 1];
          }
        }
      }
    }
  }

  /** With unique ids, at most one todo has a given id. */
  lemma {:induction false} UniqueCount(store: Store, id: string)
    requires UniqueIds(store)
    ensures CountId(store, id) <= 1
    ensures CountId(store, id) == 1 <==> exists t :: t in store && t.id == id
  {
    if |store| > 0 {
      assert UniqueIds(store[1..]) by {
        forall i, j | 0 <= i < j < |store[1..]| ensures store[1..][i].id != store[1..][j].id {
          assert store[1..][i] == store[i + 1] && store[1..][j] == store[j + 1];
        }
      }
      UniqueCount(store[1..], id);
      assert forall t :: t in store <==> t == store[0] || t in store[1..];
      if store[0].id == id {
        forall t | t in store[1..] ensures t.id != id {
          var k :| 0 <= k < |store[1..]| && store[1..][k] == t;
          assert store[k + 1] == t;
        }
      }
    }
  }

  lemma {:induction false} CountAppend(a: Store, b: Store, id: string)
    ensures CountId(a + b, id) == CountId(a, id) + CountId(b, id)
  {
    if |a| > 0 {
      assert (a + b)[1..] == a[1..] + b;
      assert (a + b)[0] == a[0];
      CountAppend(a[1..], b, id);
    } else {
      assert a + b == b;
    }
  }

  /** `AddOrUpdate(command)`: nothing happens while invalidating (the result
      is null); otherwise an empty id is replaced by the fresh one, every
      todo with that id is removed, and the todo is appended. */
  function AddOrUpdate(store: Store, invalidating: bool, todo: Todo, freshId: string): (r: (Store, Option<Todo>))
    requires freshId != []
    ensures invalidating ==> r == (store, None)
    ensures !invalidating ==>
              && r.1.Some? && r.1.value.id != []
              && r.1.value == todo.(id := if todo.id == [] then freshId else todo.id)
    ensures !invalidating ==> CountId(r.0, r.1.value.id) == 1 && r.1.value in r.0
    ensures !invalidating ==> forall t: Todo :: t.id != r.1.value.id ==> (t in r.0 <==> t in store)
  {
    if invalidating then (store, None)
    else
      var saved := if todo.id == [] then todo.(id := freshId) else todo;
      var rest := RemoveAll(store, saved.id);
      CountAppend(rest, [saved], saved.id);
      (rest + [saved], Some(saved))
  }

  /** `Remove(command)`: nothing happens while invalidating; otherwise every
      todo with the id goes and every other one stays, in order. */
  function Remove(store: Store, invalidating: bool, id: string): (r: Store)
    ensures invalidating ==> r == store
    ensures !invalidating ==> CountId(r, id) == 0 && forall t: Todo :: t.id != id ==> (t in r <==> t in store)
  {
    if invalidating then store else RemoveAll(store, id)
  }

  /** `Get(id)`: `SingleOrDefault`, which throws when more than one todo
      matches. */
  function Get(store: Store, id: string): (r: Result<Option<Todo>, TodoError>)
    ensures r.Err? <==> CountId(store, id) > 1
    ensures r.Ok? && r.value.Some? ==> r.value.value in store && r.value.value.id == id
    ensures r == Ok(None) <==> CountId(store, id) == 0
  {
    if |store| == 0 then Ok(None)
    else
      var rest := Get(store[1..], id);
      if store[0].id != id then rest
      else if rest == Ok(None) then Ok(Some(store[0]))
      else Err(MoreThanOneMatch)
  }

  /** The commands keep ids unique, so `Get` never throws and finds the todo
      that was saved last. */
  lemma {:induction false} AddOrUpdateKeepsIdsUnique(store: Store, todo: Todo, freshId: string)
    requires UniqueIds(store) && freshId != []
    ensures var (s, saved) := AddOrUpdate(store, false, todo, freshId);
            UniqueIds(s) && Get(s, saved.value.id) == Ok(saved)
  {
    var (s, saved) := AddOrUpdate(store, false, todo, freshId);
    var rest := RemoveAll(store, saved.value.id);
    RemoveAllUnique(store, saved.value.id);
    assert s == rest + [saved.value];
    forall i, j | 0 <= i < j < |s| ensures s[i].id != s[j].id {
      if j == |s| - 1 {
        assert s[i] == rest[i] && s[i] in rest;
      } else {
        assert s[i] == rest[i] && s[j] == rest[j];
      }
    }
    var g := Get(s, saved.value.id);
    assert g.Ok? && g.value.Some?;
    UniqueCount(s, saved.value.id);
    forall k | 0 <= k < |s| - 1 ensures s[k].id != saved.value.id {
      assert s[k] == rest[k] && rest[k] in rest;
    }
    var k :| 0 <= k < |s| && s[k] == g.value.value;
    assert k == |s| - 1;
  }

  lemma {:induction false} RemoveKeepsIdsUnique(store: Store, id: string)
    requires UniqueIds(store)
    ensures UniqueIds(Remove(store, false, id)) && Get(Remove(store, false, id), id) == Ok(None)
  {
    RemoveAllUnique(store, id);
  }

  /** The number of done todos. */
  function CountDone(store: Store): (r: nat)
    ensures r <= |store|
  {
    if |store| == 0 then 0
    else (if store[0].isDone then 1 else 0) + CountDone(store[1..])
  }

  /** `GetSummary()`: the number of todos and of done ones. */
  function GetSummary(store: Store): (r: Summary)
    ensures r.doneCount <= r.count == |store|
  {
    Summary(|store|, CountDone(store))
  }

  lemma {:induction false} CountDoneAppend(a: Store, b: Store)
    ensures CountDone(a + b) == CountDone(a) + CountDone(b)
  {
    if |a| > 0 {
      assert (a + b)[1..] == a[1..] + b;
      assert (a + b)[0] == a[0];
      CountDoneAppend(a[1..], b);
    } else {
      assert a + b == b;
    }
  }

  /** Adding a todo with a new id grows the count by one, and the done count
      by one exactly when the todo is done. */
  lemma {:induction false} SummaryAfterAdd(store: Store, todo: Todo, freshId: string)
    requires freshId != [] && todo.id != []
    requires CountId(store, todo.id) == 0
    ensures var s := AddOrUpdate(store, false, todo, freshId).0;
            GetSummary(s).count == GetSummary(store).count + 1
            && GetSummary(s).doneCount == GetSummary(store).doneCount + (if todo.isDone then 1 else 0)
  {
    RemoveAllAbsent(store, todo.id);
    CountDoneAppend(store, [todo]);
  }

  /** Removing an id no todo has changes nothing. */
  lemma {:induction false} RemoveAllAbsent(store: Store, id: string)
    requires CountId(store, id) == 0
    ensures RemoveAll(store, id) == store
  {
    if |store| > 0 {
      RemoveAllAbsent(store[1..], id);
    }
  }
}

=== FILE: transiency.dfy ===
/** Transiency resolvers: how an exception is classified for retries. A
    resolver maps an exception to a `Transiency`. The three standard ones
    share the classification of the well-known exceptions and differ in what
    they answer for the rest.
 */
module TransiencyResolvers {
  import opened Wrappers

  datatype Transiency = Unknown | NonTransient | Transient | SuperTransient | Terminal

  /** The exceptions a resolver is asked about. `ObjectDisposed` carries the
      name of the disposed object. */
  datatype ExceptionKind =
    | RetryRequired
    | TransientException
    | RetryPolicyTimeoutExceeded
    | Timeout
    | TerminalException
    | ObjectDisposed(objectName: string)
    | NullReference
    | ServiceException
    | VersionMismatch
    | TaskCanceled
    | OperationCanceled
    | OtherException(code: nat)

  /** The name `ObjectDisposedException` reports for a disposed service
      provider. */
  const ServiceProviderName: string := "IServiceProvider"

  /** What a disposed service provider throws when a service is requested. */
  function DisposedProviderException(): ExceptionKind
  {
    ObjectDisposed(ServiceProviderName)
  }

  /** `TaskCanceledException` derives from `OperationCanceledException`. */
  predicate IsCancellation(e: ExceptionKind)
  {
    e.TaskCanceled? || e.OperationCanceled?
  }

  /** The classification every resolver shares, if `e` is well known. */
  function WellKnown(e: ExceptionKind): (r: Option<Transiency>)
  {
    match e
    case RetryRequired => Some(SuperTransient)
    case TransientException => Some(Transient)
    case RetryPolicyTimeoutExceeded => Some(NonTransient)
    case Timeout => Some(Transient)
    case TerminalException => Some(Terminal)
    case ObjectDisposed(name) => if name == ServiceProviderName then Some(Terminal) else None
    case _ => None
  }

  /** `TransiencyResolvers.CoreOnly`: well-known exceptions only. */
  function CoreOnly(e: ExceptionKind): (r: Transiency)
    ensures r == Unknown <==> WellKnown(e).None?
  {
    match WellKnown(e)
    case Some(t) => t
    case None => Unknown
  }

  /** `TransiencyResolvers.PreferTransient`: a cancellation is transient,
      anything else not well known is not. */
  function PreferTransient(e: ExceptionKind): (r: Transiency)
    ensures r != Unknown
    ensures WellKnown(e).None? ==> (r == Transient <==> IsCancellation(e))
  {
    match WellKnown(e)
    case Some(t) => t
    case None => if IsCancellation(e) then Transient else NonTransient
  }

  /** `TransiencyResolvers.PreferNonTransient`: anything not well known is
      not transient, cancellations included. */
  function PreferNonTransient(e: ExceptionKind): (r: Transiency)
    ensures r != Unknown
  {
    match WellKnown(e)
    case Some(t) => t
    case None => NonTransient
  }

  /** The preferring resolvers refine `CoreOnly`: where it knows the answer
      they give the same one, and they never answer Unknown. They disagree
      with each other only on cancellations, which neither treats as well
      known. */
  lemma ResolversAgree(e: ExceptionKind)
    ensures CoreOnly(e) != Unknown ==> PreferTransient(e) == CoreOnly(e) && PreferNonTransient(e) == CoreOnly(e)
    ensures PreferTransient(e) != PreferNonTransient(e) <==> IsCancellation(e)
    ensures IsCancellation(e) ==> CoreOnly(e) == Unknown
  {
  }

  /** Every resolver classifies a disposed service provider as Terminal,
      while other disposed objects are not well known. */
  lemma DisposedProviderIsTerminal(name: string)
    ensures CoreOnly(DisposedProviderException()) == Terminal
    ensures PreferTransient(DisposedProviderException()) == Terminal
    ensures PreferNonTransient(DisposedProviderException()) == Terminal
    ensures name != ServiceProviderName ==> CoreOnly(ObjectDisposed(name)) == Unknown
  {
  }

  // The cells `TransiencyResolversTest` asserts

  /** Asserted for all three resolvers. */
  const WellKnownTable: seq<(ExceptionKind, Transiency)> := [
    (RetryRequired, SuperTransient),
    (TransientException, Transient),
    (RetryPolicyTimeoutExceeded, NonTransient),
    (Timeout, Transient),
    (TerminalException, Terminal),
    (ObjectDisposed("IServiceProvider"), Terminal)]

  /** Asserted for `CoreOnly` only. */
  const CoreOnlyTable: seq<(ExceptionKind, Transiency)> := [
    (NullReference, Unknown),
    (ObjectDisposed("Whatever"), Unknown)]

  /** Asserted for the two preferring resolvers:
      exception, PreferTransient, PreferNonTransient. */
  const PreferTable: seq<(ExceptionKind, Transiency, Transiency)> := [
    (NullReference, NonTransient, NonTransient),
    (ObjectDisposed("Whatever"), NonTransient, NonTransient),
    (ServiceException, NonTransient, NonTransient),
    (VersionMismatch, NonTransient, NonTransient),
    (TaskCanceled, Transient, NonTransient),
    (OperationCanceled, Transient, NonTransient)]

  /** The three resolvers reproduce every asserted cell. */
  lemma DecisionTable()
    ensures forall i :: 0 <= i < |WellKnownTable| ==>
      var (e, t) := WellKnownTable[i];
      CoreOnly(e) == t && PreferTransient(e) == t && PreferNonTransient(e) == t
    ensures forall i :: 0 <= i < |CoreOnlyTable| ==>
      var (e, t) := CoreOnlyTable[i];
      CoreOnly(e) == t
    ensures forall i :: 0 <= i < |PreferTable| ==>
      var (e, transient, nonTransient) := PreferTable[i];
      PreferTransient(e) == transient && PreferNonTransient(e) == nonTransient
  {
  }

  // Cells no test asserts: a modelling decision

  /** What this model answers for `CoreOnly` on the exceptions the tests
      put only to the preferring resolvers. */
  const CoreOnlyDecisions: seq<(ExceptionKind, Transiency)> := [
    (ServiceException, Unknown),
    (VersionMismatch, Unknown),
    (TaskCanceled, Unknown),
    (OperationCanceled, Unknown)]

  lemma CoreOnlyDecided()
    ensures forall i :: 0 <= i < |CoreOnlyDecisions| ==>
      var (e, t) := CoreOnlyDecisions[i];
      CoreOnly(e) == t
  {
  }
}

=== FILE: version_set.dfy ===
/** `VersionSet`: a set of named scopes, each mapped to a `System.Version`,
    carried in the RPC handshake and serialized as the comma-separated list
    `scope=version,scope=version,…`.

    The C# `VersionSet` keeps the items in a dictionary. Here they are a list in the
    dictionary's enumeration order with pairwise distinct scopes: assigning to
    an existing key keeps its position, a new key goes to the end. That order
    is what `Format` writes.
 */
module VersionSets {
  import opened Wrappers
  import opened Text

  /** `int.MaxValue`, the bound on each component of a `System.Version`. */
  const Int32Max: nat := 0x7fff_ffff

  /** A `System.Version`: major, minor and optionally build and revision. */
  datatype Version = Version(parts: seq<nat>)

  predicate ValidVersion(v: Version)
  {
    && 2 <= |v.parts| <= 4
    && forall i :: 0 <= i < |v.parts| ==> v.parts[i] <= Int32Max
  }

  /** `new Version()`, that is 0.0: what the indexer returns for an unknown scope. */
  const ZeroVersion: Version := Version([0, 0])

  function NatStrings(ns: seq<nat>): (r: seq<string>)
    ensures |r| == |ns|
    ensures forall i :: 0 <= i < |ns| ==> r[i] == NatToString(ns[i])
  {
    if |ns| == 0 then [] else [NatToString(ns[0])] + NatStrings(ns[1..])
  }

  /** `version.Format()`: the components in decimal, separated by '.'. */
  function FormatVersion(v: Version): string
  {
    Join(".", NatStrings(v.parts))
  }

  /** Each piece must be a decimal number no larger than `int.MaxValue`. */
  function ParseComponents(pieces: seq<string>): (r: Option<seq<nat>>)
    ensures r.Some? ==> |r.value| == |pieces|
  {
    if |pieces| == 0 then Some([])
    else
      match ParseNat(pieces[0])
      case None => None
      case Some(n) =>
        if n > Int32Max then None
        else
          match ParseComponents(pieces[1..])
          case None => None
          case Some(rest) => Some([n] + rest)
  }

  /** `Version.TryParse`: two to four '.'-separated components. */
  function ParseVersion(s: string): (r: Option<Version>)
    ensures r.Some? ==> ValidVersion(r.value)
  {
    var pieces := Split(s, '.');
    if |pieces| < 2 || |pieces| > 4 then None
    else
      match ParseComponents(pieces)
      case None => None
      case Some(ns) =>
        if forall i :: 0 <= i < |ns| ==> ns[i] <= Int32Max then Some(Version(ns)) else None
  }

  lemma DigitsExclude(s: string, c: char)
    requires AllDigits(s) && !IsDigit(c)
    ensures c !in s
  {
    assert forall i :: 0 <= i < |s| ==> s[i] != c;
  }

  lemma {:induction false} ParseComponentsOfStrings(ns: seq<nat>)
    requires forall i :: 0 <= i < |ns| ==> ns[i] <= Int32Max
    ensures ParseComponents(NatStrings(ns)) == Some(ns)
  {
    if |ns| > 0 {
      ParseNatToString(ns[0]);
      assert NatStrings(ns)[1..] == NatStrings(ns[1..]);
      ParseComponentsOfStrings(ns[1..]);
      assert [ns[0]] + ns[1..] == ns;
    }
  }

  /** A valid version parses back from its formatted text. */
  lemma ParseFormatVersion(v: Version)
    requires ValidVersion(v)
    ensures ParseVersion(FormatVersion(v)) == Some(v)
  {
    var strs := NatStrings(v.parts);
    forall i | 0 <= i < |strs| ensures '.' !in strs[i] {
      DigitsExclude(strs[i], '.');
    }
    SplitJoin(strs, '.');
    ParseComponentsOfStrings(v.parts);
  }

  /** The characters of a formatted version are digits and '.'. */
  lemma FormattedVersionExcludes(v: Version, c: char)
    requires !IsDigit(c) && c != '.'
    ensures c !in FormatVersion(v)
  {
    var strs := NatStrings(v.parts);
    forall i | 0 <= i < |strs| ensures c !in strs[i] {
      DigitsExclude(strs[i], c);
    }
    JoinExcludes(".", strs, c);
  }

  // Items

  datatype Item = Item(scope: string, version: Version)

  predicate DistinctScopes(items: seq<Item>)
  {
    forall i, j :: 0 <= i < j < |items| ==> items[i].scope != items[j].scope
  }

  predicate ValidItems(items: seq<Item>)
  {
    && DistinctScopes(items)
    && forall i :: 0 <= i < |items| ==> ValidVersion(items[i].version)
  }

  datatype VersionSet = VersionSet(items: seq<Item>)
  {
    predicate Valid() {
      ValidItems(items)
    }

    /** `Count`. */
    function Count(): nat {
      |items|
    }
  }

  /** The dictionary the items stand for. */
  function ToMap(items: seq<Item>): (r: map<string, Version>)
    ensures r == map[] <==> |items| == 0
    ensures |items| > 0 ==> items[0].scope in r && r[items[0].scope] == items[0].version
  {
    if |items| == 0 then map[]
    else
      var r := ToMap(items[1..])[items[0].scope := items[0].version];
      var empty: map<string, Version> := map[];
      assert items[0].scope in r && items[0].scope !in empty;
      r
  }

  lemma {:induction false} ToMapKeys(items: seq<Item>, k: string)
    ensures k in ToMap(items) <==> exists i :: 0 <= i < |items| && items[i].scope == k
  {
    if |items| > 0 {
      ToMapKeys(items[1..], k);
      if exists i :: 0 <= i < |items| && items[i].scope == k {
        var i :| 0 <= i < |items| && items[i].scope == k;
        if i > 0 {
          assert items[1..][i - 1].scope == k;
        }
      }
      if exists i :: 0 <= i < |items[1..]| && items[1..][i].scope == k {
        var i :| 0 <= i < |items[1..]| && items[1..][i].scope == k;
        assert items[i + 1].scope == k;
      }
    }
  }

  lemma {:induction false} ToMapValue(items: seq<Item>, i: nat)
    requires DistinctScopes(items) && i < |items|
    ensures items[i].scope in ToMap(items)
    ensures ToMap(items)[items[i].scope] == items[i].version
  {
    if i > 0 {
      assert DistinctScopes(items[1..]);
      ToMapValue(items[1..], i - 1);
    }
  }

  lemma {:induction false} ToMapSize(items: seq<Item>)
    requires DistinctScopes(items)
    ensures |ToMap(items)| == |items|
  {
    if |items| > 0 {
      assert DistinctScopes(items[1..]);
      ToMapSize(items[1..]);
      HeadNotInTail(items);
    }
  }

  lemma HeadNotInTail(items: seq<Item>)
    requires DistinctScopes(items) && |items| > 0
    ensures items[0].scope !in ToMap(items[1..])
  {
    ToMapKeys(items[1..], items[0].scope);
    forall j | 0 <= j < |items[1..]| ensures items[1..][j].scope != items[0].scope {
      assert items[1..][j] == items[j + 1];
    }
  }

  /** First item with the given scope (a dictionary lookup). */
  function Lookup(items: seq<Item>, scope: string): (r: Option<Version>)
    requires DistinctScopes(items)
    ensures r.Some? <==> scope in ToMap(items)
    ensures r.Some? ==> ToMap(items)[scope] == r.value
  {
    ToMapKeys(items, scope);
    if |items| == 0 then None
    else if items[0].scope == scope then Some(items[0].version)
    else
      assert DistinctScopes(items[1..]);
      ToMapKeys(items[1..], scope);
      Lookup(items[1..], scope)
  }

  /** The indexer `this[scope]`: the stored version, or `ZeroVersion` for a
      scope the set does not contain. */
  function Get(vs: VersionSet, scope: string): (r: Version)
    requires vs.Valid()
    ensures scope in ToMap(vs.items) ==> r == ToMap(vs.items)[scope]
    ensures scope !in ToMap(vs.items) ==> r == ZeroVersion
  {
    Lookup(vs.items, scope).GetOr(ZeroVersion)
  }

  /** `versions[scope] = version` on the parser's dictionary: an existing
      scope keeps its position and takes the new version, a new one is
      appended. */
  function Put(items: seq<Item>, it: Item): (r: seq<Item>)
    ensures |items| <= |r| <= |items| + 1
  {
    if |items| == 0 then [it]
    else if items[0].scope == it.scope then [it] + items[1..]
    else [items[0]] + Put(items[1..], it)
  }

  /** `Put` is a dictionary assignment that keeps the enumeration order: the
      scopes stay distinct, the dictionary gains or updates exactly one key,
      the count grows only for a new scope, and earlier positions keep their
      scopes. */
  lemma PutSpec(items: seq<Item>, it: Item)
    requires DistinctScopes(items)
    ensures DistinctScopes(Put(items, it))
    ensures ToMap(Put(items, it)) == ToMap(items)[it.scope := it.version]
    ensures |Put(items, it)| == |items| + (if it.scope in ToMap(items) then 0 else 1)
    ensures forall i :: 0 <= i < |items| ==> Put(items, it)[i].scope == items[i].scope
  {
    PutShape(items, it);
    PutMap(items, it);
    PutDistinct(items, it);
  }

  /** The count grows only for a new scope, and existing positions keep
      their scopes. */
  lemma {:induction false} PutShape(items: seq<Item>, it: Item)
    ensures |Put(items, it)| == |items| + (if it.scope in ToMap(items) then 0 else 1)
    ensures forall i :: 0 <= i < |items| ==> Put(items, it)[i].scope == items[i].scope
  {
    ToMapKeys(items, it.scope);
    if |items| > 0 && items[0].scope != it.scope {
      ToMapKeys(items[1..], it.scope);
      PutShape(items[1..], it);
      var rest := Put(items[1..], it);
      assert Put(items, it) == [items[0]] + rest;
      assert forall i :: 1 <= i < |items| ==> items[i] == items[1..][i - 1];
    }
  }

  /** The dictionary gains or updates exactly the assigned key. */
  lemma {:induction false} PutMap(items: seq<Item>, it: Item)
    requires DistinctScopes(items)
    ensures ToMap(Put(items, it)) == ToMap(items)[it.scope := it.version]
  {
    if |items| == 0 {
    } else if items[0].scope == it.scope {
      assert ([it] + items[1..])[1..] == items[1..];
      UpdateTwice(ToMap(items[1..]), it.scope, items[0].version, it.version);
    } else {
      assert DistinctScopes(items[1..]);
      PutMap(items[1..], it);
      var rest := Put(items[1..], it);
      assert ([items[0]] + rest)[1..] == rest;
      UpdatesCommute(ToMap(items[1..]), items[0].scope, items[0].version, it.scope, it.version);
    }
  }

  /** A second update of the same key overrides the first. */
  lemma UpdateTwice<K, V>(m: map<K, V>, k: K, v1: V, v2: V)
    ensures m[k := v1][k := v2] == m[k := v2]
  {
  }

  /** Updates of different keys commute. */
  lemma UpdatesCommute<K, V>(m: map<K, V>, k1: K, v1: V, k2: K, v2: V)
    requires k1 != k2
    ensures m[k2 := v2][k1 := v1] == m[k1 := v1][k2 := v2]
  {
  }

  /** The scopes stay distinct. */
  lemma PutDistinct(items: seq<Item>, it: Item)
    requires DistinctScopes(items)
    ensures DistinctScopes(Put(items, it))
  {
    PutShape(items, it);
    ToMapKeys(items, it.scope);
    var r := Put(items, it);
    if it.scope in ToMap(items) {
      forall i, j | 0 <= i < j < |r| ensures r[i].scope != r[j].scope {
        assert r[i].scope == items[i].scope && r[j].scope == items[j].scope;
      }
    } else {
      PutAppends(items, it);
      forall i, j | 0 <= i < j < |r| ensures r[i].scope != r[j].scope {
        if j < |items| {
          assert r[i] == items[i] && r[j] == items[j];
        } else {
          assert r[i] == items[i] && r[j] == it;
        }
      }
    }
  }

  // Format

  /** One list item: `{scope}={version.Format()}`. */
  function ItemText(it: Item): string
  {
    it.scope + "=" + FormatVersion(it.version)
  }

  function ItemTexts(items: seq<Item>): (r: seq<string>)
    ensures |r| == |items|
    ensures forall i :: 0 <= i < |items| ==> r[i] == ItemText(items[i])
  {
    if |items| == 0 then [] else [ItemText(items[0])] + ItemTexts(items[1..])
  }

  /** `Format()`, also the serialized `Versions` property: "" for the empty
      set, otherwise the items in enumeration order separated by ','. */
  function Format(vs: VersionSet): (r: string)
    ensures r == "" <==> vs.Count() == 0
  {
    if |vs.items| == 0 then ""
    else
      var texts := ItemTexts(vs.items);
      assert texts[0][|vs.items[0].scope|] == '=';
      JoinNonEmpty(texts);
      Join(",", texts)
  }

  // Parse and TryParse

  /** One list item: everything before the first '=' is the scope, everything
      after it must parse as a version. */
  function ParseItem(part: string): (r: Option<Item>)
    ensures r.Some? ==> ValidVersion(r.value.version)
  {
    match IndexOf(part, '=')
    case None => None
    case Some(i) =>
      match ParseVersion(part[i + 1..])
      case None => None
      case Some(v) => Some(Item(part[..i], v))
  }

  /** A parsed item splits its text at the first '=': the scope is the text
      before it, and the rest parses as the item's version. */
  lemma ParseItemSplit(part: string)
    requires ParseItem(part).Some?
    ensures var it := ParseItem(part).value;
            && |it.scope| < |part|
            && part[..|it.scope|] == it.scope
            && part[|it.scope|] == '='
            && '=' !in it.scope
            && ParseVersion(part[|it.scope| + 1..]) == Some(it.version)
  {
    var i := IndexOf(part, '=').value;
    var v := ParseVersion(part[i + 1..]).value;
    assert ParseItem(part) == Some(Item(part[..i], v));
    assert |part[..i]| == i;
  }

  /** One iteration of the parser loop on the dictionary built so far. */
  function ParseStep(acc: seq<Item>, part: string, ignoreErrors: bool): Option<seq<Item>>
  {
    match ParseItem(part)
    case None => if ignoreErrors then Some(acc) else None
    case Some(it) => Some(Put(acc, it))
  }

  lemma ParseStepValid(acc: seq<Item>, part: string, ignoreErrors: bool)
    requires ValidItems(acc)
    ensures ParseStep(acc, part, ignoreErrors).Some? ==> ValidItems(ParseStep(acc, part, ignoreErrors).value)
  {
    match ParseItem(part)
    case None =>
    case Some(it) =>
      var r := Put(acc, it);
      PutSpec(acc, it);
      forall i | 0 <= i < |r| ensures ValidVersion(r[i].version) {
        ToMapValue(r, i);
        if r[i].scope != it.scope {
          ToMapKeys(acc, r[i].scope);
          var j :| 0 <= j < |acc| && acc[j].scope == r[i].scope;
          ToMapValue(acc, j);
        }
      }
  }

  /** The parser loop over the list items, left to right. A malformed item
      fails the whole parse, or is skipped when `ignoreErrors` is set. */
  function ParseItems(parts: seq<string>, ignoreErrors: bool): (r: Option<seq<Item>>)
    ensures r.Some? ==> ValidItems(r.value)
  {
    if |parts| == 0 then Some([])
    else
      match ParseItems(parts[..|parts| - 1], ignoreErrors)
      case None => None
      case Some(acc) =>
        ParseStepValid(acc, parts[|parts| - 1], ignoreErrors);
        ParseStep(acc, parts[|parts| - 1], ignoreErrors)
  }

  /** `TryParse(s, ignoreErrors, out result)`; `None` stands for `false`. A
      null or empty string is the empty set. */
  function TryParse(s: Option<string>, ignoreErrors: bool): (r: Option<VersionSet>)
    ensures r.Some? ==> r.value.Valid()
    ensures (s.None? || s.value == "") ==> r == Some(VersionSet([]))
  {
    if s.None? || s.value == "" then Some(VersionSet([]))
    else
      match ParseItems(Split(s.value, ','), ignoreErrors)
      case None => None
      case Some(items) => Some(VersionSet(items))
  }

  datatype ParseError = FormatError(text: Option<string>)

  /** `Parse(s, ignoreErrors)`: throws a format error where `TryParse` fails.
      The string constructor `new VersionSet(versions)` is `Parse(versions)`. */
  function Parse(s: Option<string>, ignoreErrors: bool): (r: Result<VersionSet, ParseError>)
    ensures r.Ok? <==> TryParse(s, ignoreErrors).Some?
    ensures r.Ok? ==> r.value.Valid() && r.value == TryParse(s, ignoreErrors).value
    ensures r.Err? ==> r.error == FormatError(s)
  {
    match TryParse(s, ignoreErrors)
    case Some(vs) => Ok(vs)
    case None => Err(FormatError(s))
  }

  /** Null and "" parse to the empty set, whose `Format` is "". */
  lemma EmptyText(ignoreErrors: bool)
    ensures Parse(None, ignoreErrors) == Ok(VersionSet([]))
    ensures Parse(Some(""), ignoreErrors) == Ok(VersionSet([]))
    ensures Format(VersionSet([])) == ""
  {
  }

  /** The version of the last well-formed item naming `scope`, if any. */
  function LastWellFormed(parts: seq<string>, scope: string): Option<Version>
  {
    if |parts| == 0 then None
    else
      match ParseItem(parts[|parts| - 1])
      case Some(it) =>
        if it.scope == scope then Some(it.version) else LastWellFormed(parts[..|parts| - 1], scope)
      case None => LastWellFormed(parts[..|parts| - 1], scope)
  }

  /** When a scope appears in several items, the later item wins: a parsed
      set maps a scope to the version of the last well-formed item naming it,
      and contains no other scopes. */
  lemma {:induction false} ParseItemsLastWins(parts: seq<string>, ignoreErrors: bool, scope: string)
    requires ParseItems(parts, ignoreErrors).Some?
    ensures var m := ToMap(ParseItems(parts, ignoreErrors).value);
            && (scope in m <==> LastWellFormed(parts, scope).Some?)
            && (scope in m ==> m[scope] == LastWellFormed(parts, scope).value)
  {
    if |parts| > 0 {
      var init := parts[..|parts| - 1];
      ParseItemsLastWins(init, ignoreErrors, scope);
      var acc := ParseItems(init, ignoreErrors).value;
      match ParseItem(parts[|parts| - 1])
      case None =>
      case Some(it) => PutSpec(acc, it);
    }
  }

  predicate Malformed(part: string)
  {
    ParseItem(part).None?
  }

  /** With `ignoreErrors` the parse never fails. */
  lemma {:induction false} ParseItemsIgnoring(parts: seq<string>)
    ensures ParseItems(parts, true).Some?
  {
    if |parts| > 0 {
      ParseItemsIgnoring(parts[..|parts| - 1]);
    }
  }

  /** Without `ignoreErrors` the parse fails exactly when some item lacks '='
      or carries an unparsable version. */
  lemma {:induction false} ParseItemsFailure(parts: seq<string>)
    ensures ParseItems(parts, false).None? <==> exists i :: 0 <= i < |parts| && Malformed(parts[i])
  {
    if |parts| > 0 {
      var n := |parts| - 1;
      var init := parts[..n];
      ParseItemsFailure(init);
      var prev := ParseItems(init, false);
      assert ParseItems(parts, false) == if prev.None? then None else ParseStep(prev.value, parts[n], false);
      if Malformed(parts[n]) {
        assert ParseItems(parts, false).None?;
      } else if prev.None? {
        var i :| 0 <= i < n && Malformed(init[i]);
        assert parts[i] == init[i];
      } else {
        assert ParseItems(parts, false).Some?;
        forall i | 0 <= i < |parts| ensures !Malformed(parts[i]) {
          if i < n {
            assert parts[i] == init[i];
          }
        }
      }
    }
  }

  lemma {:induction false} AllMalformedIgnored(parts: seq<string>)
    requires forall i :: 0 <= i < |parts| ==> Malformed(parts[i])
    ensures ParseItems(parts, true) == Some([])
  {
    if |parts| > 0 {
      AllMalformedIgnored(parts[..|parts| - 1]);
    }
  }

  lemma {:induction false} SplitExcludes(s: string, sep: char, c: char)
    requires c !in s
    ensures forall i :: 0 <= i < |Split(s, sep)| ==> c !in Split(s, sep)[i]
    decreases |s|
  {
    match IndexOf(s, sep)
    case None =>
    case Some(i) =>
      assert c !in s[..i];
      assert c !in s[i + 1..];
      SplitExcludes(s[i + 1..], sep, c);
  }

  /** A non-empty text with no '=' at all fails to parse; with
      `ignoreErrors` every item is skipped and the result is empty. */
  lemma TextWithoutEquals(s: string)
    requires s != "" && '=' !in s
    ensures TryParse(Some(s), false).None?
    ensures TryParse(Some(s), true) == Some(VersionSet([]))
  {
    var parts := Split(s, ',');
    SplitExcludes(s, ',', '=');
    forall i | 0 <= i < |parts| ensures Malformed(parts[i]) {
      assert '=' !in parts[i];
    }
    ParseItemsFailure(parts);
    assert Malformed(parts[0]);
    AllMalformedIgnored(parts);
  }

  // Round trip

  /** Scopes the list format can carry without escaping: no ',' (the list
      separator), no '=' (the item separator) and no '\' (the escape). */
  predicate PlainScopes(vs: VersionSet)
  {
    forall i :: 0 <= i < |vs.items| ==>
      ',' !in vs.items[i].scope && '=' !in vs.items[i].scope && '\\' !in vs.items[i].scope
  }

  lemma ParseItemText(it: Item)
    requires ValidVersion(it.version)
    requires '=' !in it.scope
    ensures ParseItem(ItemText(it)) == Some(it)
  {
    var t := ItemText(it);
    IndexOfAfterPrefix(it.scope, '=', FormatVersion(it.version));
    assert t == it.scope + ['='] + FormatVersion(it.version);
    var i := |it.scope|;
    assert t[..i] == it.scope;
    assert t[i + 1..] == FormatVersion(it.version);
    ParseFormatVersion(it.version);
  }

  /** Assigning a scope the dictionary does not hold yet appends it. */
  lemma {:induction false} PutAppends(items: seq<Item>, it: Item)
    requires forall i :: 0 <= i < |items| ==> items[i].scope != it.scope
    ensures Put(items, it) == items + [it]
  {
    if |items| > 0 {
      PutAppends(items[1..], it);
      assert items == [items[0]] + items[1..];
    }
  }

  lemma {:induction false} ParseItemTexts(items: seq<Item>, ignoreErrors: bool)
    requires ValidItems(items)
    requires forall i :: 0 <= i < |items| ==> '=' !in items[i].scope
    ensures ParseItems(ItemTexts(items), ignoreErrors) == Some(items)
  {
    if |items| > 0 {
      var n := |items| - 1;
      var init, last := items[..n], items[n];
      assert ValidItems(init) && forall i :: 0 <= i < |init| ==> init[i].scope != last.scope && '=' !in init[i].scope by {
        assert forall i :: 0 <= i < n ==> init[i] == items[i];
      }
      ParseItemTexts(init, ignoreErrors);
      ParseItemsStep(init, last, ignoreErrors);
      DropLastAppend(items);
    }
  }

  lemma DropLastAppend<T>(s: seq<T>)
    requires |s| > 0
    ensures s[..|s| - 1] + [s[|s| - 1]] == s
  {
  }

  /** One more formatted item, with a scope not seen before, parses to one
      more item. */
  lemma ParseItemsStep(init: seq<Item>, last: Item, ignoreErrors: bool)
    requires ParseItems(ItemTexts(init), ignoreErrors) == Some(init)
    requires ValidVersion(last.version) && '=' !in last.scope
    requires forall i :: 0 <= i < |init| ==> init[i].scope != last.scope
    ensures ParseItems(ItemTexts(init + [last]), ignoreErrors) == Some(init + [last])
  {
    ItemTextsSnoc(init, last);
    ParseItemsSnoc(ItemTexts(init), ItemText(last), ignoreErrors);
    ParseItemText(last);
    PutAppends(init, last);
  }

  /** The texts of one more item are one more text. */
  lemma ItemTextsSnoc(init: seq<Item>, last: Item)
    ensures ItemTexts(init + [last]) == ItemTexts(init) + [ItemText(last)]
  {
    var l, r := ItemTexts(init + [last]), ItemTexts(init) + [ItemText(last)];
    forall i | 0 <= i < |l| ensures l[i] == r[i] {
      if i < |init| {
        assert (init + [last])[i] == init[i];
      }
    }
  }

  /** Parsing one more part is one more `ParseStep` on what came before. */
  lemma ParseItemsSnoc(parts: seq<string>, part: string, ignoreErrors: bool)
    ensures ParseItems(parts + [part], ignoreErrors)
         == match ParseItems(parts, ignoreErrors)
            case None => None
            case Some(acc) => ParseStep(acc, part, ignoreErrors)
  {
    assert (parts + [part])[..|parts|] == parts;
  }

  /** The serialized form parses back, through the string constructor, to the
      very same set (same items in the same order), provided scopes need no
      escaping. */
  lemma FormatParseRoundTrip(vs: VersionSet, ignoreErrors: bool)
    requires vs.Valid()
    requires PlainScopes(vs)
    ensures Parse(Some(Format(vs)), ignoreErrors) == Ok(vs)
  {
    if |vs.items| > 0 {
      var texts := ItemTexts(vs.items);
      forall i | 0 <= i < |texts| ensures ',' !in texts[i] {
        FormattedVersionExcludes(vs.items[i].version, ',');
      }
      SplitJoin(texts, ',');
      ParseItemTexts(vs.items, ignoreErrors);
      assert Format(vs) != "" by {
        assert |texts[0]| >= 1;
        JoinNonEmpty(texts);
      }
    }
  }

  lemma JoinNonEmpty(texts: seq<string>)
    requires |texts| >= 1 && |texts[0]| >= 1
    ensures |Join(",", texts)| >= 1
  {
  }

  // Equality and hash code

  /** XOR of the per-item hashes `HashCode.Combine(scope, version)`, given by
      `itemHash`. */
  function XorAll(items: seq<Item>, itemHash: Item -> bv32): bv32
  {
    if |items| == 0 then 0 else itemHash(items[0]) ^ XorAll(items[1..], itemHash)
  }

  /** The `HashCode` property: the XOR of the item hashes, with 0 replaced by
      1 (0 marks "not computed yet" in the cache field). */
  function HashCode(vs: VersionSet, itemHash: Item -> bv32): (r: bv32)
    ensures r != 0
  {
    var x := XorAll(vs.items, itemHash);
    if x == 0 then 1 else x
  }

  /** `Equals(other)`: same count, same hash code, and every item of `other`
      found in this set with an equal version. */
  predicate Equals(a: VersionSet, b: VersionSet, itemHash: Item -> bv32)
    requires a.Valid()
    ensures Equals(a, b, itemHash) ==> a.Count() == b.Count() && HashCode(a, itemHash) == HashCode(b, itemHash)
    ensures Equals(a, b, itemHash) ==> forall i :: 0 <= i < |b.items| ==> Get(a, b.items[i].scope) == b.items[i].version
  {
    && a.Count() == b.Count()
    && HashCode(a, itemHash) == HashCode(b, itemHash)
    && forall i :: 0 <= i < |b.items| ==> Lookup(a.items, b.items[i].scope) == Some(b.items[i].version)
  }

  function RemoveScope(items: seq<Item>, scope: string): (r: seq<Item>)
    requires DistinctScopes(items)
    ensures DistinctScopes(r)
    ensures ToMap(r) == ToMap(items) - {scope}
  {
    if |items| == 0 then []
    else
      assert DistinctScopes(items[1..]);
      var rest := RemoveScope(items[1..], scope);
      HeadNotInTail(items);
      if items[0].scope == scope then
        rest
      else
        var r := [items[0]] + rest;
        assert r[1..] == rest;
        ToMapKeys(rest, items[0].scope);
        assert forall j :: 1 <= j < |r| ==> r[j] == rest[j - 1];
        r
  }

  lemma {:induction false} XorRemove(items: seq<Item>, i: nat, itemHash: Item -> bv32)
    requires DistinctScopes(items) && i < |items|
    ensures XorAll(items, itemHash) == itemHash(items[i]) ^ XorAll(RemoveScope(items, items[i].scope), itemHash)
  {
    assert DistinctScopes(items[1..]);
    if i == 0 {
      assert RemoveScope(items, items[0].scope) == RemoveScope(items[1..], items[0].scope);
      RemoveAbsent(items[1..], items[0].scope);
    } else {
      XorRemove(items[1..], i - 1, itemHash);
      assert items[1..][i - 1] == items[i];
    }
  }

  lemma {:induction false} RemoveAbsent(items: seq<Item>, scope: string)
    requires DistinctScopes(items)
    requires forall j :: 0 <= j < |items| ==> items[j].scope != scope
    ensures RemoveScope(items, scope) == items
  {
    if |items| > 0 {
      assert DistinctScopes(items[1..]);
      RemoveAbsent(items[1..], scope);
    }
  }

  /** Lists holding the same dictionary have the same XOR of item hashes,
      whatever their order. */
  lemma {:induction false} XorOrderIndependent(a: seq<Item>, b: seq<Item>, itemHash: Item -> bv32)
    requires DistinctScopes(a) && DistinctScopes(b)
    requires ToMap(a) == ToMap(b)
    ensures XorAll(a, itemHash) == XorAll(b, itemHash)
    decreases |a|
  {
    if |a| == 0 {
      ToMapSize(b);
    } else {
      var x := a[0];
      ToMapValue(a, 0);
      ToMapKeys(b, x.scope);
      var i :| 0 <= i < |b| && b[i].scope == x.scope;
      ToMapValue(b, i);
      assert b[i] == x;
      XorRemove(b, i, itemHash);
      XorRemove(a, 0, itemHash);
      var a' := RemoveScope(a, x.scope);
      var b' := RemoveScope(b, x.scope);
      ToMapSize(a);
      ToMapSize(a');
      XorOrderIndependent(a', b', itemHash);
    }
  }

  lemma SubsetSameSize(a: set<string>, b: set<string>)
    requires a <= b && |a| == |b|
    ensures a == b
  {
    assert |b - a| == |b| - |a|;
  }

  /** Equality is order-independent and ignores the hash: two sets are
      `Equals` exactly when they hold the same scope-to-version dictionary. */
  lemma EqualsIffSameItems(a: VersionSet, b: VersionSet, itemHash: Item -> bv32)
    requires a.Valid() && b.Valid()
    ensures Equals(a, b, itemHash) <==> ToMap(a.items) == ToMap(b.items)
  {
    ToMapSize(a.items);
    ToMapSize(b.items);
    if Equals(a, b, itemHash) {
      forall k | k in ToMap(b.items) ensures k in ToMap(a.items) && ToMap(a.items)[k] == ToMap(b.items)[k] {
        ToMapKeys(b.items, k);
        var i :| 0 <= i < |b.items| && b.items[i].scope == k;
        ToMapValue(b.items, i);
      }
      SubsetSameSize(ToMap(b.items).Keys, ToMap(a.items).Keys);
    }
    if ToMap(a.items) == ToMap(b.items) {
      XorOrderIndependent(a.items, b.items, itemHash);
      forall i | 0 <= i < |b.items| ensures Lookup(a.items, b.items[i].scope) == Some(b.items[i].version) {
        ToMapValue(b.items, i);
      }
    }
  }

  /** `RpcHandshake`: the remote peer's id and its API version set, which a
      peer may omit. */
  datatype Handshake = Handshake(remotePeerId: nat, remoteApiVersionSet: Option<VersionSet>)
}

=== FILE: wrappers.dfy ===
/** Failure-carrying shapes shared by every module of the model.

    `Option` stands for C# nullable references and `Option<T>`
    results; `Result` stands for an operation that either returns a value or
    throws one of the modelled C# exceptions.
 */
module Wrappers {

  /** A value that may be absent (a C# `null`). */
  datatype Option<+T> = None | Some(value: T) {

    /** The value, or `default` when absent (`ValueOrDefault`, `??`). */
    function GetOr(default: T): T {
      match this
      case Some(v) => v
      case None => default
    }
  }

  /** Either the value an operation returns or the error it throws. */
  datatype Result<+T, +E> = Ok(value: T) | Err(error: E) {

    predicate IsFailure() {
      Err?
    }

    function PropagateFailure<U>(): Result<U, E>
      requires Err?
    {
      Err(error)
    }

    function Extract(): T
      requires Ok?
    {
      value
    }
  }
}
